=== FILE: README.md ===
# AMPS browser console — a Dafny model of its state logic

The AMPS browser is a React console for an AMPS message broker. A user picks
a server, a topic and a command (SOW query, subscribe, query + subscribe,
SOW stats). The console sends the command and shows the broker's replies in
a data grid. This project models the logic behind that console as pure
functions over immutable records, and proves what each one promises.

- **Reconciler** (`reconciler.dfy`): the message handler that each execution
  builds. It folds the broker's tagged messages (`group_begin`, `sow`,
  `group_end`, `oof`, `publish`/`p`/anything else, `error`) into the visible
  rows, the SOW buffer, the execution state and the per-field error map. It
  also holds `recordsMatch` and the error classifier.
- **AmpsHook** (`hook.dfy`): the hook's state actions around that handler:
  begin/finish/stop an execution, connect, disconnect, the one-second poll
  and the state sync.
- **Service** (`service.dfy`): the connection manager. This covers the
  connection-state record, the subscription registry, the command-to-wire
  mapping, default options, the format switch before a dispatch,
  unsubscribe, and the disconnect/reconnect counter. The client library is
  an oracle that succeeds or fails.
- **Config** (`config.dfy`): the command wire strings and the two
  configured servers' endpoints.
- **Grid** (`grid.dfy`): the NVFIX `key=value&...` parser, the NVFIX display
  string, header names, column widths, column priority and the column set.
- **Admin** (`admin.dfy`): reading topics from the broker configuration
  (defaults, dedup-first, sort by name), the fallback list, the topic-name
  validator and the admin URLs.
- **TopicPicker**, **App**, **CommandPanel**, **QueryBar**, **Status**: the
  selection, lock and enablement rules of the UI components, and the status
  precedence.
- **Form**, **GridSettings**, **Notifications**: the form, grid-settings and
  toast reducers.
- **Wrappers**, **Text**, **Sorting**: shared `Option`/`Result`, string
  helpers (`toLowerCase`, `indexOf`, `split`/`join`, `trim`, `includes`,
  decimal rendering) and a stable insertion sort. They are used where the
  source calls `Array.prototype.sort`, which is stable.

Each React `setState` call is a queued pure update applied in order, so each
handler call is one transition of an immutable state. Clocks, random ids,
`localeCompare` and `toLocaleTimeString` are parameters.

## Model

| member | source | states |
|---|---|---|
| `Reconciler.RecordsMatch` | src/hooks/useAMPS.ts:13-21 | two rows match exactly when both define `key` and the keys are equal; `Reconciler.KeylessNeverMatches` pins the keyless case |
| `Reconciler.KeylessNeverMatches` | src/hooks/useAMPS.ts:13-21 | a row without `key` matches no row, not even itself |
| `Reconciler.SomeIncluded` | src/hooks/useAMPS.ts:66 | true exactly when some pattern occurs in the text |
| `Reconciler.Classify` | src/hooks/useAMPS.ts:49-80 | the lower-cased text is tested against the filter, orderBy, bookmark, options and general groups in that order; the first hit wins; no hit means a filter error |
| `Reconciler.ScanTable` | src/hooks/useAMPS.ts:56-76 | scanning the pattern table is the five groups tried in their declared order |
| `Reconciler.FindMatch` | src/hooks/useAMPS.ts:333 | the index of the first matching row, or -1 exactly when no row matches |
| `Reconciler.Without` | src/hooks/useAMPS.ts:320 | every kept row is a non-matching row of the input, every non-matching row is kept, and nothing changes when no row matches |
| `Reconciler.WithoutAppend` | src/hooks/useAMPS.ts:320 | the filter distributes over concatenation and keeps a single row exactly when it does not match, so the survivors keep their order and multiplicity |
| `Reconciler.Upsert` | src/hooks/useAMPS.ts:332-350 | merges into the first matching row at the same index (incoming fields win, others kept, length unchanged), or appends when none matches |
| `Reconciler.ErrorText` | src/hooks/useAMPS.ts:374 | the `error` text, `Unknown error occurred` when it is absent or falsy, and no text (the handler throws) for a truthy non-string |
| `Reconciler.KindOf` | src/hooks/useAMPS.ts:258-406 | every tag other than the five named ones takes the update branch |
| `Reconciler.KindOfTags` | src/hooks/useAMPS.ts:258-372 | the named tags, `publish` and `p` select their branches |
| `Reconciler.Handle` | src/hooks/useAMPS.ts:250-407 | one message changes only what its branch touches: connection, current command and subscriptions never; field errors only on `error`; execution state only on `error`/`group_end`; rows never on `group_begin`/`sow`/`error` |
| `Reconciler.RunAppend` | src/hooks/useAMPS.ts:250-407 | handling `a + b` is handling `a` then `b` |
| `Reconciler.SowsAccumulate` | src/hooks/useAMPS.ts:264-279 | `sow` records are appended to the buffer in order and never change rows or execution state |
| `Reconciler.GroupReplacesRows` | src/hooks/useAMPS.ts:259-295 | begin, k records, end leaves exactly those k rows (k = 0 included); only a SOW query stops executing and is stamped |
| `Reconciler.GroupHidesPartialRows` | src/hooks/useAMPS.ts:259-279 | while a group is open the visible rows do not change |
| `Reconciler.OofRemovesMatching` | src/hooks/useAMPS.ts:317-325 | `oof` with a truthy key removes exactly the matching rows; without one nothing changes |
| `Reconciler.KeylessPublishesAppend` | src/hooks/useAMPS.ts:327-350 | n keyless updates grow the rows by exactly those n records, in order |
| `Reconciler.ErrorEndsExecution` | src/hooks/useAMPS.ts:372-396 | every error whose text is readable (a string `error`, or none or a falsy one, which gives the default text) ends the execution; the execution error is the text iff the category is general; otherwise exactly one field error holds the raw text |
| `Reconciler.HandleErrorApplies` | src/hooks/useAMPS.ts:372-396 | an `error` message with readable text applies the classified error effect |
| `Reconciler.ApplyErrorEffect` | src/hooks/useAMPS.ts:384-396 | the error effect leaves rows, connection and subscriptions alone and sets field errors to empty or a single entry |
| `Reconciler.LiveExecutionPersists` | src/hooks/useAMPS.ts:289-295 | for any command but a SOW query, a stream without `error` messages never ends the execution or touches field errors |
| `AmpsHook.BeginExecute` | src/hooks/useAMPS.ts:229-245 | execute sets the command, clears field errors and the execution error, starts executing, and clears rows only for the two SOW-first commands |
| `AmpsHook.StartHandler` | src/hooks/useAMPS.ts:247 | the handler starts from an empty buffer on the begun state |
| `AmpsHook.FinishExecute` | src/hooks/useAMPS.ts:409-437 | a thrown error stops the execution with its message; a returned SUBSCRIBE is stamped; other returns change nothing |
| `AmpsHook.Stop` | src/hooks/useAMPS.ts:440-469 | a successful stop ends the execution, empties the subscriptions and clears the command, leaving rows alone; a failure only records the error |
| `AmpsHook.StopIdempotent` | src/hooks/useAMPS.ts:440-469 | stopping twice is stopping once |
| `AmpsHook.Disconnect` | src/hooks/useAMPS.ts:184-212 | everything but the field errors returns to its initial value |
| `AmpsHook.ConnectStart` | src/hooks/useAMPS.ts:154-158 | connect first sets a connecting state and nothing else |
| `AmpsHook.ConnectDone` | src/hooks/useAMPS.ts:159-182 | success gives connected to the server; failure gives disconnected with the thrown message; never both flags |
| `AmpsHook.Poll` | src/hooks/useAMPS.ts:117-152 | the poll copies connection state and subscriptions; it can keep an execution going but never end one |
| `AmpsHook.PollNeverChangesExecuting` | src/hooks/useAMPS.ts:117-152 | with the command captured at mount, the poll never changes the executing flag |
| `AmpsHook.Sync` | src/hooks/useAMPS.ts:94-115 | the previous record is kept iff it agrees on every property the service state carries |
| `AmpsHook.SyncIdempotent` | src/hooks/useAMPS.ts:94-115 | syncing twice is syncing once; a held error survives a sync with an idle state |
| `AmpsHook.ClearData` | src/hooks/useAMPS.ts:471-473 | only the rows are emptied |
| `AmpsHook.ClearFieldErrors` | src/hooks/useAMPS.ts:485-487 | only the field errors are emptied |
| `Config.WireInjective` | src/config/amps-config.ts:43-48 | the four wire strings are pairwise distinct |
| `Config.Server.WebSocketUrl` | src/config/amps-config.ts:26-35 | the entry's endpoint prefix followed by the message format; `Config.ServerTableConsistent` pins each entry's prefix |
| `Config.ServerTableConsistent` | src/config/amps-config.ts:18-38 | each endpoint is `ws://<host>:<websocketPort>/amps/<format>` from the entry's own host and port, and `ampsUrl` is the json endpoint |
| `Config.DecimalOfWsPort` | src/config/amps-config.ts:23 | the websocket port renders as `9008` |
| `Service.IndexOfId` | src/services/amps-service.ts:564 | the registry position of an id, -1 exactly when absent |
| `Service.Lookup` | src/services/amps-service.ts:564 | `map.get`: found exactly when some entry has the id |
| `Service.Put` | src/services/amps-service.ts:207 | `map.set` keeps ids distinct, stores the entry and keeps every other entry |
| `Service.PutInPlace` | src/services/amps-service.ts:207 | replacing an entry in place keeps every entry with another id |
| `Service.Remove` | src/services/amps-service.ts:578 | `map.delete` removes exactly the entries with that id |
| `Service.ActiveSubscriptions` | src/services/amps-service.ts:626-628 | exactly the active entries |
| `Service.ActiveAppend` | src/services/amps-service.ts:626-628 | the active list distributes over concatenation and lists one entry exactly when it is active, so it keeps map order |
| `Service.Disconnect` | src/services/amps-service.ts:127-162 | registry and handlers emptied, idle, no server or format, timer cleared; a failing teardown is swallowed |
| `Service.ConnectWithFormat` | src/services/amps-service.ts:59-125 | no-op on the same server and format or while connecting; otherwise it disconnects first when connected, then records server, format and zero attempts on success, or an error state with no server on failure (rethrown); from a disconnected state it keeps subscriptions, handlers and the reconnect timer, and a failure changes nothing but the connection fields; never connected and connecting at once |
| `Service.Connect` | src/services/amps-service.ts:54-57 | unless already on the server with json or still connecting, it dials the server's json endpoint, and a success records the json format |
| `Service.CommandString` | src/services/amps-service.ts:387-408 | the four wire strings go to themselves, anything else to `sow` |
| `Service.CommandStringOfCommand` | src/services/amps-service.ts:387-408 | every command is sent as its own wire string |
| `Service.DefaultOptions` | src/services/amps-service.ts:611-624 | `top_n=500` for a query, `top_n=250` for the two subscribing commands, `top_n=100` otherwise |
| `Service.Given` | src/services/amps-service.ts:262-281 | an option is sent exactly when it is a non-empty string |
| `Service.BuildRequest` | src/services/amps-service.ts:248-285 | the command carries the wire command, the topic, the given options and the user's options string or the default |
| `Service.RequiredFormat` | src/services/amps-service.ts:177 | the topic's message type, or `json` when it is empty |
| `Service.ExecuteCommand` | src/services/amps-service.ts:164-223 | throws when disconnected; without a format switch returns the id, adds only its handler, tracks only `subscribe`/`sow_and_subscribe` and leaves connection and everything else unchanged; a failed switch throws the connect error with an empty registry; a successful one leaves only the new handler and entry; dispatches the built request when a handler and a client exist |
| `Service.FormatSwitchDropsRegistry` | src/services/amps-service.ts:176-186 | a topic of another format reconnects first, so only the new command's entries and handler remain |
| `Service.Settle` | src/services/amps-service.ts:299-384 | once `execute` resolves the entry is stored as active whatever the command, and nothing else in the state changes; a rejection leaves the state as it was and becomes an `error` message naming the topic |
| `Service.Unsubscribe` | src/services/amps-service.ts:557-590 | disconnected: no-op; throws exactly when the entry has a non-empty broker id and the broker call fails, changing nothing; else exactly that id's handler and entry go |
| `Service.Deactivate` | src/services/amps-service.ts:694-696 | every entry kept, each marked inactive |
| `Service.NoneActive` | src/services/amps-service.ts:626-628 | a registry with no active entry lists no active subscriptions |
| `Service.AttemptReconnect` | src/services/amps-service.ts:706-712 | at most one timer pending; starting one counts an attempt |
| `Service.HandleDisconnect` | src/services/amps-service.ts:686-702 | error state without a server, every entry inactive, and (the server being wiped) no reconnect scheduled |
| `Service.FindServer` | src/services/amps-service.ts:721 | a server of that name, or none exactly when no server has it |
| `Service.ReconnectTimerFires` | src/services/amps-service.ts:714-734 | with no server named it only clears the timer; when a table server is named and nothing is connecting, a success leaves it connected to that server in the current format (json when none) with no timer pending, and a failure records the error and re-arms exactly when fewer than five attempts were counted, counting one more; the timer never re-arms after a success |
| `Service.AttemptsBounded` | src/services/amps-service.ts:699-731 | the attempt counter never exceeds five |
| `Grid.DigitsBelowPow10` | src/components/DataGrid.tsx:173-175 | n digits are worth less than 10^n |
| `Grid.NumeralWholePart` | src/components/DataGrid.tsx:173-175 | a numeral's value lies between the number before its dot and that number plus one |
| `Grid.NumeralOfDecimal` | src/components/DataGrid.tsx:173-175 | a decimal rendering of n is a numeral and is read back as the number n |
| `Grid.FieldValue` | src/components/DataGrid.tsx:173-178 | a number exactly for text matching `^\d+(\.\d+)?$`, otherwise the text itself |
| `Grid.ParsePair` | src/components/DataGrid.tsx:167-178 | a segment is dropped exactly when it has no `=` or starts with one; otherwise the key is the trimmed text before the first `=` (so it holds no `=`) and the value is the parsed trimmed text after it |
| `Grid.ParseSegments` | src/components/DataGrid.tsx:165-167 | one parsed entry per `&` segment |
| `Grid.FoldKeys` | src/components/DataGrid.tsx:167-180 | a key is in the record exactly when some kept segment whose key is not `__proto__` has it |
| `Grid.FoldLastWins` | src/components/DataGrid.tsx:167-180 | a key's value comes from its last stored segment |
| `Grid.FoldAppend` | src/components/DataGrid.tsx:167-180 | folding two runs of segments is the second record laid over the first |
| `Grid.FoldDropNone` | src/components/DataGrid.tsx:169-178 | an entry that is dropped or keyed `__proto__` contributes nothing |
| `Grid.ProtoSegmentIgnored` | src/components/DataGrid.tsx:174-178 | a `__proto__=v` segment anywhere leaves the parse unchanged, because the assignment goes to the prototype setter |
| `Grid.ProtoPairNotStored` | src/components/DataGrid.tsx:169-178 | a `__proto__=v` segment parses to the key `__proto__` and adds no field |
| `Grid.SegmentsAppend` | src/components/DataGrid.tsx:165 | segments of a concatenation are the segments of the parts |
| `Grid.DroppedSegmentIgnored` | src/components/DataGrid.tsx:169 | inserting a segment without a key leaves the parse unchanged |
| `Grid.ParseConcat` | src/components/DataGrid.tsx:157-183 | parsing `a&b` is parsing `b` laid over parsing `a` |
| `Grid.ParsePairOfEntry` | src/components/DataGrid.tsx:168-178 | a rendered well-formed entry parses back to it |
| `Grid.FoldDescribed` | src/components/DataGrid.tsx:167-180 | folding entries whose keys are not `__proto__` gives the record they describe |
| `Grid.RenderedFree` | src/components/DataGrid.tsx:165 | a rendered well-formed entry holds no `&` |
| `Grid.ParsedRender` | src/components/DataGrid.tsx:165-180 | the segments of rendered entries parse to those entries |
| `Grid.ParseNvfix` | src/components/DataGrid.tsx:157-183 | the record of an NVFIX text, never holding `__proto__`; pinned by `Grid.ParseConcat`, `Grid.ParseEmpty`, `Grid.ParseRender` and `Grid.ProtoSegmentIgnored` |
| `Grid.ParseEmpty` | src/components/DataGrid.tsx:157-183 | the empty text parses to the empty record |
| `Grid.ParseRender` | src/components/DataGrid.tsx:157-183 | round trip: parsing the `&`-joined rendering of any well-formed entries (keys other than `__proto__`), none included, gives the record they describe |
| `Grid.DisplayString` | src/components/DataGrid.tsx:1031-1035 | non-empty exactly when the first field other than `key` holds a string containing `&`, and then `field=value` of that field |
| `Grid.NonKeyFields` | src/components/DataGrid.tsx:1031 | only fields other than `key`, taken from the row's fields |
| `Grid.NonKeyHead` | src/components/DataGrid.tsx:1031-1032 | the filtered list starts with the first field other than `key`, and is empty exactly when there is none |
| `Grid.ShowsParsedFirst` | src/components/DataGrid.tsx:142-144 | the raw view opens first exactly for `nvfix` topics (any case) |
| `Grid.FormatHeaderName` | src/components/DataGrid.tsx:285-290 | split on `_`, capitalise each word, join with spaces; `Grid.FormatHeaderNamePointwise` and `Grid.HeaderWordCount` pin it |
| `Grid.CapitalizeAll` | src/components/DataGrid.tsx:285-290 | each word upper-cases its first character and keeps the rest |
| `Grid.SpacedAppend` | src/components/DataGrid.tsx:285-290 | header formatting distributes over an `_`-free prefix |
| `Grid.SpacedWord` | src/components/DataGrid.tsx:285-290 | a single word is capitalised |
| `Grid.JoinSpaced` | src/components/DataGrid.tsx:285-290 | joining capitalised pieces with spaces is the pointwise rewrite |
| `Grid.FormatHeaderNamePointwise` | src/components/DataGrid.tsx:285-290 | `formatHeaderName` replaces each `_` by a space, upper-cases each word's first character and keeps length |
| `Grid.HeaderWordCount` | src/components/DataGrid.tsx:285-290 | for a key without spaces, the header's words are the key's `_`-pieces capitalised, so there are as many of them |
| `Grid.SplitPieceWithin` | src/components/DataGrid.tsx:286 | each `_`-piece is a part of the key |
| `Grid.MinWidth` | src/components/DataGrid.tsx:292-299 | the first matching rule's width, one of 80, 100, 120, 180 |
| `Grid.SideHitsIdRule` | src/components/DataGrid.tsx:294-297 | `side` takes the `id` rule's 120, never the 80 its own rule names |
| `Grid.MinWidthCorrected` | src/components/DataGrid.tsx:292-299 | `side` gets 80; every other key as written |
| `Grid.MaxWidth` | src/components/DataGrid.tsx:301-306 | 200 for time, 120 for symbol/side/status, else unbounded |
| `Grid.WidthsConsistent` | src/components/DataGrid.tsx:292-306 | every column's minimum width is at most its maximum |
| `Grid.Priority` | src/components/DataGrid.tsx:321-334 | the table's priority, 10 for an unknown field |
| `Grid.PriorityLeTotal` | src/components/DataGrid.tsx:337-338 | the priority order is a total preorder |
| `Grid.Flatten` | src/components/DataGrid.tsx:315-319 | a field is listed exactly when some row has it |
| `Grid.FlattenAppend` | src/components/DataGrid.tsx:315-319 | the listing distributes over concatenation and one row gives its own fields, so fields come row by row in order |
| `Grid.FirstIndex` | src/components/DataGrid.tsx:315-319 | the first position of a field |
| `Grid.Distinct` | src/components/DataGrid.tsx:315-319 | `Set` insertion: the same fields, each once |
| `Grid.FirstIndexPrefix` | src/components/DataGrid.tsx:315-319 | a first position is unchanged by extending the sequence |
| `Grid.DistinctFirstAppearance` | src/components/DataGrid.tsx:315-319 | the set lists fields in order of first appearance |
| `Grid.MultisetNoDuplicates` | src/components/DataGrid.tsx:337-338 | a permutation of a duplicate-free list is duplicate-free |
| `Grid.CountAtMostOne` | src/components/DataGrid.tsx:337-338 | a duplicate-free list holds each field at most once |
| `Grid.ColumnFieldsSpec` | src/components/DataGrid.tsx:309-338 | the column fields are exactly the fields of some row, each once, sorted by priority, stable within a priority |
| `Grid.DataColumns` | src/components/DataGrid.tsx:337-350 | one column per field in order, carrying `formatHeaderName(key)`, `getColumnMinWidth(key)` as written and `getColumnMaxWidth(key)`; each header is as long as its field and each minimum within its maximum |
| `Grid.ColumnDefs` | src/components/DataGrid.tsx:309-446 | no data gives no columns; otherwise the data columns and one trailing `__view__` column |
| `Admin.TopicOf` | src/services/amps-admin-service.ts:85-113 | an element is skipped exactly when its trimmed name is empty; message type defaults to `json`, key to empty, empty file name to none |
| `Admin.Somes` | src/services/amps-admin-service.ts:82-116 | a topic is listed exactly when it is present |
| `Admin.SomesAppend` | src/services/amps-admin-service.ts:82-116 | the listing distributes over concatenation and one option gives its value or nothing, so the present topics keep their order |
| `Admin.Collect` | src/services/amps-admin-service.ts:82-116 | every named element's topic is collected, and every collected topic is some element's |
| `Admin.CollectAppend` | src/services/amps-admin-service.ts:82-116 | collecting two runs of elements is collecting each in turn, and one element gives its topic or nothing, so the topics follow document order |
| `Admin.Names` | src/services/amps-admin-service.ts:121-123 | the topics' names in order |
| `Admin.Dedup` | src/services/amps-admin-service.ts:121-123 | one topic per name, the first of that name, every name kept |
| `Admin.ByNameTotal` | src/services/amps-admin-service.ts:126 | the name order is a total preorder |
| `Admin.ParseTopics` | src/services/amps-admin-service.ts:57-132 | an unreadable document or one without a SOW section gives the fallback list |
| `Admin.ParseTopicsSpec` | src/services/amps-admin-service.ts:79-126 | the parsed topics are exactly the named elements' topics, one per name, each the first, sorted by name |
| `Admin.NamesDistinctAfterSort` | src/services/amps-admin-service.ts:121-126 | sorting the deduplicated list keeps names distinct |
| `Admin.CountAtMostOne` | src/services/amps-admin-service.ts:121-126 | a duplicate-free list holds each topic at most once |
| `Admin.FetchTopics` | src/services/amps-admin-service.ts:14-50 | an error exactly on a network failure or non-ok response, with the fallback topics and an `HTTP <status>: <text>` or thrown message |
| `Admin.ValidNameTrimmed` | src/services/amps-admin-service.ts:173-178 | a valid topic name has no whitespace, so trimming keeps it |
| `Admin.FallbackWellFormed` | src/services/amps-admin-service.ts:138-166 | five fallback topics, valid distinct names, all json |
| `Admin.IsValidTopicName` | src/services/amps-admin-service.ts:173-178 | a letter, then letters, digits, `_`, `.` or `-`, at most 255 characters; `Admin.ValidNameTrimmed` and `Admin.FallbackWellFormed` pin it |
| `Admin.AdminUrl` | src/services/amps-admin-service.ts:185-187 | `http://<host>:` followed by the admin port in decimal |
| `Admin.ConfigUrl` | src/services/amps-admin-service.ts:194-196 | the admin URL followed by `/amps/instance/config.xml` |
| `Admin.ConfigUrlNamesPort` | src/services/amps-admin-service.ts:185-196 | reading the digits between `http://<host>:` and the next `/` of the config URL gives back the admin port |
| `TopicPicker.TypeIndex` | src/components/TopicSelection.tsx:34-46 | the case-insensitive position in json, nvfix, xml, bson, fix, or -1 |
| `TopicPicker.Rank` | src/components/TopicSelection.tsx:44-57 | the sort rank: list position, unknown types after all known ones |
| `TopicPicker.TopicLeIsLexicographic` | src/components/TopicSelection.tsx:44-57 | the comparator is lexicographic on (rank, name) |
| `TopicPicker.TopicLeTotal` | src/components/TopicSelection.tsx:44-57 | the comparator is a total preorder |
| `TopicPicker.SortTopics` | src/components/TopicSelection.tsx:44-58 | a sorted permutation of the topics |
| `TopicPicker.SortTopicsSpec` | src/components/TopicSelection.tsx:44-58 | known types precede unknown ones, ranks never decrease, equal ranks by name, stable |
| `TopicPicker.Options` | src/components/TopicSelection.tsx:60-65 | one option per topic in the offered order, with its description |
| `TopicPicker.Filter` | src/components/TopicSelection.tsx:108-114 | an option stays exactly when the lower-cased input is in its lower-cased label or description |
| `TopicPicker.FilterEmptyShowsAll` | src/components/TopicSelection.tsx:108-114 | empty input keeps every option |
| `TopicPicker.FilterIdempotent` | src/components/TopicSelection.tsx:108-114 | filtering twice by the same text is filtering once |
| `TopicPicker.FilterAppend` | src/components/TopicSelection.tsx:108-114 | the filter keeps the shown options in their order and each as often as it occurs: it distributes over concatenation, and a single option stays exactly when it is shown |
| `TopicPicker.TypeColor` | src/components/TopicSelection.tsx:84-87 | a type colour exactly for the known types, else `default` |
| `TopicPicker.TopicChanged` | src/components/TopicSelection.tsx:67-78 | refused with a warning while executing; otherwise forwarded with null as empty |
| `TopicPicker.IsDisabled` | src/components/TopicSelection.tsx:81 | disabled when disconnected or executing; `TopicPicker.LockImpliesDisabled` relates it to the lock and to forwarding |
| `TopicPicker.LockImpliesDisabled` | src/components/TopicSelection.tsx:81-82 | a locked picker is disabled, and an enabled one forwards the choice |
| `App.Connected` | src/App.tsx:95-113 | no server: nothing; otherwise a success or an error notice naming the outcome |
| `App.Disconnected` | src/App.tsx:115-136 | topic and command emptied, options reset, server kept, grid cleared, info notice |
| `App.FindTopic` | src/App.tsx:142 | the first available topic of that name, or none exactly when absent |
| `App.ExecutionOf` | src/App.tsx:138-144 | an execution exactly when command and topic are non-empty, with the topic's record |
| `App.Executed` | src/App.tsx:145-159 | a success notice naming command and topic, or an error notice with the message |
| `App.CommandSelected` | src/App.tsx:180-193 | always clears the grid; sets the command; announces a non-empty one |
| `App.TopicSelected` | src/App.tsx:196-211 | the current topic again does nothing; another topic is set and clears the grid |
| `App.TopicSelectIdempotent` | src/App.tsx:196-211 | selecting a topic twice is selecting it once |
| `App.DisconnectBlocksExecute` | src/App.tsx:115-144 | after a disconnect nothing can be executed |
| `App.InitialNeedsOnlyTopic` | src/App.tsx:30-33 | at start, choosing a non-empty topic is all an execution needs |
| `CommandPanel.Label` | src/components/CommandConfiguration.tsx:64-66 | the four fixed labels |
| `CommandPanel.ChoicesComplete` | src/components/CommandConfiguration.tsx:97-102 | every command is offered once and labels are distinct |
| `CommandPanel.IsCommandDisabled` | src/components/CommandConfiguration.tsx:94 | disabled when disconnected or executing |
| `CommandPanel.CommandDisabledRefuses` | src/components/CommandConfiguration.tsx:80-94 | the choices are disabled exactly when disconnected or when a change would be refused with the lock notice |
| `CommandPanel.CommandChanged` | src/components/CommandConfiguration.tsx:80-91 | refused with a warning while executing, otherwise forwarded |
| `CommandPanel.Main` | src/components/CommandConfiguration.tsx:186-204 | Stop, never disabled, while executing; otherwise Execute, disabled exactly when execution is disabled |
| `QueryBar.IsExecuteDisabled` | src/components/CompactQueryBar.tsx:106 | Execute is disabled without a connection, a topic or a command; `QueryBar.ExecuteButtonRuns` pins it |
| `QueryBar.FieldsEnabled` | src/components/CompactQueryBar.tsx:221-249 | the option fields accept input only while connected and idle |
| `QueryBar.FieldsEnabledUnlocked` | src/components/CompactQueryBar.tsx:109-118 | the fields accept input exactly when connected and a click on them raises no lock notice |
| `QueryBar.AdvancedClicked` | src/components/CompactQueryBar.tsx:109-118 | a warning exactly while executing |
| `QueryBar.WithField` | src/components/CompactQueryBar.tsx:199 | sets one option field and keeps the other three |
| `QueryBar.Edited` | src/components/CompactQueryBar.tsx:186-314 | the edited field takes the text; all field errors are cleared iff the edited field had one |
| `QueryBar.EditClearsOwnError` | src/components/CompactQueryBar.tsx:196-199 | after an edit the edited field is never in error |
| `QueryBar.QuickFilter` | src/components/CompactQueryBar.tsx:220-254 | a preset sets only the filter, to its fixed string, or clears it |
| `QueryBar.ExecuteButtonRuns` | src/components/CompactQueryBar.tsx:106 | when the main button offers Execute, the App handler has an execution and a connection; while executing it offers Stop |
| `Status.KindsDistinguishable` | src/components/common/StatusDisplay.tsx:29-68 | each status kind has its own colour and default message |
| `Status.AlertSeverity` | src/components/common/StatusDisplay.tsx:96-109 | the four severities pass through; any other colour is `info` |
| `Status.StatusColor` | src/components/common/StatusDisplay.tsx:81 | the given colour unless it is empty, otherwise the kind's |
| `Status.Display` | src/components/common/StatusDisplay.tsx:71-137 | the given message unless empty, then the default; the status colour rendered per variant (uncoloured chip and `text.primary` for `default`, alert severity, `<colour>.main`); chip size medium only for large |
| `Status.ChipColorsDistinguishKinds` | src/components/common/StatusDisplay.tsx:29-87 | with no colour given, chips of different kinds differ in colour and only the idle chip is uncoloured |
| `Status.ConnectionStatus` | src/components/common/StatusDisplay.tsx:159-183 | error, then connecting, then connected, then idle; `Connecting...` and `Connected` carry ` to <server>` exactly when a server is named |
| `Status.ExecutionStatus` | src/components/common/StatusDisplay.tsx:202-234 | error, then executing, then last executed, then idle |
| `Status.ConnectionChipFollowsHook` | src/components/common/StatusDisplay.tsx:159-183 | the chip reads connecting, connected or the error after the hook's connect steps |
| `Status.ExecutionChipFollowsHook` | src/components/common/StatusDisplay.tsx:202-234 | the chip reads executing after execute, and the error after a thrown error |
| `Form.Initial` | src/hooks/useFormState.ts:32-48 | each field its initial value, no error, untouched; valid and clean |
| `Form.SetValue` | src/hooks/useFormState.ts:52-72 | the field takes the value, is touched and re-validated; flags recomputed |
| `Form.SetError` | src/hooks/useFormState.ts:74-83 | only that field's error changes; the form is invalid |
| `Form.SetErrorConsistent` | src/hooks/useFormState.ts:74-83 | a non-empty error keeps the flags consistent |
| `Form.ClearError` | src/hooks/useFormState.ts:85-98 | the field's error goes; validity recomputed over all fields |
| `Form.ClearErrorConsistent` | src/hooks/useFormState.ts:85-98 | clearing keeps the flags consistent |
| `Form.SetTouched` | src/hooks/useFormState.ts:100-109 | only that field's flag changes; dirty is the flag or any previously touched field |
| `Form.SetTouchedStaleDirty` | src/hooks/useFormState.ts:100-109 | untouching the only touched field leaves the form dirty with no field touched |
| `Form.SetTouchedCorrected` | src/hooks/useFormState.ts:100-109 | dirty computed from the updated fields |
| `Form.SetTouchedCorrectedConsistent` | src/hooks/useFormState.ts:100-109 | the corrected version keeps the flags consistent and agrees with the source when touching |
| `Form.Reset` | src/hooks/useFormState.ts:111-113 | back to the initial state |
| `Form.Validate` | src/hooks/useFormState.ts:115-138 | no rules: valid and unchanged; a rule for a missing field throws; else every ruled field is touched and re-checked, dirty, and the result says no ruled field errs |
| `Form.ValidateConsistent` | src/hooks/useFormState.ts:115-138 | validation keeps the flags consistent when unruled fields are error-free |
| `GridSettings.Start` | src/hooks/useGridState.ts:21-33 | defaults overridden by each given setting; page size 100 by default |
| `GridSettings.Flip` | src/hooks/useGridState.ts:35-49 | a toggle flips exactly its flag |
| `GridSettings.FlipInvolutive` | src/hooks/useGridState.ts:35-49 | toggling twice is the identity, and two toggles commute |
| `GridSettings.SetPageSize` | src/hooks/useGridState.ts:51-53 | only the page size changes |
| `GridSettings.Reset` | src/hooks/useGridState.ts:55-57 | the defaults, whatever the overrides |
| `Notifications.Ids` | src/components/NotificationToast.tsx:92-98 | the identifiers present |
| `Notifications.Add` | src/components/NotificationToast.tsx:95-98 | appends one toast with the given fields and id, keeping the others in order |
| `Notifications.Dismiss` | src/components/NotificationToast.tsx:100-102 | never lengthens the list |
| `Notifications.DismissMembers` | src/components/NotificationToast.tsx:100-102 | exactly the toasts with another id remain |
| `Notifications.DismissAppend` | src/components/NotificationToast.tsx:100-102 | dismissing distributes over concatenation |
| `Notifications.DismissAbsent` | src/components/NotificationToast.tsx:100-102 | dismissing an absent id changes nothing |
| `Notifications.AddThenDismiss` | src/components/NotificationToast.tsx:95-102 | dismissing a toast added under a fresh id restores the list |
| `Notifications.ClearAll` | src/components/NotificationToast.tsx:104-106 | the empty list |
| `Notifications.Duration` | src/components/NotificationToast.tsx:52 | the given duration, or 5000 when it is unset or zero |
| `Notifications.AddedToastsLastFiveSeconds` | src/components/NotificationToast.tsx:52-98 | a toast raised through `addNotification` shows for five seconds |

## Left out

- The `amps` client library (`Client`, `Command`, `execute`, `unsubscribe`, the WebSocket transport) is an oracle. Each call succeeds or fails (`ClientOutcome`, `ExecuteOutcome`). A broker message reaches the handler already converted to a tag and an optional record.
- `handleAMPSMessage` and the `sow` callback's payload extraction (`message.data()`, `message.payload()`, the `sowKey` header) depend on the client's message objects. Only the NVFIX display-string rule they share is modelled, as `Grid.DisplayString`.
- `debugTopicSubscription`, `publishTestData`, the mock-update statics, `getClientName`, `getCurrentConnectionInfo` and console logging are debug or test helpers.
- `fetch`, `DOMParser`, the XML query calls and `AbortSignal` are I/O. A fetch is a `FetchOutcome`, a parsed document is a `ConfigDocument`, and topic elements are their already-extracted Name/MessageType/Key/FileName texts. The `useTopics` hook is not part of this model.
- React machinery (effects, `setInterval`, `setTimeout`) is not modelled. The poll, the sync, the reconnect timer and the toast timer are single transitions. async/await interleavings (a message arriving while `executeCommand` awaits) are concurrency.
- Object aliasing is not modelled. At `group_end` the grid receives the handler's own buffer array, so a later `sow` push without a `group_begin` would also change the grid. The model copies.
- `handleDisconnect` is never registered with the client in the source. It is modelled as the function the client would call.
- `stopExecution` awaits `Promise.all` of the unsubscribes. Its outcome is one optional failure message.
- Messages handled in one `Run` share one clock reading `now`.
- `localeCompare` is an abstract total preorder on names. `toLocaleTimeString` is a `clock` parameter. `Date.now`/`Math.random` ids are parameters.
- `toLowerCase`/`toUpperCase` map ASCII letters only. `trim` uses the JavaScript white-space set. There is no Unicode normalisation.
- `parseFloat` is the exact rational value of the numeral (`Num(real)`), with no IEEE rounding.
- `Grid.ParseNvfix` does not model the `typeof !== 'string'` error record, because the typed model only admits strings.
- Prototype-inherited keys of the priority table (`toString`, `constructor`, ...), fields whose value is `undefined`, and JavaScript's integer-like-key ordering of `Object.keys` are not modelled. Rows are maps whose domain is the defined fields, and field order is insertion order.
- TopicPicker.TypeColor: the colour table lookup at src/components/TopicSelection.tsx:86 is modelled for own keys only; a message type such as `constructor` or `toString` would find an inherited function on the object rather than fall back to `default`, and the model returns `default` for it.
- `Grid.DisplayString` takes the row's field order as a parameter, because `Object.keys` order is not part of a map.
- The column definition's renderers, filters, value formatters and AG Grid options (`defaultColDef`, side bar, grid options) are view configuration. Only the header, widths, order and the view column are modelled.
- The topic picker's key-chip rendering, the command icons, the tooltips and all JSX layout are view.
- The App's error branches for disconnect and stop (`src/App.tsx:128-135`, `src/App.tsx:169-176`) cannot run, because the hook's `disconnect` and `stopExecution` catch their own errors. `App.Disconnected` models only the success path.
- The hook passes no `onNotification` from the App (`src/App.tsx:144`), so the handler's notifications are left out.
- `useTopics.ts`, `ThemeContext.tsx`, `Toolbar.tsx`, `FormField.tsx`, `ServerConnection.tsx` and `ErrorBoundary.tsx` are not part of this model.

## Findings

| source | as written | input that shows it | evidently intended | confidence | as-written member | corrected member |
|---|---|---|---|---|---|---|
| src/components/DataGrid.tsx:294-297 | the first rule (`includes('id')`) is tested before the rule naming `side`, and `"side"` contains `"id"` | the key `side` gets min width 120 | `side` gets 80, like `status` | high, not executed | `Grid.SideHitsIdRule` | `Grid.MinWidthCorrected` |
| src/hooks/useFormState.ts:100-109 | `isDirty` is `touched` or-ed with the touched flags of the fields before the update | the form with `a` touched, then `setTouched('a', false)`, gives dirty with no field touched | dirty iff some field is touched after the update, as `setValue` computes it | medium, not executed | `Form.SetTouchedStaleDirty` | `Form.SetTouchedCorrectedConsistent` |

The column definitions (`Grid.DataColumns`, `Grid.ColumnDefs`) use the minimum width as written, because they describe what the grid shows. `Grid.MinWidthCorrected` is the corrected rule, and `Grid.WidthsConsistent` proves the width bound for it as well.

=== FILE: admin.dfy ===
/** The admin-interface client: the topics read from a broker's
    configuration document, the fallback topic list, the topic-name rule and
    the admin URLs.  The HTTP request and the XML parser are outside the
    model: their outcomes are parameters. */
module Admin {
  import opened Wrappers
  import Text
  import Sorting
  import Config

  /** The text content of a `Topic` element's children; `None` when the
      child is missing. */
  datatype TopicElement = TopicElement(
    name: Option<string>,
    messageType: Option<string>,
    key: Option<string>,
    fileName: Option<string>)

  /** What the XML parser makes of the configuration text. */
  datatype ConfigDocument =
    | Malformed
    | NoSowSection
    | SowSection(topics: seq<TopicElement>)

  /** What the `fetch` of the configuration document yields; a thrown value
      that is not an `Error` has no message. */
  datatype FetchOutcome =
    | NetworkFailure(message: Option<string>)
    | Response(ok: bool, status: nat, statusText: string, document: ConfigDocument)

  /** `getFallbackTopics` */
  const Fallback: seq<Config.Topic> := [
    Config.Topic("Orders", "json", "/id", None),
    Config.Topic("market_data", "json", "/symbol", None),
    Config.Topic("Trades", "json", "/trade_id", None),
    Config.Topic("Quotes", "json", "/symbol", None),
    Config.Topic("Positions", "json", "/account_id,/symbol", None)
  ]

  const FetchFailedMessage := "Failed to fetch AMPS configuration"
  const ConfigPath := "/amps/instance/config.xml"

  /** `element?.textContent?.trim()`, with a missing value read as empty. */
  function Trimmed(t: Option<string>): string {
    if t.Some? then Text.Trim(t.value) else ""
  }

  /** The topic an element describes, or `None` when it has no name: the
      message type defaults to `json`, the key to empty, and an empty file
      name is absent. */
  function TopicOf(e: TopicElement): (r: Option<Config.Topic>)
    ensures r.None? <==> Trimmed(e.name) == ""
    ensures r.Some? ==> && r.value.name == Trimmed(e.name)
                        && |r.value.messageType| > 0
                        && (Trimmed(e.messageType) != "" ==> r.value.messageType == Trimmed(e.messageType))
                        && r.value.key == Trimmed(e.key)
                        && (r.value.fileName.Some? <==> Trimmed(e.fileName) != "")
                        && (r.value.fileName.Some? ==> r.value.fileName.value == Trimmed(e.fileName))
  {
    var name := Trimmed(e.name);
    if name == "" then None
    else
      var mt := Trimmed(e.messageType);
      var file := Trimmed(e.fileName);
      Some(Config.Topic(name, if mt == "" then "json" else mt, Trimmed(e.key), if file == "" then None else Some(file)))
  }

  /** The present values, in order. */
  function Somes(os: seq<Option<Config.Topic>>): (ts: seq<Config.Topic>)
    ensures forall t :: t in ts <==> Some(t) in os
  {
    if |os| == 0 then []
    else
      var n := |os| - 1;
      assert os == os[..n] + [os[n]];
      var p := Somes(os[..n]);
      if os[n].Some? then p + [os[n].value] else p
  }

  /** `Somes` keeps the present values in their order: it distributes over
      concatenation, and one option gives its value or nothing. */
  lemma {:induction false} SomesAppend(a: seq<Option<Config.Topic>>, b: seq<Option<Config.Topic>>)
    ensures Somes(a + b) == Somes(a) + Somes(b)
    ensures |b| == 1 ==> Somes(b) == (if b[0].Some? then [b[0].value] else [])
    decreases |b|
  {
    if |b| == 0 {
      assert a + b == a;
    } else {
      var n := |b| - 1;
      SomesAppend(a, b[..n]);
      SomesAppendStep(a, b[..n], b[n]);
      assert b == b[..n] + [b[n]];
      if n == 0 {
        SomesSnoc([], b[0]);
        assert b == [] + [b[0]];
      }
    }
  }

  lemma SomesAppendStep(a: seq<Option<Config.Topic>>, p: seq<Option<Config.Topic>>, x: Option<Config.Topic>)
    requires Somes(a + p) == Somes(a) + Somes(p)
    ensures Somes(a + (p + [x])) == Somes(a) + Somes(p + [x])
  {
    var tail: seq<Config.Topic> := if x.Some? then [x.value] else [];
    Sorting.Associative(a, p, [x]);
    SomesSnoc(a + p, x);
    SomesSnoc(p, x);
    Sorting.Associative(Somes(a), Somes(p), tail);
  }

  /** One step of `Somes`. */
  lemma SomesSnoc(p: seq<Option<Config.Topic>>, x: Option<Config.Topic>)
    ensures Somes(p + [x]) == Somes(p) + (if x.Some? then [x.value] else [])
  {
    assert (p + [x])[..|p|] == p;
  }

  /** The topics of the named elements, in document order. */
  function Collect(es: seq<TopicElement>): (ts: seq<Config.Topic>)
    ensures forall i :: 0 <= i < |es| && TopicOf(es[i]).Some? ==> TopicOf(es[i]).value in ts
    ensures forall t :: t in ts ==> exists i :: 0 <= i < |es| && TopicOf(es[i]) == Some(t)
  {
    var os := Options(es);
    assert forall t :: Some(t) in os ==> exists i :: 0 <= i < |es| && TopicOf(es[i]) == Some(t) by {
      forall t | Some(t) in os ensures exists i :: 0 <= i < |es| && TopicOf(es[i]) == Some(t) {
        var i :| 0 <= i < |os| && os[i] == Some(t);
        assert TopicOf(es[i]) == Some(t);
      }
    }
    Somes(os)
  }

  /** Each element's `TopicOf`, in document order. */
  function Options(es: seq<TopicElement>): (os: seq<Option<Config.Topic>>)
    ensures |os| == |es| && forall i :: 0 <= i < |es| ==> os[i] == TopicOf(es[i])
  {
    seq(|es|, i requires 0 <= i < |es| => TopicOf(es[i]))
  }

  /** The collected topics follow document order: collecting two runs of
      elements is collecting each in turn, and one element gives its topic
      or nothing. */
  lemma CollectAppend(a: seq<TopicElement>, b: seq<TopicElement>)
    ensures Collect(a + b) == Collect(a) + Collect(b)
    ensures |b| == 1 ==> Collect(b) == (if TopicOf(b[0]).Some? then [TopicOf(b[0]).value] else [])
  {
    assert Options(a + b) == Options(a) + Options(b);
    SomesAppend(Options(a), Options(b));
  }

  function Names(ts: seq<Config.Topic>): (ns: seq<string>)
    ensures |ns| == |ts| && forall i :: 0 <= i < |ts| ==> ns[i] == ts[i].name
  {
    seq(|ts|, i requires 0 <= i < |ts| => ts[i].name)
  }

  predicate DistinctNames(ts: seq<Config.Topic>) {
    forall i, j :: 0 <= i < j < |ts| ==> ts[i].name != ts[j].name
  }

  /** `ts[i]` is the first topic of `ts` with its name. */
  predicate FirstOfName(ts: seq<Config.Topic>, i: int) {
    0 <= i < |ts| && forall j :: 0 <= j < i ==> ts[j].name != ts[i].name
  }

  /** `topics.filter((t, i, self) => i === self.findIndex(u => u.name === t.name))`:
      each name once, as its first topic, in order of first appearance. */
  function Dedup(ts: seq<Config.Topic>): (r: seq<Config.Topic>)
    ensures DistinctNames(r)
    ensures forall t :: t in r ==> exists i :: FirstOfName(ts, i) && ts[i] == t
    ensures forall i :: 0 <= i < |ts| ==> ts[i].name in Names(r)
  {
    if |ts| == 0 then []
    else
      var n := |ts| - 1;
      var p := Dedup(ts[..n]);
      assert forall i :: 0 <= i < n ==> ts[..n][i] == ts[i];
      assert forall i :: FirstOfName(ts[..n], i) ==> FirstOfName(ts, i);
      if ts[n].name in Names(p) then
        p
      else
        assert FirstOfName(ts, n) by {
          forall j | 0 <= j < n ensures ts[j].name != ts[n].name {
            assert ts[j].name == ts[..n][j].name;
          }
        }
        var r := p + [ts[n]];
        assert Names(r) == Names(p) + [ts[n].name];
        r
  }

  /** The topic order by name: `a.name.localeCompare(b.name) <= 0`. */
  function ByName(nameLe: (string, string) -> bool): (Config.Topic, Config.Topic) -> bool {
    (a: Config.Topic, b: Config.Topic) => nameLe(a.name, b.name)
  }

  lemma ByNameTotal(nameLe: (string, string) -> bool)
    requires Sorting.TotalPreorder(nameLe)
    ensures Sorting.TotalPreorder(ByName(nameLe))
  {
    var le := ByName(nameLe);
    forall a, b ensures le(a, b) || le(b, a) {
      assert le(a, b) == nameLe(a.name, b.name);
      assert le(b, a) == nameLe(b.name, a.name);
    }
    forall a, b, c | le(a, b) && le(b, c) ensures le(a, c) {
      assert nameLe(a.name, b.name) && nameLe(b.name, c.name);
    }
  }

  /** `parseTopicsFromConfig`: the fallback list for an unreadable document
      or one without a SOW section; otherwise the named topics of the SOW
      section, one per name, sorted by name.  `nameLe` is the locale's
      string order. */
  function ParseTopics(doc: ConfigDocument, nameLe: (string, string) -> bool): (ts: seq<Config.Topic>)
    ensures !doc.SowSection? ==> ts == Fallback
  {
    match doc
    case SowSection(es) => Sorting.Sort(Dedup(Collect(es)), ByName(nameLe))
    case _ => Fallback
  }

  /** The topics read from a SOW section: one per name, each named element's
      name present, each topic the first element of its name, and sorted. */
  lemma ParseTopicsSpec(es: seq<TopicElement>, nameLe: (string, string) -> bool)
    requires Sorting.TotalPreorder(nameLe)
    ensures var ts := ParseTopics(SowSection(es), nameLe);
      && DistinctNames(ts)
      && Sorting.Sorted(ByName(nameLe), ts)
      && (forall i :: 0 <= i < |es| && Trimmed(es[i].name) != "" ==> Trimmed(es[i].name) in Names(ts))
      && (forall t :: t in ts ==> exists i :: FirstOfName(Collect(es), i) && Collect(es)[i] == t)
  {
    var d := Dedup(Collect(es));
    var ts := ParseTopics(SowSection(es), nameLe);
    assert ts == Sorting.Sort(d, ByName(nameLe));
    ByNameTotal(nameLe);
    Sorting.SortSorted(d, ByName(nameLe));
    SameMembers(d, ts);
    NamedPresent(es, d, ts);
    NamesDistinctAfterSort(d, ts);
  }

  lemma SameMembers(d: seq<Config.Topic>, ts: seq<Config.Topic>)
    requires multiset(ts) == multiset(d)
    ensures forall t :: t in ts <==> t in d
  {
    assert forall t :: t in ts <==> t in multiset(ts);
    assert forall t :: t in d <==> t in multiset(d);
  }

  /** Every named element's name survives deduplication and reordering. */
  lemma NamedPresent(es: seq<TopicElement>, d: seq<Config.Topic>, ts: seq<Config.Topic>)
    requires d == Dedup(Collect(es))
    requires forall t :: t in ts <==> t in d
    ensures forall i :: 0 <= i < |es| && Trimmed(es[i].name) != "" ==> Trimmed(es[i].name) in Names(ts)
  {
    var c := Collect(es);
    forall i | 0 <= i < |es| && Trimmed(es[i].name) != ""
      ensures Trimmed(es[i].name) in Names(ts)
    {
      var t := TopicOf(es[i]).value;
      assert t in c;
      assert t.name in Names(d);
      var m :| 0 <= m < |d| && Names(d)[m] == t.name;
      assert d[m] in ts;
      var q :| 0 <= q < |ts| && ts[q] == d[m];
      assert Names(ts)[q] == t.name;
    }
  }

  lemma NamesDistinctAfterSort(d: seq<Config.Topic>, ts: seq<Config.Topic>)
    requires DistinctNames(d) && multiset(ts) == multiset(d)
    ensures DistinctNames(ts)
  {
    forall i, j | 0 <= i < j < |ts|
      ensures ts[i].name != ts[j].name
    {
      if ts[i].name == ts[j].name {
        assert ts[i] in multiset(d) && ts[j] in multiset(d);
        var a :| 0 <= a < |d| && d[a] == ts[i];
        var b :| 0 <= b < |d| && d[b] == ts[j];
        if a == b {
          assert ts[i] == ts[j];
          assert multiset(ts)[ts[i]] >= 2 by {
            assert ts == ts[..i] + [ts[i]] + ts[i + 1..j] + [ts[j]] + ts[j + 1..];
          }
          CountAtMostOne(d, ts[i]);
        }
      }
    }
  }

  lemma {:induction false} CountAtMostOne(d: seq<Config.Topic>, x: Config.Topic)
    requires DistinctNames(d)
    ensures multiset(d)[x] <= 1
  {
    if |d| > 0 {
      assert DistinctNames(d[1..]) by {
        forall i, j | 0 <= i < j < |d[1..]| ensures d[1..][i].name != d[1..][j].name {
          assert d[1..][i] == d[i + 1] && d[1..][j] == d[j + 1];
        }
      }
      CountAtMostOne(d[1..], x);
      assert d == [d[0]] + d[1..];
      if d[0] == x {
        assert x !in d[1..];
      }
    }
  }

  /** `fetchTopics`: the topics and, when the request failed, the fallback
      list with the failure's message. */
  function FetchTopics(outcome: FetchOutcome, nameLe: (string, string) -> bool): (r: (seq<Config.Topic>, Option<string>))
    ensures r.1.Some? <==> outcome.NetworkFailure? || !outcome.ok
    ensures r.1.Some? ==> r.0 == Fallback
    ensures outcome.NetworkFailure? ==> r.1 == Some(outcome.message.GetOr(FetchFailedMessage))
    ensures outcome.Response? && !outcome.ok ==>
              r.1 == Some("HTTP " + Text.Decimal(outcome.status) + ": " + outcome.statusText)
    ensures outcome.Response? && outcome.ok ==> r.0 == ParseTopics(outcome.document, nameLe)
  {
    match outcome
    case NetworkFailure(m) => (Fallback, Some(m.GetOr(FetchFailedMessage)))
    case Response(ok, status, statusText, doc) =>
      if !ok then (Fallback, Some("HTTP " + Text.Decimal(status) + ": " + statusText))
      else (ParseTopics(doc, nameLe), None)
  }

  /** A character allowed after the first: `[a-zA-Z0-9_.-]`. */
  predicate NameChar(c: char) {
    Text.IsLetter(c) || Text.IsDigit(c) || c == '_' || c == '.' || c == '-'
  }

  /** `isValidTopicName` */
  predicate IsValidTopicName(name: string) {
    && 0 < |name| <= 255
    && Text.IsLetter(name[0])
    && forall k :: 1 <= k < |name| ==> NameChar(name[k])
  }

  /** A valid name has no whitespace, so trimming (as the configuration
      reader does) leaves it unchanged, and it never contains the NVFIX
      separators. */
  lemma ValidNameTrimmed(name: string)
    requires IsValidTopicName(name)
    ensures Text.Trim(name) == name
    ensures '&' !in name && '=' !in name && ' ' !in name
  {
    assert forall k :: 0 <= k < |name| ==> !Text.IsSpace(name[k]) by {
      forall k | 0 <= k < |name| ensures !Text.IsSpace(name[k]) {
        if k > 0 {
          assert NameChar(name[k]);
        }
      }
    }
    Text.TrimNoSpace(name);
    forall k | 0 <= k < |name| ensures name[k] != '&' && name[k] != '=' && name[k] != ' ' {
      if k > 0 {
        assert NameChar(name[k]);
      }
    }
  }

  /** The fallback list holds five topics, all carrying `json` messages, each
      with a valid name, and no two sharing one. */
  lemma FallbackWellFormed()
    ensures |Fallback| == 5
    ensures forall i :: 0 <= i < |Fallback| ==> Fallback[i].messageType == "json"
    ensures forall i :: 0 <= i < |Fallback| ==> IsValidTopicName(Fallback[i].name)
    ensures DistinctNames(Fallback)
  {
    assert IsValidTopicName("Orders") by {
      assert forall k :: 1 <= k < 6 ==> NameChar("Orders"[k]);
    }
    assert IsValidTopicName("market_data") by {
      assert forall k :: 1 <= k < 11 ==> NameChar("market_data"[k]);
    }
    assert IsValidTopicName("Trades") by {
      assert forall k :: 1 <= k < 6 ==> NameChar("Trades"[k]);
    }
    assert IsValidTopicName("Quotes") by {
      assert forall k :: 1 <= k < 6 ==> NameChar("Quotes"[k]);
    }
    assert IsValidTopicName("Positions") by {
      assert forall k :: 1 <= k < 9 ==> NameChar("Positions"[k]);
    }
  }

  /** `getAdminUrl`: `http://<host>:<adminPort>`. */
  function AdminUrl(server: Config.Server): (url: string)
    ensures Text.StartsWith(url, "http://" + server.host + ":")
    ensures url[|"http://" + server.host + ":"|..] == Text.Decimal(server.adminPort)
  {
    "http://" + server.host + ":" + Text.Decimal(server.adminPort)
  }

  /** `getConfigUrl`: the address `fetchTopics` requests, the admin URL
      followed by the configuration path. */
  function ConfigUrl(server: Config.Server): (url: string)
    ensures Text.StartsWith(url, AdminUrl(server))
    ensures url[|AdminUrl(server)|..] == ConfigPath
  {
    AdminUrl(server) + ConfigPath
  }

  /** The admin port written in a config URL for `host`: the decimal digits
      between `http://<host>:` and the next `/`. */
  function PortInUrl(url: string, host: string): Option<nat> {
    var p := "http://" + host + ":";
    if !Text.StartsWith(url, p) then None
    else
      var rest := url[|p|..];
      var slash := Text.IndexOf(rest, '/');
      if slash <= 0 then None
      else if forall k :: 0 <= k < slash ==> Text.IsDigit(rest[k]) then Some(Text.DecimalValue(rest[..slash]))
      else None
  }

  /** The config URL names the server's host and admin port: reading the
      port back from it gives `adminPort`. */
  lemma ConfigUrlNamesPort(server: Config.Server)
    ensures PortInUrl(ConfigUrl(server), server.host) == Some(server.adminPort)
  {
    var p := "http://" + server.host + ":";
    var d := Text.Decimal(server.adminPort);
    assert ConfigUrl(server) == p + (d + ConfigPath);
    PrefixRest(p, d + ConfigPath);
    SlashAfterDigits(d, ConfigPath);
    assert (d + ConfigPath)[..|d|] == d;
    Text.DecimalRoundTrip(server.adminPort);
  }

  lemma PrefixRest(p: string, t: string)
    ensures Text.StartsWith(p + t, p) && (p + t)[|p|..] == t
  {
    assert (p + t)[..|p|] == p;
  }

  /** The first `/` after a run of digits is the one right after them. */
  lemma SlashAfterDigits(d: string, t: string)
    requires forall k :: 0 <= k < |d| ==> Text.IsDigit(d[k])
    requires |t| > 0 && t[0] == '/'
    ensures Text.IndexOf(d + t, '/') == |d|
  {
    var s := d + t;
    assert s[|d|] == '/';
    assert '/' !in d;
  }
}

=== FILE: app.dfy ===
/** The console's top-level handlers: what connecting, disconnecting,
    executing, stopping and changing the command or topic do to the user's
    selection and the grid, and which notification they raise.  The hook
    calls themselves are modelled in `AmpsHook`; here their outcome is a
    parameter. */
module App {
  import opened Wrappers
  import opened Types
  import Config

  /** What the user has chosen in the query bar.  `command` is a command's
      string value, or empty for "no command". */
  datatype Selection = Selection(
    server: Option<Config.Server>,
    topic: string,
    command: string,
    options: Config.QueryOptions)

  /** At start: no server, no topic, the query command, no options. */
  const InitialSelection := Selection(None, "", Config.Command.Query.Wire(), Config.NoOptions)

  /** How a hook call ended: normally, or by throwing (an `Error` carries
      its message). */
  datatype Outcome = Done | Threw(message: Option<string>)

  /** A handler's effect: the new selection, whether the grid's rows are
      cleared, and the notification raised. */
  datatype Reaction = Reaction(selection: Selection, clearsGrid: bool, notice: Option<Notice>)

  /** `handleConnect`: nothing without a chosen server; otherwise a success
      or failure notification. */
  function Connected(sel: Selection, outcome: Outcome): (r: Option<Notice>)
    ensures sel.server.None? <==> r.None?
    ensures r.Some? ==> (r.value.severity == Success <==> outcome.Done?)
    ensures r.Some? && outcome.Done? ==> r.value.message == "Successfully connected to " + sel.server.value.name
    ensures r.Some? && outcome.Threw? ==>
              r.value.message == outcome.message.GetOr("Failed to connect to AMPS server")
  {
    match sel.server
    case None => None
    case Some(server) =>
      match outcome
      case Done => Some(Notice(Success, "Connected", "Successfully connected to " + server.name))
      case Threw(m) => Some(Notice(Error, "Connection Failed", m.GetOr("Failed to connect to AMPS server")))
  }

  /** `handleDisconnect`.  The hook's `disconnect` catches its own errors,
      so the handler always takes its success path: topic, command and
      options are reset and the grid is cleared; the server stays chosen. */
  function Disconnected(sel: Selection): (r: Reaction)
    ensures r.selection.server == sel.server
    ensures r.selection.topic == "" && r.selection.command == "" && r.selection.options == Config.NoOptions
    ensures r.clearsGrid && r.notice.Some? && r.notice.value.severity == Info
  {
    Reaction(sel.(topic := "", command := "", options := Config.NoOptions), true,
             Some(Notice(Info, "Disconnected", "Disconnected from AMPS server. Data grid cleared.")))
  }

  /** `availableTopics.find(t => t.name === name)` */
  function FindTopic(topics: seq<Config.Topic>, name: string): (r: Option<Config.Topic>)
    ensures r.None? <==> forall i :: 0 <= i < |topics| ==> topics[i].name != name
    ensures r.Some? ==> exists i :: 0 <= i < |topics| && topics[i] == r.value && r.value.name == name
                          && forall j :: 0 <= j < i ==> topics[j].name != name
  {
    if |topics| == 0 then None
    else if topics[0].name == name then Some(topics[0])
    else
      var r := FindTopic(topics[1..], name);
      assert forall i :: 1 <= i < |topics| ==> topics[i] == topics[1..][i - 1];
      if r.Some? then
        var i :| 0 <= i < |topics[1..]| && topics[1..][i] == r.value && r.value.name == name
                 && forall j :: 0 <= j < i ==> topics[1..][j].name != name;
        assert topics[i + 1] == r.value;
        r
      else r
  }

  /** The arguments `handleExecute` passes to the hook's `executeCommand`. */
  datatype Execution = Execution(command: string, topic: string, options: Config.QueryOptions, topicInfo: Option<Config.Topic>)

  /** `handleExecute` before the call: nothing unless both a command and a
      topic are chosen; the topic's description is looked up by name. */
  function ExecutionOf(sel: Selection, topics: seq<Config.Topic>): (r: Option<Execution>)
    ensures r.Some? <==> sel.command != "" && sel.topic != ""
    ensures r.Some? ==> r.value.command == sel.command && r.value.topic == sel.topic
                        && r.value.options == sel.options
                        && r.value.topicInfo == FindTopic(topics, sel.topic)
  {
    if sel.command != "" && sel.topic != "" then
      Some(Execution(sel.command, sel.topic, sel.options, FindTopic(topics, sel.topic)))
    else None
  }

  /** `handleExecute` after the call. */
  function Executed(e: Execution, outcome: Outcome): (n: Notice)
    ensures n.severity == Success <==> outcome.Done?
    ensures outcome.Done? && e.topicInfo.None? ==>
              n.message == e.command + " command executed successfully on topic " + e.topic
    ensures outcome.Done? && e.topicInfo.Some? ==>
              n.message == e.command + " command executed successfully on topic " + e.topic
                           + " (" + e.topicInfo.value.messageType + " format)"
    ensures outcome.Threw? ==> n.message == outcome.message.GetOr("Failed to execute command")
  {
    match outcome
    case Done =>
      var suffix := if e.topicInfo.Some? then " (" + e.topicInfo.value.messageType + " format)" else "";
      Notice(Success, "Command Executed", e.command + " command executed successfully on topic " + e.topic + suffix)
    case Threw(m) => Notice(Error, "Execution Failed", m.GetOr("Failed to execute command"))
  }

  /** `handleStop`: the hook's `stopExecution` catches its own errors, so
      the handler always reports the stop. */
  const StoppedNotice := Notice(Info, "Stopped", "All active subscriptions have been stopped")

  /** `handleCommandSelect`: always clears the grid; announces a non-empty
      command. */
  function CommandSelected(sel: Selection, command: string): (r: Reaction)
    ensures r.selection == sel.(command := command)
    ensures r.clearsGrid
    ensures r.notice.Some? <==> command != ""
    ensures r.notice.Some? ==> r.notice.value.message == "Switched to " + command + " command. Data grid cleared."
  {
    var notice := if command != "" then Some(Notice(Info, "Command Changed", "Switched to " + command + " command. Data grid cleared.")) else None;
    Reaction(sel.(command := command), true, notice)
  }

  /** `handleTopicSelect`: choosing the current topic again does nothing;
      another topic is set, the grid cleared, and a non-empty one
      announced. */
  function TopicSelected(sel: Selection, topic: string): (r: Reaction)
    ensures topic == sel.topic <==> r == Reaction(sel, false, None)
    ensures r.selection == sel.(topic := topic)
    ensures r.clearsGrid <==> topic != sel.topic
    ensures r.notice.Some? <==> topic != sel.topic && topic != ""
  {
    if topic == sel.topic then Reaction(sel, false, None)
    else
      var notice := if topic != "" then Some(Notice(Info, "Topic Changed", "Switched to topic " + topic + ". Data grid cleared.")) else None;
      Reaction(sel.(topic := topic), true, notice)
  }

  /** Selecting a topic twice is selecting it once: the second selection
      changes nothing and clears nothing. */
  lemma TopicSelectIdempotent(sel: Selection, topic: string)
    ensures var once := TopicSelected(sel, topic).selection;
      TopicSelected(once, topic) == Reaction(once, false, None)
  {
  }

  /** After a disconnect nothing can be executed until both a command and a
      topic are chosen again. */
  lemma DisconnectBlocksExecute(sel: Selection, topics: seq<Config.Topic>)
    ensures ExecutionOf(Disconnected(sel).selection, topics).None?
    ensures ExecutionOf(TopicSelected(Disconnected(sel).selection, "t").selection, topics).None?
  {
  }

  /** At start the query command is chosen, so choosing a topic is all an
      execution needs. */
  lemma InitialNeedsOnlyTopic(topic: string, topics: seq<Config.Topic>)
    ensures ExecutionOf(TopicSelected(InitialSelection, topic).selection, topics).Some? <==> topic != ""
  {
  }
}

=== FILE: commands.dfy ===
/** The command panel: the four command choices and their labels, the lock
    that refuses a command change while an execution runs, and the main
    button that is Execute when idle and Stop while executing. */
module CommandPanel {
  import opened Types
  import Config

  /** `commands`: the radio choices, in display order. */
  const Choices: seq<Config.Command> := [Config.Command.Query, Config.Command.Subscribe,
                                         Config.Command.QuerySubscribe, Config.Command.SowStats]

  /** `COMMAND_LABELS` */
  function Label(c: Config.Command): (l: string)
    ensures |l| > 0
  {
    match c
    case Query => "Query (SOW)"
    case Subscribe => "Subscribe"
    case QuerySubscribe => "Query + Subscribe"
    case SowStats => "SOW Stats"
  }

  /** Every command is offered exactly once, and no two share a label. */
  lemma ChoicesComplete(a: Config.Command, b: Config.Command)
    ensures a in Choices
    ensures forall i, j :: 0 <= i < j < |Choices| ==> Choices[i] != Choices[j]
    ensures Label(a) == Label(b) <==> a == b
  {
  }

  const LockedNotice := Notice(Warning, "Command Locked",
    "Command selection is locked during active subscriptions. Click Stop to change the command.")

  /** What picking a command does. */
  datatype CommandChange = Refused(notice: Notice) | Chosen(command: string)

  /** `handleCommandChange`: refused with a warning while executing. */
  function CommandChanged(exec: ExecState, value: string): (r: CommandChange)
    ensures r.Refused? <==> exec.isExecuting
    ensures r.Refused? ==> r.notice == LockedNotice
    ensures r.Chosen? ==> r.command == value
  {
    if exec.isExecuting then Refused(LockedNotice) else Chosen(value)
  }

  /** `isCommandDisabled` */
  predicate IsCommandDisabled(conn: ConnState, exec: ExecState) {
    !conn.isConnected || exec.isExecuting
  }

  /** The command choices are disabled exactly when there is no connection
      or a change would be refused with the lock notice. */
  lemma CommandDisabledRefuses(conn: ConnState, exec: ExecState, value: string)
    ensures IsCommandDisabled(conn, exec) <==> !conn.isConnected || CommandChanged(exec, value).Refused?
  {
  }

  /** The main button's behaviour. */
  datatype MainButton = StopButton | ExecuteButton | DisabledExecute

  /** The main button: Stop (never disabled) while executing; otherwise
      Execute, disabled when the query bar says so. */
  function Main(exec: ExecState, isExecuteDisabled: bool): (b: MainButton)
    ensures b == StopButton <==> exec.isExecuting
    ensures b == ExecuteButton <==> !exec.isExecuting && !isExecuteDisabled
  {
    if exec.isExecuting then StopButton
    else if isExecuteDisabled then DisabledExecute
    else ExecuteButton
  }

  /** The settings toggle needs only a connection. */
  predicate SettingsEnabled(conn: ConnState) {
    conn.isConnected
  }
}

=== FILE: config.dfy ===
/** Static configuration of the console: the broker command kinds and their
    wire strings, the server table with its WebSocket endpoints, topic and
    query-option records, and the application constants. */
module Config {
  import opened Wrappers
  import Text

  /** The four command kinds a user can issue. */
  datatype Command = Query | Subscribe | QuerySubscribe | SowStats {

    /** The enum's string value, which is also the broker wire command. */
    function Wire(): (w: string)
      ensures |w| > 0
    {
      match this
      case Query => "sow"
      case Subscribe => "subscribe"
      case QuerySubscribe => "sow_and_subscribe"
      case SowStats => "sow_stats"
    }

    /** Commands that open a live subscription. */
    predicate IsLive() {
      this == Subscribe || this == QuerySubscribe
    }
  }

  /** The four wire strings are pairwise distinct, so a wire string names
      exactly one command kind. */
  lemma WireInjective(a: Command, b: Command)
    ensures a.Wire() == b.Wire() <==> a == b
  {
    if a != b {
      match a
      case Query => assert a.Wire()[1] == 'o'; assert b.Wire() != "sow";
      case Subscribe => assert b.Wire() != "subscribe";
      case QuerySubscribe => assert b.Wire() != "sow_and_subscribe";
      case SowStats => assert b.Wire() != "sow_stats";
    }
  }

  /** A configured broker.  `wsPrefix` is the fixed text in front of the
      message format in the entry's `getWebSocketUrl` template. */
  datatype Server = Server(
    name: string,
    host: string,
    tcpPort: nat,
    websocketPort: nat,
    adminPort: nat,
    ampsUrl: string,
    wsPrefix: string)
  {
    /** `getWebSocketUrl(messageFormat)`. */
    function WebSocketUrl(messageFormat: string): string {
      wsPrefix + messageFormat
    }
  }

  /** The `ws://host:port/amps/` text an endpoint of `s` should start with. */
  function EndpointBase(s: Server): string {
    "ws://" + s.host + ":" + Text.Decimal(s.websocketPort) + "/amps/"
  }

  const Servers: seq<Server> := [
    Server("Google Clooud AMPS (Dev)", "34.68.65.149", 9007, 9008, 8085,
           "ws://34.68.65.149:9008/amps/json", "ws://34.68.65.149:9008/amps/"),
    Server("Google Clooud AMPS (Dev 2)", "34.68.65.150", 9007, 9008, 8085,
           "ws://34.68.65.150:9008/amps/json", "ws://34.68.65.150:9008/amps/")
  ]

  /** Every configured endpoint is `ws://<host>:<websocketPort>/amps/<format>`
      built from the entry's own host and port, and the legacy `ampsUrl` is
      the `json` endpoint. */
  lemma ServerTableConsistent(i: nat, f: string)
    requires i < |Servers|
    ensures Servers[i].WebSocketUrl(f) == EndpointBase(Servers[i]) + f
    ensures Servers[i].ampsUrl == Servers[i].WebSocketUrl("json")
  {
    if i == 0 { FirstServer(); } else { SecondServer(); }
  }

  lemma FirstServer()
    ensures Servers[0].wsPrefix == EndpointBase(Servers[0])
    ensures Servers[0].ampsUrl == Servers[0].wsPrefix + "json"
  {
    DecimalOfWsPort();
    var s := Servers[0];
    assert s.host == "34.68.65.149" && s.websocketPort == 9008;
    assert EndpointBase(s) == "ws://" + "34.68.65.149" + ":" + "9008" + "/amps/";
  }

  lemma SecondServer()
    ensures Servers[1].wsPrefix == EndpointBase(Servers[1])
    ensures Servers[1].ampsUrl == Servers[1].wsPrefix + "json"
  {
    DecimalOfWsPort();
    var s := Servers[1];
    assert s.host == "34.68.65.150" && s.websocketPort == 9008;
    assert EndpointBase(s) == "ws://" + "34.68.65.150" + ":" + "9008" + "/amps/";
  }

  lemma DecimalOfWsPort()
    ensures Text.Decimal(9008) == "9008"
  {
    assert Text.Decimal(9) == "9";
    assert Text.Decimal(90) == "90";
    assert Text.Decimal(900) == "900";
  }

  /** A topic offered for selection. */
  datatype Topic = Topic(name: string, messageType: string, key: string, fileName: Option<string>)

  /** The optional query parameters; `None` is an absent property. */
  datatype QueryOptions = QueryOptions(
    filter: Option<string>,
    orderBy: Option<string>,
    bookmark: Option<string>,
    options: Option<string>)

  /** `{}` */
  const NoOptions := QueryOptions(None, None, None, None)

  const DefaultReconnectDelay: nat := 3000
  const MaxReconnectAttempts: nat := 5
  const DefaultGridPageSize: nat := 100
  const SubscriptionIdPrefix: string := "amps_sub_"
}

=== FILE: form.dfy ===
/** The generic form-state hook: per-field value, error and touched flag,
    plus the form's validity and dirtiness, with the six actions.  A field
    created by an action before it has a value has value `None`
    (`undefined`). */
module Form {
  import opened Wrappers

  datatype FieldState<V> = FieldState(value: Option<V>, error: Option<string>, touched: bool)

  datatype FormState<V> = FormState(fields: map<string, FieldState<V>>, isValid: bool, isDirty: bool)

  /** A validation rule: an error message, or `None` when the value passes. */
  type Rule<!V> = Option<V> -> Option<string>

  /** An error counts only when it is a non-empty string. */
  predicate HasError(e: Option<string>) {
    e.Some? && e.value != ""
  }

  /** No field has an error. */
  predicate AllClear<V>(fields: map<string, FieldState<V>>) {
    forall f :: f in fields ==> !HasError(fields[f].error)
  }

  /** Some field is touched. */
  predicate AnyTouched<V>(fields: map<string, FieldState<V>>) {
    exists f :: f in fields && fields[f].touched
  }

  /** The two summary flags agree with the fields. */
  predicate Consistent<V>(s: FormState<V>) {
    s.isValid == AllClear(s.fields) && s.isDirty == AnyTouched(s.fields)
  }

  /** The field's record, or the empty record `{}` for an absent field. */
  function Get<V>(fields: map<string, FieldState<V>>, f: string): FieldState<V> {
    if f in fields then fields[f] else FieldState(None, None, false)
  }

  /** `createInitialState` */
  function Initial<V>(init: map<string, V>): (s: FormState<V>)
    ensures s.fields.Keys == init.Keys
    ensures forall f :: f in init ==> s.fields[f] == FieldState(Some(init[f]), None, false)
    ensures Consistent(s) && s.isValid && !s.isDirty
  {
    FormState(map f | f in init :: FieldState(Some(init[f]), None, false), true, false)
  }

  /** `setValue`: the field takes the value and is touched; its rule, if
      any, sets its error; both flags are recomputed from the fields. */
  function SetValue<V>(s: FormState<V>, f: string, v: V, rules: map<string, Rule<V>>): (r: FormState<V>)
    ensures r.fields.Keys == s.fields.Keys + {f}
    ensures r.fields[f].value == Some(v) && r.fields[f].touched
    ensures f in rules ==> r.fields[f].error == rules[f](Some(v))
    ensures f !in rules ==> r.fields[f].error == Get(s.fields, f).error
    ensures forall g :: g in s.fields && g != f ==> r.fields[g] == s.fields[g]
    ensures Consistent(r) && r.isDirty
  {
    var old_ := Get(s.fields, f);
    var error := if f in rules then rules[f](Some(v)) else old_.error;
    var fields := s.fields[f := FieldState(Some(v), error, true)];
    assert fields[f].touched;
    FormState(fields, AllClear(fields), AnyTouched(fields))
  }

  /** `setError`: the field takes the error and the form becomes invalid,
      whatever the error's text. */
  function SetError<V>(s: FormState<V>, f: string, e: string): (r: FormState<V>)
    ensures r.fields == s.fields[f := Get(s.fields, f).(error := Some(e))]
    ensures !r.isValid && r.isDirty == s.isDirty
  {
    FormState(s.fields[f := Get(s.fields, f).(error := Some(e))], false, s.isDirty)
  }

  /** With a non-empty error, `setError` keeps the flags consistent. */
  lemma SetErrorConsistent<V>(s: FormState<V>, f: string, e: string)
    requires Consistent(s) && e != ""
    ensures Consistent(SetError(s, f, e))
  {
    var r := SetError(s, f, e);
    assert HasError(r.fields[f].error);
    if f in s.fields {
      assert AnyTouched(r.fields) == AnyTouched(s.fields) by {
        if AnyTouched(s.fields) {
          var g :| g in s.fields && s.fields[g].touched;
          assert r.fields[g].touched;
        }
        if AnyTouched(r.fields) {
          var g :| g in r.fields && r.fields[g].touched;
          assert s.fields[g].touched;
        }
      }
    } else {
      assert AnyTouched(r.fields) == AnyTouched(s.fields) by {
        if AnyTouched(r.fields) {
          var g :| g in r.fields && r.fields[g].touched;
          assert g != f;
        }
        if AnyTouched(s.fields) {
          var g :| g in s.fields && s.fields[g].touched;
          assert r.fields[g].touched;
        }
      }
    }
  }

  /** `clearError`: the field's error goes and validity is recomputed. */
  function ClearError<V>(s: FormState<V>, f: string): (r: FormState<V>)
    ensures r.fields == s.fields[f := Get(s.fields, f).(error := None)]
    ensures r.isValid <==> forall g :: g in s.fields && g != f ==> !HasError(s.fields[g].error)
    ensures r.isDirty == s.isDirty
  {
    var fields := s.fields[f := Get(s.fields, f).(error := None)];
    assert forall g :: g in fields && g != f ==> fields[g] == s.fields[g];
    FormState(fields, AllClear(fields), s.isDirty)
  }

  /** `clearError` keeps the flags consistent. */
  lemma ClearErrorConsistent<V>(s: FormState<V>, f: string)
    requires Consistent(s)
    ensures Consistent(ClearError(s, f))
  {
    var r := ClearError(s, f);
    if AnyTouched(s.fields) {
      var g :| g in s.fields && s.fields[g].touched;
      assert r.fields[g].touched;
    }
    if AnyTouched(r.fields) {
      var g :| g in r.fields && r.fields[g].touched;
      assert g != f ==> s.fields[g].touched;
    }
  }

  /** `setTouched` as written: the dirty flag is `touched` or-ed with the
      touched flags of the fields BEFORE the update. */
  function SetTouched<V>(s: FormState<V>, f: string, touched: bool): (r: FormState<V>)
    ensures r.fields == s.fields[f := Get(s.fields, f).(touched := touched)]
    ensures r.isValid == s.isValid
    ensures r.isDirty <==> touched || AnyTouched(s.fields)
  {
    FormState(s.fields[f := Get(s.fields, f).(touched := touched)], s.isValid, touched || AnyTouched(s.fields))
  }

  /** Untouching the only touched field leaves the form dirty although no
      field is touched any more. */
  lemma SetTouchedStaleDirty()
    ensures var s := FormState(map["a" := FieldState(Some(0), None, true)], true, true);
      && Consistent(s)
      && var r := SetTouched(s, "a", false);
         r.isDirty && !AnyTouched(r.fields) && !Consistent(r)
  {
    var s := FormState(map["a" := FieldState(Some(0), None, true)], true, true);
    var r := SetTouched(s, "a", false);
    assert s.fields["a"].touched;
    assert r.fields == map["a" := FieldState(Some(0), None, false)];
  }

  /** `setTouched` with the dirty flag computed from the updated fields, as
      `setValue` computes it. */
  function SetTouchedCorrected<V>(s: FormState<V>, f: string, touched: bool): (r: FormState<V>)
    ensures r.fields == s.fields[f := Get(s.fields, f).(touched := touched)]
    ensures r.isValid == s.isValid
    ensures touched ==> r.isDirty
  {
    var fields := s.fields[f := Get(s.fields, f).(touched := touched)];
    assert touched ==> fields[f].touched;
    FormState(fields, s.isValid, AnyTouched(fields))
  }

  /** The corrected `setTouched` keeps the flags consistent, and agrees with
      the one as written whenever a field is being touched. */
  lemma SetTouchedCorrectedConsistent<V>(s: FormState<V>, f: string, touched: bool)
    requires Consistent(s)
    ensures Consistent(SetTouchedCorrected(s, f, touched))
    ensures touched ==> SetTouchedCorrected(s, f, touched) == SetTouched(s, f, touched)
  {
    var r := SetTouchedCorrected(s, f, touched);
    assert AllClear(r.fields) == AllClear(s.fields) by {
      if AllClear(s.fields) {
        forall g | g in r.fields ensures !HasError(r.fields[g].error) {
          if g != f {
            assert r.fields[g] == s.fields[g];
          }
        }
      }
      if AllClear(r.fields) {
        forall g | g in s.fields ensures !HasError(s.fields[g].error) {
          assert r.fields[g].error == s.fields[g].error;
        }
      }
    }
  }

  /** `reset` */
  function Reset<V>(init: map<string, V>): (s: FormState<V>)
    ensures s == Initial(init)
    ensures Consistent(s)
  {
    Initial(init)
  }

  /** `validate`: without rules the form is valid and unchanged.  Otherwise
      every ruled field is checked and touched, the form becomes dirty, and
      it is valid when no rule reports an error; a rule for a field the form
      does not have throws (reading `.value` of `undefined`). */
  function Validate<V>(s: FormState<V>, rules: Option<map<string, Rule<V>>>): (r: Result<(FormState<V>, bool)>)
    ensures rules.None? ==> r == Ok((s, true))
    ensures rules.Some? ==> (r.Err? <==> exists f :: f in rules.value && f !in s.fields)
    ensures r.Ok? && rules.Some? ==>
      && r.value.0.fields.Keys == s.fields.Keys
      && (forall f :: f in rules.value ==> r.value.0.fields[f] == s.fields[f].(error := rules.value[f](s.fields[f].value), touched := true))
      && (forall f :: f in s.fields && f !in rules.value ==> r.value.0.fields[f] == s.fields[f])
      && r.value.0.isDirty
      && (r.value.1 <==> forall f :: f in rules.value ==> !HasError(rules.value[f](s.fields[f].value)))
      && r.value.0.isValid == r.value.1
  {
    match rules
    case None => Ok((s, true))
    case Some(rs) =>
      if exists f :: f in rs && f !in s.fields then Err("Cannot read properties of undefined (reading 'value')")
      else
        var fields := map f | f in s.fields ::
          if f in rs then s.fields[f].(error := rs[f](s.fields[f].value), touched := true) else s.fields[f];
        var ok := forall f :: f in rs ==> !HasError(rs[f](s.fields[f].value));
        Ok((FormState(fields, ok, true), ok))
  }

  /** Validation leaves the flags consistent when the fields without a rule
      carry no error and at least one field is ruled. */
  lemma ValidateConsistent<V>(s: FormState<V>, rules: map<string, Rule<V>>, g: string)
    requires g in rules
    requires forall f :: f in s.fields && f !in rules ==> !HasError(s.fields[f].error)
    requires Validate(s, Some(rules)).Ok?
    ensures Consistent(Validate(s, Some(rules)).value.0)
  {
    var r := Validate(s, Some(rules)).value.0;
    assert r.fields[g].touched;
    assert AllClear(r.fields) == r.isValid by {
      if r.isValid {
        forall f | f in r.fields ensures !HasError(r.fields[f].error) {
          if f in rules {
            assert r.fields[f].error == rules[f](s.fields[f].value);
          }
        }
      }
      if AllClear(r.fields) {
        forall f | f in rules ensures !HasError(rules[f](s.fields[f].value)) {
          assert r.fields[f].error == rules[f](s.fields[f].value);
        }
      }
    }
  }
}

=== FILE: grid.dfy ===
/** The data grid's pure helpers: the NVFIX `key=value&...` parser, the
    NVFIX display string of a row, header names, column widths, column
    priorities and the ordered column set built from the rows. */
module Grid {
  import opened Wrappers
  import opened Types
  import Text
  import Sorting

  // ---------------------------------------------------------------------
  // NVFIX parsing

  predicate AllDigits(s: string) {
    forall k :: 0 <= k < |s| ==> Text.IsDigit(s[k])
  }

  /** `/^\d+(\.\d+)?$/.test(v)` */
  predicate IsNumeral(v: string) {
    var dot := Text.IndexOf(v, '.');
    if dot == -1 then |v| > 0 && AllDigits(v)
    else dot > 0 && AllDigits(v[..dot]) && dot + 1 < |v| && AllDigits(v[dot + 1..])
  }

  function Pow10(n: nat): (p: nat)
    ensures p >= 1
  {
    if n == 0 then 1 else 10 * Pow10(n - 1)
  }

  /** The exact value of a numeral (`parseFloat` without rounding). */
  function NumeralValue(v: string): real
    requires IsNumeral(v)
  {
    var dot := Text.IndexOf(v, '.');
    if dot == -1 then Text.DecimalValue(v) as real
    else
      var frac := v[dot + 1..];
      Text.DecimalValue(v[..dot]) as real + Text.DecimalValue(frac) as real / Pow10(|frac|) as real
  }

  /** A run of `n` digits is worth less than `10^n`. */
  lemma {:induction false} DigitsBelowPow10(s: string)
    requires AllDigits(s)
    ensures Text.DecimalValue(s) < Pow10(|s|)
    decreases |s|
  {
    if |s| > 0 {
      var n := |s| - 1;
      assert AllDigits(s[..n]);
      DigitsBelowPow10(s[..n]);
      assert s[n] as int - '0' as int <= 9 by {
        assert Text.IsDigit(s[n]);
      }
    }
  }

  /** The whole part of a numeral's value is the number written before its
      dot: the digits after it add less than one. */
  lemma NumeralWholePart(v: string)
    requires IsNumeral(v)
    ensures var dot := Text.IndexOf(v, '.');
      var whole := if dot == -1 then v else v[..dot];
      && AllDigits(whole)
      && Text.DecimalValue(whole) as real <= NumeralValue(v) < Text.DecimalValue(whole) as real + 1.0
  {
    var dot := Text.IndexOf(v, '.');
    if dot != -1 {
      var frac := v[dot + 1..];
      DigitsBelowPow10(frac);
      var f := Text.DecimalValue(frac) as real;
      var p := Pow10(|frac|) as real;
      assert 0.0 <= f < p;
      FractionBelowOne(f, p);
    }
  }

  lemma FractionBelowOne(f: real, p: real)
    requires 0.0 <= f < p
    ensures 0.0 <= f / p < 1.0
  {
    assert f / p * p == f;
  }

  /** A number written in decimal is a numeral worth that number, so it is
      read back as a number. */
  lemma NumeralOfDecimal(n: nat)
    ensures IsNumeral(Text.Decimal(n))
    ensures FieldValue(Text.Decimal(n)) == Num(n as real)
  {
    var d := Text.Decimal(n);
    assert '.' !in d by {
      assert forall k :: 0 <= k < |d| ==> Text.IsDigit(d[k]);
    }
    Text.DecimalRoundTrip(n);
  }

  /** A parsed value: a number for a numeral, the text otherwise. */
  function FieldValue(v: string): (r: Value)
    ensures r.Num? <==> IsNumeral(v)
    ensures r.Str? <==> !IsNumeral(v)
    ensures r.Str? ==> r.s == v
  {
    if IsNumeral(v) then Num(NumeralValue(v)) else Str(v)
  }

  /** One `&`-separated segment: kept only when its first `=` is past the
      first character; key and value are the trimmed text on either side. */
  function ParsePair(pair: string): (r: Option<(string, Value)>)
    ensures r.None? <==> '=' !in pair || pair[0] == '='
    ensures r.Some? ==> '=' !in r.value.0
    ensures forall i :: FirstEquals(pair, i) && r.Some? ==>
      r.value == (Text.Trim(pair[..i]), FieldValue(Text.Trim(pair[i + 1..])))
  {
    var eq := Text.IndexOf(pair, '=');
    if eq > 0 then
      var key := Text.Trim(pair[..eq]);
      assert '=' !in key by {
        var i :| Text.TrimmedAt(pair[..eq], key, i);
        assert key == pair[..eq][i..i + |key|];
      }
      Some((key, FieldValue(Text.Trim(pair[eq + 1..]))))
    else None
  }

  /** `pair[i]` is the first `=` of `pair`. */
  predicate FirstEquals(pair: string, i: int) {
    0 <= i < |pair| && pair[i] == '=' && '=' !in pair[..i]
  }

  /** A parsed segment: a key and its value, or `None` when dropped. */
  type Entry = Option<(string, Value)>

  /** Assigning to this key of a plain object calls the prototype setter,
      which ignores a number or a string, so no field is added. */
  const ProtoKey := "__proto__"

  /** The entry is kept and its assignment adds a field. */
  predicate Stored(e: Entry) {
    e.Some? && e.value.0 != ProtoKey
  }

  /** The segments' entries folded into a record, a later key overwriting an
      earlier one. */
  function Fold(es: seq<Entry>): map<string, Value> {
    if |es| == 0 then map[]
    else
      var m := Fold(es[..|es| - 1]);
      var e := es[|es| - 1];
      if Stored(e) then m[e.value.0 := e.value.1] else m
  }

  function ParseSegments(pairs: seq<string>): (es: seq<Entry>)
    ensures |es| == |pairs|
    ensures forall i :: 0 <= i < |pairs| ==> es[i] == ParsePair(pairs[i])
  {
    seq(|pairs|, i requires 0 <= i < |pairs| => ParsePair(pairs[i]))
  }

  /** `parseNVFIXMessage` */
  function ParseNvfix(s: string): map<string, Value> {
    Fold(ParseSegments(Text.Split(s, '&')))
  }

  /** Entry `i` is stored and has key `k`. */
  predicate KeyAt(es: seq<Entry>, i: int, k: string) {
    0 <= i < |es| && Stored(es[i]) && es[i].value.0 == k
  }

  /** A key is in the record exactly when some stored segment has it; in
      particular `__proto__` never is. */
  lemma {:induction false} FoldKeys(es: seq<Entry>, k: string)
    ensures k in Fold(es) <==> exists i :: KeyAt(es, i, k)
  {
    if |es| > 0 {
      var n := |es| - 1;
      var p := es[..n];
      FoldKeys(p, k);
      if k in Fold(es) && !KeyAt(es, n, k) {
        var i :| KeyAt(p, i, k);
        assert KeyAt(es, i, k);
      }
      if exists i :: KeyAt(es, i, k) {
        var i :| KeyAt(es, i, k);
        if i < n {
          assert KeyAt(p, i, k);
        }
      }
    }
  }

  /** A key's value is the one from the last stored segment that has it. */
  lemma {:induction false} FoldLastWins(es: seq<Entry>, k: string, i: int)
    requires KeyAt(es, i, k)
    requires forall j :: i < j < |es| ==> !KeyAt(es, j, k)
    ensures k in Fold(es) && Fold(es)[k] == es[i].value.1
  {
    var n := |es| - 1;
    var p := es[..n];
    if i < n {
      assert KeyAt(p, i, k);
      forall j | i < j < |p|
        ensures !KeyAt(p, j, k)
      {
        assert !KeyAt(es, j, k);
      }
      FoldLastWins(p, k, i);
      assert !KeyAt(es, n, k);
    }
  }

  lemma {:induction false} FoldAppend(a: seq<Entry>, b: seq<Entry>)
    ensures Fold(a + b) == Fold(a) + Fold(b)
    decreases |b|
  {
    if |b| == 0 {
      assert a + b == a;
    } else {
      var n := |b| - 1;
      FoldAppend(a, b[..n]);
      assert (a + b)[..|a + b| - 1] == a + b[..n];
      assert (a + b)[|a + b| - 1] == b[n];
    }
  }

  /** A dropped segment (no `=`, or a leading `=`) contributes nothing. */
  lemma DroppedSegmentIgnored(a: seq<string>, b: seq<string>, seg: string)
    requires '=' !in seg || (|seg| > 0 && seg[0] == '=')
    ensures Fold(ParseSegments(a + [seg] + b)) == Fold(ParseSegments(a + b))
  {
    var sa, sb := ParseSegments(a), ParseSegments(b);
    assert ParseSegments([seg]) == [None];
    SegmentsAppend(a + [seg], b);
    SegmentsAppend(a, [seg]);
    SegmentsAppend(a, b);
    FoldDropNone(sa, None, sb);
  }

  /** An entry that is not stored contributes nothing. */
  lemma FoldDropNone(a: seq<Entry>, e: Entry, b: seq<Entry>)
    requires !Stored(e)
    ensures Fold(a + [e] + b) == Fold(a + b)
  {
    FoldAppend(a + [e], b);
    FoldAppend(a, b);
    assert (a + [e])[..|a|] == a;
  }

  /** A segment whose key trims to `__proto__` contributes nothing: the
      assignment goes to the prototype setter. */
  lemma ProtoSegmentIgnored(a: seq<string>, b: seq<string>, v: string)
    ensures Fold(ParseSegments(a + [ProtoKey + "=" + v] + b)) == Fold(ParseSegments(a + b))
  {
    var seg := ProtoKey + "=" + v;
    ProtoPairNotStored(v);
    assert ParseSegments([seg]) == [ParsePair(seg)];
    SegmentsAppend(a + [seg], b);
    SegmentsAppend(a, [seg]);
    SegmentsAppend(a, b);
    FoldDropNone(ParseSegments(a), ParsePair(seg), ParseSegments(b));
  }

  /** A `__proto__=v` segment parses to the key `__proto__`. */
  lemma ProtoPairNotStored(v: string)
    ensures ParsePair(ProtoKey + "=" + v) == Some((ProtoKey, FieldValue(Text.Trim(v))))
    ensures !Stored(ParsePair(ProtoKey + "=" + v))
  {
    var seg := ProtoKey + "=" + v;
    assert seg[|ProtoKey|] == '=';
    assert seg[..|ProtoKey|] == ProtoKey;
    assert seg[|ProtoKey| + 1..] == v;
    assert Text.IndexOf(seg, '=') == |ProtoKey|;
    Text.TrimNoSpace(ProtoKey);
  }

  lemma SegmentsAppend(a: seq<string>, b: seq<string>)
    ensures ParseSegments(a + b) == ParseSegments(a) + ParseSegments(b)
  {
    var l, r := ParseSegments(a + b), ParseSegments(a) + ParseSegments(b);
    forall i | 0 <= i < |l|
      ensures l[i] == r[i]
    {
      if i < |a| {
        assert (a + b)[i] == a[i];
      } else {
        assert (a + b)[i] == b[i - |a|];
      }
    }
  }

  /** Parsing two messages joined by `&` merges their records, the second
      one's keys winning. */
  lemma ParseConcat(a: string, b: string)
    ensures ParseNvfix(a + "&" + b) == ParseNvfix(a) + ParseNvfix(b)
  {
    var pa, pb := Text.Split(a, '&'), Text.Split(b, '&');
    Text.SplitAppend(a, b, '&');
    assert a + "&" + b == a + ['&'] + b;
    SegmentsAppend(pa, pb);
    FoldAppend(ParseSegments(pa), ParseSegments(pb));
  }

  /** An entry that survives `key=value` rendering unchanged and becomes a
      field: a non-empty trimmed key without `=` or `&` other than
      `__proto__`, and a trimmed value without `&`. */
  predicate WellFormedEntry(k: string, v: string) {
    |k| > 0 && '=' !in k && '&' !in k && Text.Trim(k) == k && k != ProtoKey && '&' !in v && Text.Trim(v) == v
  }

  /** Each entry written `key=value`. */
  function Render(entries: seq<(string, string)>): seq<string> {
    seq(|entries|, i requires 0 <= i < |entries| => entries[i].0 + "=" + entries[i].1)
  }

  /** The record the entries describe, a later key winning. */
  function Described(entries: seq<(string, string)>): map<string, Value> {
    if |entries| == 0 then map[]
    else
      var n := |entries| - 1;
      Described(entries[..n])[entries[n].0 := FieldValue(entries[n].1)]
  }

  lemma ParsePairOfEntry(k: string, v: string)
    requires WellFormedEntry(k, v)
    ensures ParsePair(k + "=" + v) == Some((k, FieldValue(v)))
  {
    var pair := k + "=" + v;
    assert pair[|k|] == '=';
    assert pair[..|k|] == k;
    assert pair[|k| + 1..] == v;
    assert Text.IndexOf(pair, '=') == |k|;
  }

  /** The entries as the parser sees them. */
  function AsParsed(entries: seq<(string, string)>): seq<Entry> {
    seq(|entries|, i requires 0 <= i < |entries| => Some((entries[i].0, FieldValue(entries[i].1))))
  }

  lemma {:induction false} FoldDescribed(entries: seq<(string, string)>)
    requires forall i :: 0 <= i < |entries| ==> entries[i].0 != ProtoKey
    ensures Fold(AsParsed(entries)) == Described(entries)
    decreases |entries|
  {
    if |entries| > 0 {
      var n := |entries| - 1;
      var es := AsParsed(entries);
      FoldDescribed(entries[..n]);
      assert es[..n] == AsParsed(entries[..n]);
      assert es[n] == Some((entries[n].0, FieldValue(entries[n].1)));
      assert Fold(es) == Fold(es[..n])[entries[n].0 := FieldValue(entries[n].1)];
    }
  }

  lemma RenderedFree(entries: seq<(string, string)>)
    requires forall i :: 0 <= i < |entries| ==> WellFormedEntry(entries[i].0, entries[i].1)
    ensures forall i :: 0 <= i < |entries| ==> '&' !in Render(entries)[i]
  {
    forall i | 0 <= i < |entries|
      ensures '&' !in Render(entries)[i]
    {
      var k, v := entries[i].0, entries[i].1;
      assert Render(entries)[i] == k + "=" + v;
    }
  }

  lemma ParsedRender(entries: seq<(string, string)>)
    requires forall i :: 0 <= i < |entries| ==> WellFormedEntry(entries[i].0, entries[i].1)
    ensures ParseSegments(Render(entries)) == AsParsed(entries)
  {
    forall i | 0 <= i < |entries|
      ensures ParsePair(Render(entries)[i]) == AsParsed(entries)[i]
    {
      ParsePairOfEntry(entries[i].0, entries[i].1);
    }
  }

  /** The message the entries render to: `k=v` pieces joined by `&`, and
      the empty text for no entries. */
  function RenderMessage(entries: seq<(string, string)>): string {
    if |entries| == 0 then "" else Text.Join(Render(entries), '&')
  }

  /** The empty text is one segment without `=`, so it parses to the empty
      record. */
  lemma ParseEmpty()
    ensures ParseNvfix("") == map[]
  {
    SplitEmpty();
    var es := ParseSegments([""]);
    assert es[0] == ParsePair("") == None;
    assert es[..0] == [];
  }

  lemma SplitEmpty()
    ensures Text.Split("", '&') == [""]
  {
  }

  /** Round trip: rendering well-formed entries as `k=v` joined by `&` and
      parsing the result gives back the record they describe; no entries
      render to the empty text, which parses to the empty record. */
  lemma {:induction false} ParseRender(entries: seq<(string, string)>)
    requires forall i :: 0 <= i < |entries| ==> WellFormedEntry(entries[i].0, entries[i].1)
    ensures ParseNvfix(RenderMessage(entries)) == Described(entries)
  {
    if |entries| == 0 {
      ParseEmpty();
    } else {
      RenderedFree(entries);
      Text.SplitJoin(Render(entries), '&');
      ParsedRender(entries);
      FoldDescribed(entries);
    }
  }

  /** `keys[i]` is the first field other than `key`. */
  predicate FirstDataField(keys: seq<string>, i: int) {
    0 <= i < |keys| && keys[i] != KeyField && forall j :: 0 <= j < i ==> keys[j] == KeyField
  }

  /** The field `k` of `row` holds NVFIX text: a string containing `&`. */
  predicate HoldsNvfix(row: Row, k: string) {
    |k| > 0 && k in row && row[k].Str? && Text.Contains(row[k].s, "&")
  }

  /** The NVFIX text shown for a row: the first field other than `key`, in
      the row's key order, rendered `field=value` when its value is a
      string containing `&`; otherwise empty. */
  function DisplayString(keys: seq<string>, row: Row): (s: string)
    ensures s != "" <==> exists i :: FirstDataField(keys, i) && HoldsNvfix(row, keys[i])
    ensures forall i :: FirstDataField(keys, i) && HoldsNvfix(row, keys[i]) ==> s == keys[i] + "=" + row[keys[i]].s
  {
    var dataKeys := NonKeyFields(keys);
    NonKeyHead(keys);
    if |dataKeys| == 0 then ""
    else
      var first := dataKeys[0];
      if HoldsNvfix(row, first) then first + "=" + row[first].s else ""
  }

  /** `keys.filter(k => k !== 'key')` */
  function NonKeyFields(keys: seq<string>): (r: seq<string>)
    ensures forall i :: 0 <= i < |r| ==> r[i] != KeyField && r[i] in keys
  {
    if |keys| == 0 then []
    else
      var rest := NonKeyFields(keys[1..]);
      if keys[0] == KeyField then rest else [keys[0]] + rest
  }

  /** The filtered list starts with the first field other than `key`, and
      is empty exactly when there is none. */
  lemma {:induction false} NonKeyHead(keys: seq<string>)
    ensures |NonKeyFields(keys)| > 0 <==> exists i :: FirstDataField(keys, i)
    ensures forall i :: FirstDataField(keys, i) ==> NonKeyFields(keys)[0] == keys[i]
  {
    if |keys| > 0 {
      NonKeyHead(keys[1..]);
      if keys[0] == KeyField {
        forall i | FirstDataField(keys, i)
          ensures FirstDataField(keys[1..], i - 1)
        {
          assert i > 0;
        }
        if |NonKeyFields(keys)| > 0 {
          var i :| FirstDataField(keys[1..], i);
          assert FirstDataField(keys, i + 1);
        }
      } else {
        assert FirstDataField(keys, 0);
      }
    }
  }

  /** The raw/parsed toggle starts on the raw view exactly for NVFIX topics. */
  function ShowsParsedFirst(messageType: Option<string>): (parsed: bool)
    ensures !parsed <==> messageType.Some? && Text.Lower(messageType.value) == "nvfix"
  {
    !(messageType.Some? && Text.Lower(messageType.value) == "nvfix")
  }

  // ---------------------------------------------------------------------
  // Header names

  /** `word.charAt(0).toUpperCase() + word.slice(1)` */
  function Capitalize(w: string): string {
    if |w| == 0 then "" else [Text.UpperChar(w[0])] + w[1..]
  }

  function CapitalizeAll(words: seq<string>): (r: seq<string>)
    ensures |r| == |words|
    ensures forall i :: 0 <= i < |words| ==> r[i] == Capitalize(words[i])
  {
    if |words| == 0 then [] else [Capitalize(words[0])] + CapitalizeAll(words[1..])
  }

  /** `formatHeaderName`: split on `_`, capitalise each word, join with a
      space. */
  function FormatHeaderName(key: string): string {
    Text.Join(CapitalizeAll(Text.Split(key, '_')), ' ')
  }

  /** The header read character by character: every `_` becomes a space,
      and the first character of each word (at the start, or after an `_`)
      is upper-cased. */
  function Spaced(s: string): string {
    seq(|s|, i requires 0 <= i < |s| =>
      if s[i] == '_' then ' '
      else if i == 0 || s[i - 1] == '_' then Text.UpperChar(s[i])
      else s[i])
  }

  lemma SpacedAppend(a: string, b: string)
    ensures Spaced(a + "_" + b) == Spaced(a) + " " + Spaced(b)
  {
    var s := a + "_" + b;
    var l, r := Spaced(s), Spaced(a) + " " + Spaced(b);
    forall i | 0 <= i < |s|
      ensures l[i] == r[i]
    {
      if i < |a| {
        assert s[i] == a[i];
        if i > 0 {
          assert s[i - 1] == a[i - 1];
        }
      } else if i > |a| {
        assert s[i] == b[i - |a| - 1];
        if i > |a| + 1 {
          assert s[i - 1] == b[i - |a| - 2];
        }
      }
    }
  }

  lemma SpacedWord(w: string)
    requires '_' !in w
    ensures Spaced(w) == Capitalize(w)
  {
    if |w| > 0 {
      var l, r := Spaced(w), Capitalize(w);
      forall i | 0 <= i < |w|
        ensures l[i] == r[i]
      {
        if i > 0 {
          assert w[i - 1] in w;
        }
      }
    }
  }

  lemma {:induction false} JoinSpaced(words: seq<string>)
    requires |words| >= 1
    requires forall i :: 0 <= i < |words| ==> '_' !in words[i]
    ensures Spaced(Text.Join(words, '_')) == Text.Join(CapitalizeAll(words), ' ')
    decreases |words|
  {
    SpacedWord(words[0]);
    if |words| > 1 {
      var caps := CapitalizeAll(words);
      JoinSpaced(words[1..]);
      assert caps[1..] == CapitalizeAll(words[1..]);
      SpacedAppend(words[0], Text.Join(words[1..], '_'));
      assert Text.Join(words, '_') == words[0] + "_" + Text.Join(words[1..], '_');
      assert Text.Join(caps, ' ') == caps[0] + " " + Text.Join(caps[1..], ' ');
    }
  }

  /** `formatHeaderName` keeps the length, turns each `_` into a space and
      upper-cases exactly the first letter of every word. */
  lemma FormatHeaderNamePointwise(key: string)
    ensures FormatHeaderName(key) == Spaced(key)
    ensures |FormatHeaderName(key)| == |key|
  {
    Text.JoinSplit(key, '_');
    Text.SplitPiecesFree(key, '_');
    JoinSpaced(Text.Split(key, '_'));
  }

  /** A key without spaces keeps its word count: the header splits on spaces
      into exactly the capitalised words of the key. */
  lemma HeaderWordCount(key: string)
    requires ' ' !in key
    ensures Text.Split(FormatHeaderName(key), ' ') == CapitalizeAll(Text.Split(key, '_'))
    ensures |Text.Split(FormatHeaderName(key), ' ')| == |Text.Split(key, '_')|
  {
    var words := CapitalizeAll(Text.Split(key, '_'));
    Text.SplitPiecesFree(key, '_');
    forall i | 0 <= i < |words|
      ensures ' ' !in words[i]
    {
      SplitPieceWithin(key, '_', i);
      var w := Text.Split(key, '_')[i];
      if |w| > 0 {
        assert words[i] == [Text.UpperChar(w[0])] + w[1..];
        assert w[0] in w;
      }
    }
    Text.SplitJoin(words, ' ');
  }

  /** Every character of a piece of `Split(s, sep)` occurs in `s`. */
  lemma {:induction false} SplitPieceWithin(s: string, sep: char, i: int)
    requires 0 <= i < |Text.Split(s, sep)|
    ensures forall c :: c in Text.Split(s, sep)[i] ==> c in s
    decreases |s|
  {
    if |s| > 0 {
      var rest := Text.Split(s[1..], sep);
      if s[0] == sep {
        if i > 0 {
          SplitPieceWithin(s[1..], sep, i - 1);
        }
      } else if i == 0 {
        SplitPieceWithin(s[1..], sep, 0);
      } else {
        SplitPieceWithin(s[1..], sep, i);
      }
    }
  }

  // ---------------------------------------------------------------------
  // Widths and priorities

  /** `getColumnMinWidth` as written: the first rule that applies decides. */
  function MinWidth(key: string): (w: nat)
    ensures w in {80, 100, 120, 180}
  {
    var k := Text.Lower(key);
    if Text.Contains(k, "id") || k == "symbol" then 120
    else if Text.Contains(k, "price") || Text.Contains(k, "balance") then 100
    else if Text.Contains(k, "timestamp") || Text.Contains(k, "time") then 180
    else if Text.Contains(k, "status") || k == "side" then 80
    else 100
  }

  /** `side` contains `id`, so the first rule catches it and the explicit
      `side` case of the fourth rule can never apply. */
  lemma SideHitsIdRule()
    ensures MinWidth("side") == 120
  {
    assert Text.Lower("side") == "side";
    assert Text.OccursAt("side", "id", 1);
    Text.ContainsIff("side", "id");
  }

  /** The minimum width with the exact-name rules tried before the substring
      rules, so that `side` gets the 80 its rule names. */
  function MinWidthCorrected(key: string): (w: nat)
    ensures Text.Lower(key) == "side" ==> w == 80
    ensures Text.Lower(key) != "side" ==> w == MinWidth(key)
  {
    if Text.Lower(key) == "side" then 80 else MinWidth(key)
  }

  /** `getColumnMaxWidth`; `None` is no maximum. */
  function MaxWidth(key: string): (w: Option<nat>)
    ensures w.Some? ==> w.value in {120, 200}
  {
    var k := Text.Lower(key);
    if Text.Contains(k, "timestamp") || Text.Contains(k, "time") then Some(200)
    else if k == "symbol" || k == "side" || k == "status" then Some(120)
    else None
  }

  /** A column's minimum never exceeds its maximum, with the corrected
      minimum as with the one as written. */
  lemma {:induction false} WidthsConsistent(key: string)
    ensures MaxWidth(key).Some? ==> MinWidth(key) <= MaxWidth(key).value
    ensures MaxWidth(key).Some? ==> MinWidthCorrected(key) <= MaxWidth(key).value
  {
    var k := Text.Lower(key);
    if MaxWidth(key) == Some(120) {
      assert k == "symbol" || k == "side" || k == "status";
      if k == "symbol" {
        assert MinWidth(key) == 120;
      } else if k == "side" {
        assert Text.OccursAt(k, "id", 1);
        Text.ContainsIff(k, "id");
      } else {
        assert Text.OccursAt(k, "status", 0);
        Text.ContainsIff(k, "status");
      }
    }
  }

  const PriorityTable: map<string, nat> := map[
    "symbol" := 1, "order_id" := 1, "trade_id" := 1, "account_id" := 1, "id" := 1,
    "price" := 2, "quantity" := 2, "volume" := 2, "balance" := 2, "notional" := 2,
    "bid" := 3, "ask" := 3, "side" := 3, "status" := 3,
    "timestamp" := 4, "last_update_time" := 4, "last_trade_time" := 4,
    "venue" := 5, "currency" := 5, "trader_id" := 5
  ]

  /** `getColumnPriority`: the table entry of the lower-cased name, 10 for
      names the table does not list. */
  function Priority(key: string): (p: nat)
    ensures 1 <= p <= 10
    ensures Text.Lower(key) !in PriorityTable ==> p == 10
    ensures p < 10 ==> Text.Lower(key) in PriorityTable
  {
    var k := Text.Lower(key);
    if k in PriorityTable then PriorityTable[k] else 10
  }

  /** The column sort's comparison: `priority(a) - priority(b) <= 0`. */
  predicate PriorityLe(a: string, b: string) {
    Priority(a) <= Priority(b)
  }

  lemma PriorityLeTotal()
    ensures Sorting.TotalPreorder(PriorityLe)
  {
  }

  // ---------------------------------------------------------------------
  // Column set

  function Flatten(lists: seq<seq<string>>): (r: seq<string>)
    ensures forall x :: x in r <==> exists i :: 0 <= i < |lists| && x in lists[i]
  {
    if |lists| == 0 then []
    else
      var rest := Flatten(lists[1..]);
      assert forall i :: 1 <= i < |lists| ==> lists[i] == lists[1..][i - 1];
      assert forall x :: x in rest ==> exists i :: 0 <= i < |lists| && x in lists[i] by {
        forall x | x in rest ensures exists i :: 0 <= i < |lists| && x in lists[i] {
          var j :| 0 <= j < |lists[1..]| && x in lists[1..][j];
          assert x in lists[j + 1];
        }
      }
      lists[0] + rest
  }

  /** `Flatten` lists the fields row by row, in order: it distributes over
      concatenation, and one row gives its own fields. */
  lemma {:induction false} FlattenAppend(a: seq<seq<string>>, b: seq<seq<string>>)
    ensures Flatten(a + b) == Flatten(a) + Flatten(b)
    ensures |a| == 1 ==> Flatten(a) == a[0]
    decreases |a|
  {
    if |a| == 0 {
      assert a + b == b;
    } else {
      FlattenAppend(a[1..], b);
      assert (a + b)[1..] == a[1..] + b;
      assert (a + b)[0] == a[0];
      Sorting.Associative(a[0], Flatten(a[1..]), Flatten(b));
      if |a| == 1 {
        assert a[1..] == [];
      }
    }
  }

  predicate NoDuplicates(s: seq<string>) {
    forall i, j :: 0 <= i < j < |s| ==> s[i] != s[j]
  }

  /** Position of the first occurrence of `x` in `s`. */
  function FirstIndex(s: seq<string>, x: string): (i: nat)
    requires x in s
    ensures i < |s| && s[i] == x && x !in s[..i]
  {
    if s[0] == x then 0
    else
      var k := FirstIndex(s[1..], x);
      assert s[..k + 1] == [s[0]] + s[1..][..k];
      k + 1
  }

  /** The names collected in a `Set` in insertion order: each name once, at
      its first appearance. */
  function Distinct(s: seq<string>): (r: seq<string>)
    ensures forall x :: x in r <==> x in s
    ensures NoDuplicates(r)
  {
    if |s| == 0 then []
    else
      var n := |s| - 1;
      var p := Distinct(s[..n]);
      assert s == s[..n] + [s[n]];
      if s[n] in p then p else p + [s[n]]
  }

  /** The first occurrence of a name seen in a prefix is inside the prefix. */
  lemma FirstIndexPrefix(s: seq<string>, n: nat, x: string)
    requires n <= |s| && x in s[..n]
    ensures FirstIndex(s, x) == FirstIndex(s[..n], x)
  {
    var i := FirstIndex(s[..n], x);
    assert s[..n][..i] == s[..i];
    assert s[i] == x;
  }

  /** `Distinct` keeps the names in the order of their first appearance. */
  lemma {:induction false} DistinctFirstAppearance(s: seq<string>)
    ensures forall i, j :: 0 <= i < j < |Distinct(s)| ==> FirstIndex(s, Distinct(s)[i]) < FirstIndex(s, Distinct(s)[j])
  {
    if |s| > 0 {
      var n := |s| - 1;
      var p := Distinct(s[..n]);
      DistinctFirstAppearance(s[..n]);
      forall x | x in p
        ensures FirstIndex(s, x) == FirstIndex(s[..n], x) && FirstIndex(s, x) < n
      {
        FirstIndexPrefix(s, n, x);
      }
      var r := Distinct(s);
      if s[n] !in p {
        assert FirstIndex(s, s[n]) == n;
        assert r == p + [s[n]];
        forall i, j | 0 <= i < j < |r|
          ensures FirstIndex(s, r[i]) < FirstIndex(s, r[j])
        {
          assert r[i] == p[i] && r[i] in p;
          if j < |p| {
            assert r[j] == p[j] && r[j] in p;
            assert FirstIndex(s[..n], p[i]) < FirstIndex(s[..n], p[j]);
          }
        }
      } else {
        assert r == p;
        forall i, j | 0 <= i < j < |r|
          ensures FirstIndex(s, r[i]) < FirstIndex(s, r[j])
        {
          assert r[i] == p[i] && r[j] == p[j];
          assert FirstIndex(s[..n], p[i]) < FirstIndex(s[..n], p[j]);
        }
      }
    }
  }

  /** The data columns' fields: every name used by any row, once, stably
      sorted by priority. */
  function ColumnFields(keyLists: seq<seq<string>>): seq<string> {
    Sorting.Sort(Distinct(Flatten(keyLists)), PriorityLe)
  }

  lemma {:induction false} MultisetNoDuplicates(a: seq<string>, b: seq<string>)
    requires multiset(a) == multiset(b) && NoDuplicates(a)
    ensures NoDuplicates(b)
  {
    forall i, j | 0 <= i < j < |b|
      ensures b[i] != b[j]
    {
      if b[i] == b[j] {
        assert multiset(b)[b[i]] >= 2 by {
          assert b == b[..i] + [b[i]] + b[i + 1..j] + [b[j]] + b[j + 1..];
        }
        CountAtMostOne(a, b[i]);
      }
    }
  }

  lemma {:induction false} CountAtMostOne(a: seq<string>, x: string)
    requires NoDuplicates(a)
    ensures multiset(a)[x] <= 1
  {
    if |a| > 0 {
      assert NoDuplicates(a[1..]) by {
        forall i, j | 0 <= i < j < |a[1..]| ensures a[1..][i] != a[1..][j] {
          assert a[1..][i] == a[i + 1] && a[1..][j] == a[j + 1];
        }
      }
      CountAtMostOne(a[1..], x);
      assert a == [a[0]] + a[1..];
      if a[0] == x {
        assert x !in a[1..];
      }
    }
  }

  /** The column fields are exactly the names used by the rows, each once,
      ordered by priority, and names of equal priority keep the order of
      their first appearance in the data. */
  lemma ColumnFieldsSpec(keyLists: seq<seq<string>>, e: string)
    ensures var fs := ColumnFields(keyLists);
      && (forall x :: x in fs <==> exists i :: 0 <= i < |keyLists| && x in keyLists[i])
      && NoDuplicates(fs)
      && Sorting.Sorted(PriorityLe, fs)
      && Sorting.Keep(fs, PriorityLe, e) == Sorting.Keep(Distinct(Flatten(keyLists)), PriorityLe, e)
  {
    var d := Distinct(Flatten(keyLists));
    var fs := ColumnFields(keyLists);
    PriorityLeTotal();
    Sorting.SortSorted(d, PriorityLe);
    Sorting.SortStable(d, PriorityLe, e);
    MultisetNoDuplicates(d, fs);
    assert forall x :: x in fs <==> x in multiset(fs);
    assert forall x :: x in d <==> x in multiset(d);
  }

  /** A column definition's modelled properties. */
  datatype Column = Column(field: string, header: string, minWidth: nat, maxWidth: Option<nat>)

  /** The trailing column that opens the record viewer. */
  const ViewColumn := Column("__view__", "View", 80, Some(80))

  /** One column per field, in field order: the field, its formatted header,
      and the widths the grid applies as written.  Every column's minimum
      stays within its maximum, and its header is as long as its field. */
  function DataColumns(fields: seq<string>): (cols: seq<Column>)
    ensures |cols| == |fields|
    ensures forall i :: 0 <= i < |fields| ==>
      && cols[i].field == fields[i]
      && cols[i].header == FormatHeaderName(fields[i])
      && cols[i].minWidth == MinWidth(fields[i])
      && cols[i].maxWidth == MaxWidth(fields[i])
    ensures forall i :: 0 <= i < |cols| ==> |cols[i].header| == |cols[i].field|
    ensures forall i :: 0 <= i < |cols| && cols[i].maxWidth.Some? ==> cols[i].minWidth <= cols[i].maxWidth.value
  {
    if |fields| == 0 then []
    else
      var f := fields[0];
      FormatHeaderNamePointwise(f);
      WidthsConsistent(f);
      var rest := DataColumns(fields[1..]);
      assert forall i :: 1 <= i < |fields| ==> fields[i] == fields[1..][i - 1];
      [Column(f, FormatHeaderName(f), MinWidth(f), MaxWidth(f))] + rest
  }

  /** `columnDefs`: none for empty data; otherwise one column per field in
      field order, then the view column.  `keyLists[i]` is `Object.keys` of
      row `i`. */
  function ColumnDefs(keyLists: seq<seq<string>>): (cols: seq<Column>)
    ensures |keyLists| == 0 ==> cols == []
    ensures |keyLists| > 0 ==>
      && |cols| == |ColumnFields(keyLists)| + 1
      && cols[|cols| - 1] == ViewColumn
      && forall i :: 0 <= i < |cols| - 1 ==>
           && cols[i].field == ColumnFields(keyLists)[i]
           && cols[i].header == FormatHeaderName(cols[i].field)
           && cols[i].minWidth == MinWidth(cols[i].field)
           && cols[i].maxWidth == MaxWidth(cols[i].field)
  {
    if |keyLists| == 0 then [] else DataColumns(ColumnFields(keyLists)) + [ViewColumn]
  }
}

=== FILE: gridstate.dfy ===
/** The grid's view settings: four toggles and the page size, with their
    defaults and a reset. */
module GridSettings {
  import opened Wrappers
  import Config

  datatype GridState = GridState(
    showSidebar: bool,
    enableGrouping: bool,
    enableFiltering: bool,
    enableCharting: bool,
    pageSize: int)

  /** `DEFAULT_GRID_STATE` */
  const Default := GridState(false, false, true, false, Config.DefaultGridPageSize)

  /** The optional initial overrides (`Partial<GridState>`). */
  datatype Overrides = Overrides(
    showSidebar: Option<bool>,
    enableGrouping: Option<bool>,
    enableFiltering: Option<bool>,
    enableCharting: Option<bool>,
    pageSize: Option<int>)

  /** `{ ...DEFAULT_GRID_STATE, ...initialState }`: each given setting
      replaces its default. */
  function Start(o: Overrides): (g: GridState)
    ensures g.showSidebar == o.showSidebar.GetOr(Default.showSidebar)
    ensures g.enableGrouping == o.enableGrouping.GetOr(Default.enableGrouping)
    ensures g.enableFiltering == o.enableFiltering.GetOr(Default.enableFiltering)
    ensures g.enableCharting == o.enableCharting.GetOr(Default.enableCharting)
    ensures g.pageSize == o.pageSize.GetOr(Default.pageSize)
  {
    GridState(o.showSidebar.GetOr(Default.showSidebar), o.enableGrouping.GetOr(Default.enableGrouping),
              o.enableFiltering.GetOr(Default.enableFiltering), o.enableCharting.GetOr(Default.enableCharting),
              o.pageSize.GetOr(Default.pageSize))
  }

  const NoOverrides := Overrides(None, None, None, None, None)

  datatype Toggle = Sidebar | Grouping | Filtering | Charting

  function Flag(g: GridState, t: Toggle): bool {
    match t
    case Sidebar => g.showSidebar
    case Grouping => g.enableGrouping
    case Filtering => g.enableFiltering
    case Charting => g.enableCharting
  }

  /** `toggleSidebar`, `toggleGrouping`, `toggleFiltering`, `toggleCharting`:
      the one flag flips, everything else stays. */
  function Flip(g: GridState, t: Toggle): (r: GridState)
    ensures Flag(r, t) == !Flag(g, t)
    ensures forall u :: u != t ==> Flag(r, u) == Flag(g, u)
    ensures r.pageSize == g.pageSize
  {
    match t
    case Sidebar => g.(showSidebar := !g.showSidebar)
    case Grouping => g.(enableGrouping := !g.enableGrouping)
    case Filtering => g.(enableFiltering := !g.enableFiltering)
    case Charting => g.(enableCharting := !g.enableCharting)
  }

  /** Flipping twice restores the settings, and two different flips
      commute. */
  lemma FlipInvolutive(g: GridState, t: Toggle, u: Toggle)
    ensures Flip(Flip(g, t), t) == g
    ensures Flip(Flip(g, t), u) == Flip(Flip(g, u), t)
  {
  }

  /** `setPageSize`: any number is accepted as given. */
  function SetPageSize(g: GridState, size: int): (r: GridState)
    ensures r.pageSize == size
    ensures forall t :: Flag(r, t) == Flag(g, t)
  {
    g.(pageSize := size)
  }

  /** `resetState`: back to the defaults, not to the initial overrides. */
  function Reset(g: GridState): (r: GridState)
    ensures r == Start(NoOverrides)
  {
    Default
  }
}

=== FILE: hook.dfy ===
/** The state actions of the AMPS hook around the message handler: starting
    and finishing an execution, stopping it, connecting, disconnecting, and
    the two periodic effects that copy the service's state into the hook.
    Each action is the ordered sequence of its queued state updates. */
module AmpsHook {
  import opened Wrappers
  import opened Types
  import opened Reconciler
  import Config

  const SubscribeWire := Config.Command.Subscribe.Wire()
  const QuerySubscribeWire := Config.Command.QuerySubscribe.Wire()

  /** The hook's state at mount. */
  const Initial := HookState(Idle, NotExecuting, [], map[], None)

  /** `executeCommand` before the service call: the command becomes current,
      field errors and the execution error are cleared, execution starts,
      and the rows are emptied for the two commands that begin with a SOW
      query. */
  function BeginExecute(h: HookState, command: string): (r: HookState)
    ensures r.exec.isExecuting && r.exec.error.None? && r.fieldErrors == map[]
    ensures r.currentCommand == Some(command)
    ensures command == QueryWire || command == QuerySubscribeWire ==> r.rows == []
    ensures command != QueryWire && command != QuerySubscribeWire ==> r.rows == h.rows
    ensures r.conn == h.conn
    ensures r.exec.activeSubscriptions == h.exec.activeSubscriptions
    ensures r.exec.lastExecuted == h.exec.lastExecuted
  {
    var h1 := h.(currentCommand := Some(command), fieldErrors := map[],
                 exec := h.exec.(isExecuting := true, error := None));
    if command == QueryWire || command == QuerySubscribeWire then h1.(rows := []) else h1
  }

  /** The handler's starting point for this execution: an empty buffer. */
  function StartHandler(h: HookState, command: string): (f: Frame)
    ensures f.buffer == [] && f.hook == BeginExecute(h, command)
  {
    Frame(BeginExecute(h, command), [])
  }

  /** `executeCommand` after the service call: a SUBSCRIBE is stamped when
      the call returns; a thrown error ends the execution with that error. */
  function FinishExecute(h: HookState, command: string, result: Result<string>, now: Time): (r: HookState)
    ensures result.Err? ==> !r.exec.isExecuting && r.exec.error == Some(result.message)
    ensures result.Ok? && command == SubscribeWire ==> r.exec.lastExecuted == Some(now)
    ensures result.Ok? ==> r.exec.isExecuting == h.exec.isExecuting && r.exec.error == h.exec.error
    ensures result.Ok? && command != SubscribeWire ==> r == h
    ensures r.rows == h.rows && r.fieldErrors == h.fieldErrors && r.conn == h.conn
  {
    match result
    case Ok(_) => if command == SubscribeWire then h.(exec := h.exec.(lastExecuted := Some(now))) else h
    case Err(e) => h.(exec := h.exec.(isExecuting := false, error := Some(e)))
  }

  /** `stopExecution` once the unsubscribes have settled: `failure` is the
      message of the first rejected unsubscribe, if any. */
  function Stop(h: HookState, failure: Option<string>): (r: HookState)
    ensures failure.None? ==> !r.exec.isExecuting && r.exec.activeSubscriptions == [] && r.currentCommand.None?
    ensures failure.Some? ==> r == h.(exec := h.exec.(error := failure))
    ensures r.rows == h.rows && r.fieldErrors == h.fieldErrors && r.conn == h.conn
    ensures r.exec.lastExecuted == h.exec.lastExecuted
  {
    match failure
    case None => h.(exec := h.exec.(isExecuting := false, activeSubscriptions := []), currentCommand := None)
    case Some(e) => h.(exec := h.exec.(error := Some(e)))
  }

  /** Stopping twice is the same as stopping once. */
  lemma StopIdempotent(h: HookState)
    ensures Stop(Stop(h, None), None) == Stop(h, None)
  {
  }

  /** `disconnect` after the service has disconnected: everything but the
      field errors returns to its initial value. */
  function Disconnect(h: HookState): (r: HookState)
    ensures r == Initial.(fieldErrors := h.fieldErrors)
    ensures r.fieldErrors == h.fieldErrors
  {
    HookState(ConnState(false, false, None, None), ExecState(false, [], None, None), [], h.fieldErrors, None)
  }

  /** `connect` sets a connecting state first. */
  function ConnectStart(h: HookState): (r: HookState)
    ensures r.conn.isConnecting && !r.conn.isConnected && r.conn.error.None? && r.conn.server.None?
    ensures r.(conn := h.conn) == h
  {
    h.(conn := ConnState(false, true, None, None))
  }

  /** `connect` after the service call: connected to `serverName`, or
      disconnected with the thrown message. */
  function ConnectDone(h: HookState, serverName: string, failure: Option<string>): (r: HookState)
    ensures r.conn.Coherent() && !r.conn.isConnecting
    ensures failure.None? ==> r.conn == ConnState(true, false, None, Some(serverName))
    ensures failure.Some? ==> r.conn == ConnState(false, false, failure, None)
    ensures r.(conn := h.conn) == h
  {
    match failure
    case None => h.(conn := ConnState(true, false, None, Some(serverName)))
    case Some(e) => h.(conn := ConnState(false, false, Some(e), None))
  }

  /** The one-second poll: it copies the service's connection state and
      active subscriptions.  `mounted` is the current command as captured
      when the effect was set up. */
  function Poll(h: HookState, service: ConnState, active: seq<Subscription>, mounted: Option<string>): (r: HookState)
    ensures r.conn == service && r.exec.activeSubscriptions == active
    ensures h.exec.isExecuting ==> r.exec.isExecuting
    ensures r.exec.isExecuting ==> h.exec.isExecuting || (|active| > 0 && mounted.Some? && mounted.value in {SubscribeWire, QuerySubscribeWire})
    ensures r.rows == h.rows && r.fieldErrors == h.fieldErrors && r.currentCommand == h.currentCommand
  {
    var isSubscription := mounted == Some(SubscribeWire) || mounted == Some(QuerySubscribeWire);
    var keep := h.exec.isExecuting || (|active| > 0 && isSubscription);
    h.(conn := service, exec := h.exec.(activeSubscriptions := active, isExecuting := keep))
  }

  /** The effect is set up at mount, when no command is current, so the poll
      as it runs can keep an execution going but never start or end one. */
  lemma PollNeverChangesExecuting(h: HookState, service: ConnState, active: seq<Subscription>)
    ensures Poll(h, service, active, Initial.currentCommand).exec.isExecuting == h.exec.isExecuting
  {
  }

  /** The state sync compares only the properties the service's state
      carries, and keeps the previous record when none differs. */
  function Sync(prev: ConnState, service: ConnState): (r: ConnState)
    ensures r == prev || r == service
    ensures r.isConnected == service.isConnected && r.isConnecting == service.isConnecting
    ensures service.error.Some? ==> r.error == service.error
    ensures service.server.Some? ==> r.server == service.server
    ensures r == prev <==> SameOnPresent(prev, service)
  {
    if SameOnPresent(prev, service) then prev else service
  }

  /** `prev` agrees with `s` on every property `s` has. */
  predicate SameOnPresent(prev: ConnState, s: ConnState) {
    && prev.isConnected == s.isConnected
    && prev.isConnecting == s.isConnecting
    && (s.error.Some? ==> prev.error == s.error)
    && (s.server.Some? ==> prev.server == s.server)
  }

  /** Syncing twice with the same service state is syncing once; an error
      the hook holds survives a sync with an error-free disconnected state. */
  lemma SyncIdempotent(prev: ConnState, service: ConnState)
    ensures Sync(Sync(prev, service), service) == Sync(prev, service)
    ensures prev.error.Some? && !prev.isConnected && !prev.isConnecting && service == Idle ==>
              Sync(prev, service).error == prev.error
  {
  }

  /** `clearData` */
  function ClearData(h: HookState): (r: HookState)
    ensures r.rows == [] && r.(rows := h.rows) == h
  {
    h.(rows := [])
  }

  /** `clearFieldErrors` */
  function ClearFieldErrors(h: HookState): (r: HookState)
    ensures r.fieldErrors == map[] && r.(fieldErrors := h.fieldErrors) == h
  {
    h.(fieldErrors := map[])
  }
}

=== FILE: notifications.dfy ===
/** The notification list: adding (with a fresh identifier), dismissing by
    identifier, clearing, and each toast's display duration. */
module Notifications {
  import opened Wrappers
  import opened Types

  datatype Toast = Toast(id: string, severity: Severity, title: string, message: Option<string>, duration: Option<int>)

  function Ids(ts: seq<Toast>): (ids: set<string>)
    ensures forall t :: t in ts ==> t.id in ids
    ensures forall i :: i in ids ==> exists t :: t in ts && t.id == i
  {
    set t | t in ts :: t.id
  }

  /** `addNotification`: the toast is appended with the identifier the
      caller draws (time and randomness are outside the model). */
  function Add(ts: seq<Toast>, n: Notice, id: string): (r: seq<Toast>)
    ensures r == ts + [Toast(id, n.severity, n.title, Some(n.message), None)]
  {
    ts + [Toast(id, n.severity, n.title, Some(n.message), None)]
  }

  /** `dismissNotification`: every toast with the identifier goes, the
      others stay in order. */
  function Dismiss(ts: seq<Toast>, id: string): (r: seq<Toast>)
    ensures |r| <= |ts|
  {
    if |ts| == 0 then []
    else (if ts[0].id == id then [] else [ts[0]]) + Dismiss(ts[1..], id)
  }

  /** Exactly the toasts with another identifier remain. */
  lemma {:induction false} DismissMembers(ts: seq<Toast>, id: string)
    ensures forall t :: t in Dismiss(ts, id) <==> t in ts && t.id != id
  {
    if |ts| > 0 {
      DismissMembers(ts[1..], id);
      assert ts == [ts[0]] + ts[1..];
    }
  }

  /** Dismissing from a list with a known first toast. */
  lemma DismissCons(t: Toast, ts: seq<Toast>, id: string)
    ensures Dismiss([t] + ts, id) == (if t.id == id then [] else [t]) + Dismiss(ts, id)
  {
    assert ([t] + ts)[0] == t;
    assert ([t] + ts)[1..] == ts;
  }

  lemma {:induction false} DismissAppend(a: seq<Toast>, b: seq<Toast>, id: string)
    ensures Dismiss(a + b, id) == Dismiss(a, id) + Dismiss(b, id)
  {
    if |a| > 0 {
      var h := if a[0].id == id then [] else [a[0]];
      DismissAppend(a[1..], b, id);
      assert a + b == [a[0]] + (a[1..] + b);
      assert a == [a[0]] + a[1..];
      DismissCons(a[0], a[1..] + b, id);
      DismissCons(a[0], a[1..], id);
      assert h + (Dismiss(a[1..], id) + Dismiss(b, id)) == (h + Dismiss(a[1..], id)) + Dismiss(b, id);
    } else {
      assert a + b == b;
    }
  }

  lemma {:induction false} DismissAbsent(ts: seq<Toast>, id: string)
    requires id !in Ids(ts)
    ensures Dismiss(ts, id) == ts
  {
    if |ts| > 0 {
      assert ts[0] in ts;
      assert id !in Ids(ts[1..]) by {
        forall t | t in ts[1..] ensures t.id != id {
          assert t in ts;
        }
      }
      DismissAbsent(ts[1..], id);
      assert ts == [ts[0]] + ts[1..];
    }
  }

  /** Dismissing a toast just added under a fresh identifier restores the
      list. */
  lemma AddThenDismiss(ts: seq<Toast>, n: Notice, id: string)
    requires id !in Ids(ts)
    ensures Dismiss(Add(ts, n, id), id) == ts
  {
    var t := Toast(id, n.severity, n.title, Some(n.message), None);
    DismissAppend(ts, [t], id);
    DismissAbsent(ts, id);
    assert Dismiss([t], id) == [] + Dismiss([], id);
  }

  /** `clearAllNotifications` */
  function ClearAll(ts: seq<Toast>): (r: seq<Toast>)
    ensures r == []
  {
    []
  }

  /** `notification.duration || 5000`: an absent or zero duration means five
      seconds. */
  function Duration(t: Toast): (ms: int)
    ensures t.duration.Some? && t.duration.value != 0 ==> ms == t.duration.value
    ensures t.duration.None? || t.duration.value == 0 ==> ms == 5000
  {
    if t.duration.Some? && t.duration.value != 0 then t.duration.value else 5000
  }

  /** A toast raised through `addNotification` always shows for five
      seconds. */
  lemma AddedToastsLastFiveSeconds(ts: seq<Toast>, n: Notice, id: string)
    ensures Duration(Add(ts, n, id)[|ts|]) == 5000
  {
  }
}

=== FILE: querybar.dfy ===
/** The query bar: when Execute is available, the advanced-options lock,
    editing the four option fields (which clears the broker's field errors
    when the edited field had one), and the quick filters. */
module QueryBar {
  import opened Wrappers
  import opened Types
  import Config
  import Reconciler
  import App
  import CommandPanel

  /** `isExecuteDisabled` */
  predicate IsExecuteDisabled(conn: ConnState, topic: string, command: string) {
    !conn.isConnected || topic == "" || command == ""
  }

  /** `isAdvancedLocked` */
  predicate IsAdvancedLocked(exec: ExecState) {
    exec.isExecuting
  }

  const AdvancedLockedNotice := Notice(Warning, "Advanced Options Locked",
    "Advanced query options are locked during active subscriptions. Click Stop to modify options.")

  /** `handleAdvancedFieldClick` */
  function AdvancedClicked(exec: ExecState): (r: Option<Notice>)
    ensures r.Some? <==> IsAdvancedLocked(exec)
    ensures r.Some? ==> r.value == AdvancedLockedNotice
  {
    if IsAdvancedLocked(exec) then Some(AdvancedLockedNotice) else None
  }

  /** The option fields are editable only while connected and idle. */
  predicate FieldsEnabled(conn: ConnState, exec: ExecState) {
    conn.isConnected && !exec.isExecuting
  }

  /** The option fields accept input exactly when connected and a click on
      them raises no lock notice. */
  lemma FieldsEnabledUnlocked(conn: ConnState, exec: ExecState)
    ensures FieldsEnabled(conn, exec) <==> conn.isConnected && AdvancedClicked(exec).None?
  {
  }

  /** The query options with one field set to `text`. */
  function WithField(o: Config.QueryOptions, f: Reconciler.Field, text: string): (r: Config.QueryOptions)
    ensures f == Reconciler.Filter ==> r == o.(filter := Some(text))
    ensures f == Reconciler.OrderBy ==> r == o.(orderBy := Some(text))
    ensures f == Reconciler.Bookmark ==> r == o.(bookmark := Some(text))
    ensures f == Reconciler.Options ==> r == o.(options := Some(text))
  {
    match f
    case Filter => o.(filter := Some(text))
    case OrderBy => o.(orderBy := Some(text))
    case Bookmark => o.(bookmark := Some(text))
    case Options => o.(options := Some(text))
  }

  /** The value a field shows: `queryOptions.x || ''`. */
  function FieldText(o: Config.QueryOptions, f: Reconciler.Field): string {
    match f
    case Filter => o.filter.GetOr("")
    case OrderBy => o.orderBy.GetOr("")
    case Bookmark => o.bookmark.GetOr("")
    case Options => o.options.GetOr("")
  }

  /** A field is marked in error when it has a non-empty message. */
  predicate HasError(errors: map<Reconciler.Field, string>, f: Reconciler.Field) {
    f in errors && errors[f] != ""
  }

  /** Typing into a field: the new options, and the field errors after the
      edit, all of them cleared when the edited field had one. */
  function Edited(o: Config.QueryOptions, errors: map<Reconciler.Field, string>, f: Reconciler.Field, text: string)
    : (r: (Config.QueryOptions, map<Reconciler.Field, string>))
    ensures FieldText(r.0, f) == text
    ensures forall g :: g != f ==> FieldText(r.0, g) == FieldText(o, g)
    ensures HasError(errors, f) ==> r.1 == map[]
    ensures !HasError(errors, f) ==> r.1 == errors
  {
    (WithField(o, f, text), if HasError(errors, f) then map[] else errors)
  }

  /** An edit never leaves the edited field marked in error, but clears the
      other fields' errors only when the edited one had its own. */
  lemma EditClearsOwnError(o: Config.QueryOptions, errors: map<Reconciler.Field, string>, f: Reconciler.Field, g: Reconciler.Field, text: string)
    requires g != f && HasError(errors, g)
    ensures !HasError(Edited(o, errors, f, text).1, f)
    ensures HasError(Edited(o, errors, f, text).1, g) <==> !HasError(errors, f)
  {
  }

  /** `QUICK_FILTERS.SAVED_QUERIES` and `QUICK_FILTERS.ADVANCED_EXAMPLES` */
  const SavedQueries: seq<string> := ["/symbol = 'GSK'", "/symbol IN ('GSK', 'GOOGL')",
                                     "/bid > 200 AND /bid < 300", "/ask IS NOT NULL"]
  const AdvancedExamples: seq<string> := ["/extra/hello BEGINS WITH('wo')", "INSTR_I(/symbol, 'gsk') != 0",
                                         "LENGTH(/symbol) = 3", "/symbol = 'AAPL'", "/price > 100 AND /volume > 1000000"]

  /** The quick-filter buttons: clear, the first three saved queries, and
      the first advanced example. */
  const QuickFilters: seq<string> := ["", SavedQueries[0], SavedQueries[1], SavedQueries[2], AdvancedExamples[0]]

  /** A quick-filter button: sets the filter text and touches nothing else
      (it does not clear field errors). */
  function QuickFilter(o: Config.QueryOptions, button: nat): (r: Config.QueryOptions)
    requires button < |QuickFilters|
    ensures r.filter == Some(QuickFilters[button])
    ensures r.(filter := o.filter) == o
  {
    o.(filter := Some(QuickFilters[button]))
  }

  /** Whenever the main button offers Execute, the top-level handler has a
      command and a topic to run; and while an execution runs the button
      offers Stop even after the connection has gone. */
  lemma ExecuteButtonRuns(conn: ConnState, exec: ExecState, sel: App.Selection, topics: seq<Config.Topic>)
    ensures (CommandPanel.Main(exec, IsExecuteDisabled(conn, sel.topic, sel.command)) == CommandPanel.ExecuteButton) ==>
              App.ExecutionOf(sel, topics).Some? && conn.isConnected
    ensures exec.isExecuting ==>
              CommandPanel.Main(exec, IsExecuteDisabled(conn, sel.topic, sel.command)) == CommandPanel.StopButton
  {
  }
}

=== FILE: reconciler.dfy ===
/** The message handler that `executeCommand` in the AMPS hook builds for
    each execution: it folds the broker's tagged messages into the visible
    rows, a SOW accumulation buffer, the execution state and the per-field
    error map.  Each queued React state update is applied in order, so one
    handler call is one pure step. */
module Reconciler {
  import opened Wrappers
  import opened Types
  import Config
  import Text
  import Sorting

  /** `recordsMatch`: rows are the same record exactly when both define a
      `key` and the two keys are strictly equal. */
  predicate RecordsMatch(a: Row, b: Row) {
    KeyField in a && KeyField in b && a[KeyField] == b[KeyField]
  }

  /** A row without a `key` matches nothing, itself included. */
  lemma KeylessNeverMatches(a: Row, b: Row)
    requires KeyField !in a
    ensures !RecordsMatch(a, b) && !RecordsMatch(b, a) && !RecordsMatch(a, a)
  {
  }

  // ---------------------------------------------------------------------
  // Error classification (`parseAMPSError`)

  /** The query fields an error can be attributed to. */
  datatype Field = Filter | OrderBy | Bookmark | Options

  /** The result of classification: a field, or `'general'`. */
  datatype Category = FieldCat(field: Field) | General

  datatype Group = Group(category: Category, patterns: seq<string>)

  const FilterPatterns: seq<string> :=
    ["bad filter", "invalid filter", "filter syntax", "parse error", "syntax error"]
  const OrderByPatterns: seq<string> := ["order", "orderby", "sort"]
  const BookmarkPatterns: seq<string> := ["bookmark", "invalid bookmark"]
  const OptionsPatterns: seq<string> := ["option", "top_n", "conflation", "invalid option"]
  const GeneralPatterns: seq<string> := ["topic", "not found", "connection"]

  /** The pattern table, in the order its entries are scanned. */
  const ErrorGroups: seq<Group> := [
    Group(FieldCat(Filter), FilterPatterns),
    Group(FieldCat(OrderBy), OrderByPatterns),
    Group(FieldCat(Bookmark), BookmarkPatterns),
    Group(FieldCat(Options), OptionsPatterns),
    Group(General, GeneralPatterns)
  ]

  /** Some pattern of `patterns` occurs in `text`. */
  ghost predicate Mentions(text: string, patterns: seq<string>) {
    exists j :: 0 <= j < |patterns| && Text.Contains(text, patterns[j])
  }

  /** `patterns.some(p => text.includes(p))` */
  function SomeIncluded(text: string, patterns: seq<string>): (b: bool)
    ensures b <==> Mentions(text, patterns)
  {
    if |patterns| == 0 then false
    else
      var rest := SomeIncluded(text, patterns[1..]);
      assert forall j :: 1 <= j < |patterns| ==> patterns[j] == patterns[1..][j - 1];
      assert rest ==> Mentions(text, patterns) by {
        if rest {
          var j :| 0 <= j < |patterns[1..]| && Text.Contains(text, patterns[1..][j]);
          assert Text.Contains(text, patterns[j + 1]);
        }
      }
      Text.Contains(text, patterns[0]) || rest
  }

  /** The category of the first group with an included pattern. */
  function FirstGroup(text: string, groups: seq<Group>): Option<Category> {
    if |groups| == 0 then None
    else if SomeIncluded(text, groups[0].patterns) then Some(groups[0].category)
    else FirstGroup(text, groups[1..])
  }

  /** `parseAMPSError`'s verdict: the lower-cased text is matched against the
      groups filter, orderBy, bookmark, options and general in that order,
      the first hit wins, and an unmatched text counts as a filter error. */
  function Classify(message: string): (c: Category)
    ensures var t := Text.Lower(message);
      c == (if Mentions(t, FilterPatterns) then FieldCat(Filter)
            else if Mentions(t, OrderByPatterns) then FieldCat(OrderBy)
            else if Mentions(t, BookmarkPatterns) then FieldCat(Bookmark)
            else if Mentions(t, OptionsPatterns) then FieldCat(Options)
            else if Mentions(t, GeneralPatterns) then General
            else FieldCat(Filter))
  {
    var t := Text.Lower(message);
    ScanTable(t);
    FirstGroup(t, ErrorGroups).GetOr(FieldCat(Filter))
  }

  /** Scanning the table tries its five groups in order. */
  lemma ScanTable(t: string)
    ensures FirstGroup(t, ErrorGroups)
         == if SomeIncluded(t, FilterPatterns) then Some(FieldCat(Filter))
            else if SomeIncluded(t, OrderByPatterns) then Some(FieldCat(OrderBy))
            else if SomeIncluded(t, BookmarkPatterns) then Some(FieldCat(Bookmark))
            else if SomeIncluded(t, OptionsPatterns) then Some(FieldCat(Options))
            else if SomeIncluded(t, GeneralPatterns) then Some(General)
            else None
  {
    var g := ErrorGroups;
    assert g[1..][0] == Group(FieldCat(OrderBy), OrderByPatterns);
    assert g[2..][0] == Group(FieldCat(Bookmark), BookmarkPatterns);
    assert g[3..][0] == Group(FieldCat(Options), OptionsPatterns);
    assert g[4..][0] == Group(General, GeneralPatterns);
    assert g[1..][1..] == g[2..];
    assert g[2..][1..] == g[3..];
    assert g[3..][1..] == g[4..];
    assert |g[4..][1..]| == 0;
    assert FirstGroup(t, g[4..]) == if SomeIncluded(t, GeneralPatterns) then Some(General) else None;
    assert FirstGroup(t, g[3..]) == if SomeIncluded(t, OptionsPatterns) then Some(FieldCat(Options)) else FirstGroup(t, g[4..]);
    assert FirstGroup(t, g[2..]) == if SomeIncluded(t, BookmarkPatterns) then Some(FieldCat(Bookmark)) else FirstGroup(t, g[3..]);
    assert FirstGroup(t, g[1..]) == if SomeIncluded(t, OrderByPatterns) then Some(FieldCat(OrderBy)) else FirstGroup(t, g[2..]);
  }

  // ---------------------------------------------------------------------
  // Row-set updates

  /** `rows.findIndex(item => recordsMatch(item, d))` */
  function FindMatch(rows: seq<Row>, d: Row): (i: int)
    ensures -1 <= i < |rows|
    ensures i == -1 <==> forall k :: 0 <= k < |rows| ==> !RecordsMatch(rows[k], d)
    ensures i >= 0 ==> RecordsMatch(rows[i], d) && forall k :: 0 <= k < i ==> !RecordsMatch(rows[k], d)
  {
    if |rows| == 0 then -1
    else if RecordsMatch(rows[0], d) then 0
    else
      var k := FindMatch(rows[1..], d);
      assert forall j :: 1 <= j < |rows| ==> rows[j] == rows[1..][j - 1];
      if k == -1 then -1 else k + 1
  }

  /** `rows.filter(item => !recordsMatch(item, d))`: the rows that do not
      match `d`, in their original order. */
  function Without(rows: seq<Row>, d: Row): (r: seq<Row>)
    ensures |r| <= |rows|
    ensures forall i :: 0 <= i < |r| ==> r[i] in rows && !RecordsMatch(r[i], d)
    ensures forall i :: 0 <= i < |rows| && !RecordsMatch(rows[i], d) ==> rows[i] in r
    ensures (forall i :: 0 <= i < |rows| ==> !RecordsMatch(rows[i], d)) ==> r == rows
  {
    if |rows| == 0 then []
    else
      var rest := Without(rows[1..], d);
      assert forall j :: 1 <= j < |rows| ==> rows[j] == rows[1..][j - 1];
      if RecordsMatch(rows[0], d) then rest else [rows[0]] + rest
  }

  /** The filter keeps the survivors in their order and each as often as it
      occurs: it distributes over concatenation, and a single row stays
      exactly when it does not match. */
  lemma {:induction false} WithoutAppend(a: seq<Row>, b: seq<Row>, d: Row)
    ensures Without(a + b, d) == Without(a, d) + Without(b, d)
    ensures |a| == 1 ==> Without(a, d) == (if RecordsMatch(a[0], d) then [] else a)
    decreases |a|
  {
    if |a| == 0 {
      assert a + b == b;
    } else {
      WithoutAppend(a[1..], b, d);
      WithoutAppendStep(a[0], a[1..], b, d);
      assert a == [a[0]] + a[1..];
      if |a| == 1 {
        WithoutCons(a[0], [], d);
        assert a == [a[0]] + [];
      }
    }
  }

  lemma WithoutAppendStep(x: Row, rest: seq<Row>, b: seq<Row>, d: Row)
    requires Without(rest + b, d) == Without(rest, d) + Without(b, d)
    ensures Without([x] + rest + b, d) == Without([x] + rest, d) + Without(b, d)
  {
    var head: seq<Row> := if RecordsMatch(x, d) then [] else [x];
    Sorting.Associative([x], rest, b);
    WithoutCons(x, rest + b, d);
    WithoutCons(x, rest, d);
    Sorting.Associative(head, Without(rest, d), Without(b, d));
  }

  /** One step of the filter. */
  lemma WithoutCons(x: Row, rest: seq<Row>, d: Row)
    ensures Without([x] + rest, d) == (if RecordsMatch(x, d) then [] else [x]) + Without(rest, d)
  {
    assert ([x] + rest)[1..] == rest;
  }

  /** Row `i` is the first row of `rows` that matches `d`. */
  predicate FirstMatchAt(rows: seq<Row>, d: Row, i: int) {
    0 <= i < |rows| && RecordsMatch(rows[i], d) && forall k :: 0 <= k < i ==> !RecordsMatch(rows[k], d)
  }

  /** The publish update: shallow-merge `d` into the first matching row, in
      place, or append it when nothing matches. */
  function Upsert(rows: seq<Row>, d: Row): (r: seq<Row>)
    ensures (forall k :: 0 <= k < |rows| ==> !RecordsMatch(rows[k], d)) ==> r == rows + [d]
    ensures forall i :: FirstMatchAt(rows, d, i) ==>
      && |r| == |rows|
      && r[i].Keys == rows[i].Keys + d.Keys
      && (forall f :: f in d ==> r[i][f] == d[f])
      && (forall f :: f in rows[i] && f !in d ==> r[i][f] == rows[i][f])
      && (forall k :: 0 <= k < |rows| && k != i ==> r[k] == rows[k])
  {
    var i := FindMatch(rows, d);
    if i >= 0 then rows[i := rows[i] + d] else rows + [d]
  }

  // ---------------------------------------------------------------------
  // The handler

  /** The hook's state: connection state, execution state, visible rows,
      per-field errors, and the command of the current execution. */
  datatype HookState = HookState(
    conn: ConnState,
    exec: ExecState,
    rows: seq<Row>,
    fieldErrors: map<Field, string>,
    currentCommand: Option<string>)

  /** What one handler call sees and changes: the hook's state and the
      handler's own SOW buffer. */
  datatype Frame = Frame(hook: HookState, buffer: seq<Row>)

  const QueryWire := Config.Command.Query.Wire()

  /** `data.error || 'Unknown error occurred'`, or `None` when lower-casing
      the result would throw because it is not a string. */
  function ErrorText(d: Row): (t: Option<string>)
    ensures ErrorField !in d ==> t == Some("Unknown error occurred")
    ensures ErrorField in d && d[ErrorField].Str? && |d[ErrorField].s| > 0 ==> t == Some(d[ErrorField].s)
    ensures t.None? <==> ErrorField in d && Truthy(d[ErrorField]) && !d[ErrorField].Str?
  {
    if ErrorField !in d || !Truthy(d[ErrorField]) then Some("Unknown error occurred")
    else match d[ErrorField]
      case Str(s) => Some(s)
      case _ => None
  }

  /** The effect of an `error` message whose text is `msg`. */
  function ApplyError(h: HookState, msg: string, c: Category): HookState {
    h.(exec := h.exec.(isExecuting := false, error := if c == General then Some(msg) else None),
       fieldErrors := if c == General then map[] else map[c.field := msg])
  }

  /** The branches of the handler's `switch`: `publish`, `p` and every
      unrecognised tag share the update branch. */
  datatype Kind = GroupBegin | SowRecord | GroupEnd | OutOfFocus | BrokerError | Update

  function KindOf(tag: string): (k: Kind)
    ensures k == Update <==> tag !in {"group_begin", "sow", "group_end", "oof", "error"}
  {
    if tag == "group_begin" then GroupBegin
    else if tag == "sow" then SowRecord
    else if tag == "group_end" then GroupEnd
    else if tag == "oof" then OutOfFocus
    else if tag == "error" then BrokerError
    else Update
  }

  /** One call of the handler of an execution of `command`.  A message the
      handler would throw on (an `error` without data, or with a non-string
      truthy `error`) leaves everything as it was. */
  function Handle(command: string, f: Frame, m: Message, now: Time): (r: Frame)
    ensures r.hook.conn == f.hook.conn
    ensures r.hook.currentCommand == f.hook.currentCommand
    ensures r.hook.exec.activeSubscriptions == f.hook.exec.activeSubscriptions
    ensures KindOf(m.command) != BrokerError ==> r.hook.fieldErrors == f.hook.fieldErrors
    ensures KindOf(m.command) !in {BrokerError, GroupEnd} ==> r.hook.exec == f.hook.exec
    ensures KindOf(m.command) !in {GroupBegin, SowRecord} ==> r.buffer == f.buffer
    ensures KindOf(m.command) in {GroupBegin, SowRecord, BrokerError} ==> r.hook.rows == f.hook.rows
  {
    var h := f.hook;
    match KindOf(m.command)
    case GroupBegin => f.(buffer := [])
    case SowRecord =>
      if m.data.Some? then f.(buffer := f.buffer + [m.data.value]) else f
    case GroupEnd =>
      var h1 := h.(rows := f.buffer);
      if command == QueryWire then
        f.(hook := h1.(exec := h1.exec.(isExecuting := false, lastExecuted := Some(now))))
      else f.(hook := h1)
    case OutOfFocus =>
      if m.data.Some? && KeyField in m.data.value && Truthy(m.data.value[KeyField]) then
        f.(hook := h.(rows := Without(h.rows, m.data.value)))
      else f
    case BrokerError =>
      if m.data.None? then f
      else (match ErrorText(m.data.value)
        case None => f
        case Some(msg) => f.(hook := ApplyError(h, msg, Classify(msg))))
    case Update =>
      if m.data.Some? then f.(hook := h.(rows := Upsert(h.rows, m.data.value))) else f
  }

  /** The handler applied to each message of `ms` in turn. */
  function Run(command: string, f: Frame, ms: seq<Message>, now: Time): Frame
    decreases |ms|
  {
    if |ms| == 0 then f else Run(command, Handle(command, f, ms[0], now), ms[1..], now)
  }

  lemma {:induction false} RunAppend(command: string, f: Frame, a: seq<Message>, b: seq<Message>, now: Time)
    ensures Run(command, f, a + b, now) == Run(command, Run(command, f, a, now), b, now)
    decreases |a|
  {
    if |a| > 0 {
      assert (a + b)[1..] == a[1..] + b;
      RunAppend(command, Handle(command, f, a[0], now), a[1..], b, now);
    } else {
      assert a + b == b;
    }
  }

  // ---------------------------------------------------------------------
  // Properties of the handler

  function Sows(rs: seq<Row>): seq<Message> {
    if |rs| == 0 then [] else [Message("sow", Some(rs[0]))] + Sows(rs[1..])
  }

  /** A run of `sow` messages only accumulates their records in the buffer;
      visible rows and execution state stay as they were. */
  lemma {:induction false} SowsAccumulate(command: string, f: Frame, rs: seq<Row>, now: Time)
    ensures Run(command, f, Sows(rs), now) == f.(buffer := f.buffer + rs)
    decreases |rs|
  {
    if |rs| > 0 {
      var g := Handle(command, f, Message("sow", Some(rs[0])), now);
      assert g == f.(buffer := f.buffer + [rs[0]]);
      SowsAccumulate(command, g, rs[1..], now);
      assert f.buffer + [rs[0]] + rs[1..] == f.buffer + rs;
    } else {
      assert f.buffer + rs == f.buffer;
    }
  }

  /** Group atomicity: `group_begin`, k `sow` records and `group_end` make the
      visible rows exactly those k records (none when k = 0), whatever was
      shown or buffered before; only a QUERY execution is then finished and
      stamped, any other command keeps its execution state. */
  lemma GroupReplacesRows(command: string, f: Frame, rs: seq<Row>, now: Time)
    ensures var r := Run(command, f, [Message("group_begin", None)] + Sows(rs) + [Message("group_end", None)], now);
      && r.hook.rows == rs
      && r.buffer == rs
      && (command == QueryWire ==> !r.hook.exec.isExecuting && r.hook.exec.lastExecuted == Some(now))
      && (command != QueryWire ==> r.hook.exec == f.hook.exec)
      && r.hook.fieldErrors == f.hook.fieldErrors
  {
    var gb := [Message("group_begin", None)];
    var ge := [Message("group_end", None)];
    var f1 := Handle(command, f, gb[0], now);
    RunAppend(command, f, gb + Sows(rs), ge, now);
    RunAppend(command, f, gb, Sows(rs), now);
    assert Run(command, f, gb, now) == f1 by {
      assert gb[1..] == [];
    }
    SowsAccumulate(command, f1, rs, now);
    var f2 := f1.(buffer := rs);
    assert Run(command, f2, ge, now) == Handle(command, f2, ge[0], now) by {
      assert ge[1..] == [];
    }
  }

  /** While a group is still open the visible rows do not change. */
  lemma GroupHidesPartialRows(command: string, f: Frame, rs: seq<Row>, now: Time)
    ensures var r := Run(command, f, [Message("group_begin", None)] + Sows(rs), now);
      r.hook == f.hook && r.buffer == rs
  {
    var gb := [Message("group_begin", None)];
    RunAppend(command, f, gb, Sows(rs), now);
    assert Run(command, f, gb, now) == f.(buffer := []) by {
      assert gb[1..] == [];
    }
    SowsAccumulate(command, f.(buffer := []), rs, now);
  }

  /** Out-of-focus removal: an `oof` with a truthy key removes every row that
      matches it, keeps every other row, and changes nothing when no row
      matches; an `oof` without a truthy key changes nothing. */
  lemma OofRemovesMatching(command: string, f: Frame, d: Row, now: Time)
    ensures var r := Handle(command, f, Message("oof", Some(d)), now);
      && (KeyField in d && Truthy(d[KeyField]) ==>
            && (forall i :: 0 <= i < |r.hook.rows| ==> !RecordsMatch(r.hook.rows[i], d))
            && (forall i :: 0 <= i < |f.hook.rows| && !RecordsMatch(f.hook.rows[i], d) ==> f.hook.rows[i] in r.hook.rows)
            && (forall i :: 0 <= i < |r.hook.rows| ==> r.hook.rows[i] in f.hook.rows))
      && ((forall i :: 0 <= i < |f.hook.rows| ==> !RecordsMatch(f.hook.rows[i], d)) ==> r == f)
      && (!(KeyField in d && Truthy(d[KeyField])) ==> r == f)
  {
  }

  /** Publishing records that carry no `key` appends each of them, so n
      such messages grow the row set by exactly n. */
  lemma {:induction false} KeylessPublishesAppend(command: string, f: Frame, ds: seq<Row>, now: Time)
    requires forall i :: 0 <= i < |ds| ==> KeyField !in ds[i]
    ensures Run(command, f, Publishes(ds), now).hook.rows == f.hook.rows + ds
    ensures |Run(command, f, Publishes(ds), now).hook.rows| == |f.hook.rows| + |ds|
    decreases |ds|
  {
    if |ds| > 0 {
      var g := Handle(command, f, Message("p", Some(ds[0])), now);
      assert g.hook.rows == f.hook.rows + [ds[0]];
      KeylessPublishesAppend(command, g, ds[1..], now);
      assert f.hook.rows + [ds[0]] + ds[1..] == f.hook.rows + ds;
    } else {
      assert f.hook.rows + ds == f.hook.rows;
    }
  }

  function Publishes(ds: seq<Row>): seq<Message> {
    if |ds| == 0 then [] else [Message("p", Some(ds[0]))] + Publishes(ds[1..])
  }

  /** The tags the source names, and the branch each one takes. */
  lemma KindOfTags()
    ensures KindOf("group_begin") == GroupBegin && KindOf("sow") == SowRecord
    ensures KindOf("group_end") == GroupEnd && KindOf("oof") == OutOfFocus
    ensures KindOf("error") == BrokerError
    ensures KindOf("publish") == Update && KindOf("p") == Update
  {
  }

  /** An `error` message always ends the execution.  The execution error is
      set exactly when the text is classified `general`; otherwise the field
      errors hold exactly one entry, the classified field with the text. */
  lemma ErrorEndsExecution(command: string, f: Frame, d: Row, msg: string, now: Time)
    requires ErrorText(d) == Some(msg)
    ensures var r := Handle(command, f, Message("error", Some(d)), now);
      var c := Classify(msg);
      && !r.hook.exec.isExecuting
      && (r.hook.exec.error == Some(msg) <==> c == General)
      && (r.hook.exec.error.Some? ==> r.hook.exec.error == Some(msg))
      && (c == General ==> r.hook.fieldErrors == map[])
      && (c != General ==> r.hook.fieldErrors.Keys == {c.field} && r.hook.fieldErrors[c.field] == msg)
      && r.hook.rows == f.hook.rows
      && r.hook.exec.lastExecuted == f.hook.exec.lastExecuted
      && r.buffer == f.buffer
  {
    var c := Classify(msg);
    HandleErrorApplies(command, f, d, msg, now);
    ApplyErrorEffect(f.hook, msg, c);
  }

  lemma HandleErrorApplies(command: string, f: Frame, d: Row, msg: string, now: Time)
    requires ErrorText(d) == Some(msg)
    ensures Handle(command, f, Message("error", Some(d)), now) == f.(hook := ApplyError(f.hook, msg, Classify(msg)))
  {
    KindOfTags();
  }

  lemma ApplyErrorEffect(h: HookState, msg: string, c: Category)
    ensures var r := ApplyError(h, msg, c);
      && !r.exec.isExecuting
      && (r.exec.error == Some(msg) <==> c == General)
      && (r.exec.error.Some? ==> r.exec.error == Some(msg))
      && (c == General ==> r.fieldErrors == map[])
      && (c != General ==> r.fieldErrors.Keys == {c.field} && r.fieldErrors[c.field] == msg)
      && r.rows == h.rows && r.exec.lastExecuted == h.exec.lastExecuted
  {
  }

  /** For any command but QUERY, a message stream without `error` messages
      leaves the execution state exactly as it was: a subscription keeps
      executing until it is stopped or fails. */
  lemma {:induction false} LiveExecutionPersists(command: string, f: Frame, ms: seq<Message>, now: Time)
    requires command != QueryWire
    requires forall i :: 0 <= i < |ms| ==> ms[i].command != "error"
    ensures Run(command, f, ms, now).hook.exec == f.hook.exec
    ensures Run(command, f, ms, now).hook.fieldErrors == f.hook.fieldErrors
    decreases |ms|
  {
    if |ms| > 0 {
      var g := Handle(command, f, ms[0], now);
      assert g.hook.exec == f.hook.exec;
      LiveExecutionPersists(command, g, ms[1..], now);
    }
  }

}

=== FILE: service.dfy ===
/** The connection manager: one broker connection with its state record,
    the subscription registry, the command and option rules applied before
    a command goes to the broker, and the reconnect counter.  The broker
    client library is an oracle: each call into it is a parameter saying
    whether it succeeds. */
module Service {
  import opened Wrappers
  import opened Types
  import Config
  import Sorting

  /** What a call into the client library does. */
  datatype ClientOutcome = Succeeds | Fails(message: string)

  /** What `client.execute` does: resolve with the broker's subscription id,
      or reject with the error's string form. */
  datatype ExecuteOutcome = Resolves(subId: string) | Rejects(reason: string)

  /** The service's private fields.  `subs` is the subscription map with its
      entries in insertion order; `handlers` holds the ids that have a
      registered message handler. */
  datatype ServiceState = ServiceState(
    hasClient: bool,
    conn: ConnState,
    currentServer: Option<Config.Server>,
    currentFormat: Option<string>,
    subs: seq<Subscription>,
    handlers: set<string>,
    reconnectAttempts: nat,
    timerPending: bool)

  const Initial := ServiceState(false, Idle, None, None, [], {}, 0, false)

  predicate DistinctIds(subs: seq<Subscription>) {
    forall i, j :: 0 <= i < j < |subs| ==> subs[i].id != subs[j].id
  }

  /** The invariant every operation keeps: never connected and connecting at
      once, one map entry per id, and at most `MAX_RECONNECT_ATTEMPTS`
      reconnect attempts counted. */
  predicate Valid(s: ServiceState) {
    && s.conn.Coherent()
    && DistinctIds(s.subs)
    && s.reconnectAttempts <= Config.MaxReconnectAttempts
  }

  // ---------------------------------------------------------------------
  // The subscription map

  /** Position of the entry for `id`, or -1. */
  function IndexOfId(subs: seq<Subscription>, id: string): (i: int)
    ensures -1 <= i < |subs|
    ensures i == -1 <==> forall k :: 0 <= k < |subs| ==> subs[k].id != id
    ensures i >= 0 ==> subs[i].id == id
  {
    if |subs| == 0 then -1
    else if subs[0].id == id then 0
    else
      var k := IndexOfId(subs[1..], id);
      assert forall j :: 1 <= j < |subs| ==> subs[j] == subs[1..][j - 1];
      if k == -1 then -1 else k + 1
  }

  /** `map.get(id)` */
  function Lookup(subs: seq<Subscription>, id: string): (r: Option<Subscription>)
    ensures r.Some? <==> exists k :: 0 <= k < |subs| && subs[k].id == id
    ensures r.Some? ==> r.value in subs && r.value.id == id
  {
    var i := IndexOfId(subs, id);
    if i >= 0 then Some(subs[i]) else None
  }

  /** `map.set(sub.id, sub)`: replaces the entry in place, or appends one. */
  function Put(subs: seq<Subscription>, sub: Subscription): (r: seq<Subscription>)
    requires DistinctIds(subs)
    ensures DistinctIds(r)
    ensures sub in r
    ensures forall k :: 0 <= k < |r| && r[k].id == sub.id ==> r[k] == sub
    ensures forall x :: x in subs && x.id != sub.id ==> x in r
    ensures forall x :: x in r && x.id != sub.id ==> x in subs
  {
    var i := IndexOfId(subs, sub.id);
    if i >= 0 then (PutInPlace(subs, i, sub); subs[i := sub]) else subs + [sub]
  }

  lemma PutInPlace(subs: seq<Subscription>, i: int, sub: Subscription)
    requires 0 <= i < |subs| && subs[i].id == sub.id
    ensures sub in subs[i := sub]
    ensures forall x :: x in subs && x.id != sub.id ==> x in subs[i := sub]
  {
    var r := subs[i := sub];
    assert r[i] == sub;
    forall x | x in subs && x.id != sub.id
      ensures x in r
    {
      var k :| 0 <= k < |subs| && subs[k] == x;
      assert r[k] == x;
    }
  }

  /** `map.delete(id)` */
  function Remove(subs: seq<Subscription>, id: string): (r: seq<Subscription>)
    requires DistinctIds(subs)
    ensures DistinctIds(r)
    ensures forall k :: 0 <= k < |r| ==> r[k].id != id
    ensures forall x :: x in r <==> x in subs && x.id != id
  {
    if |subs| == 0 then []
    else
      var rest := Remove(subs[1..], id);
      assert forall j :: 1 <= j < |subs| ==> subs[j] == subs[1..][j - 1];
      if subs[0].id == id then rest
      else
        assert forall k :: 0 <= k < |rest| ==> rest[k] in subs[1..];
        [subs[0]] + rest
  }

  /** `getActiveSubscriptions`: the active entries, in map order. */
  function ActiveSubscriptions(subs: seq<Subscription>): (r: seq<Subscription>)
    ensures forall x :: x in r <==> x in subs && x.isActive
    ensures |r| <= |subs|
  {
    if |subs| == 0 then []
    else
      var rest := ActiveSubscriptions(subs[1..]);
      assert forall x :: x in subs <==> x == subs[0] || x in subs[1..];
      if subs[0].isActive then [subs[0]] + rest else rest
  }

  /** The active list keeps map order: it distributes over concatenation,
      and one entry is listed exactly when it is active. */
  lemma {:induction false} ActiveAppend(a: seq<Subscription>, b: seq<Subscription>)
    ensures ActiveSubscriptions(a + b) == ActiveSubscriptions(a) + ActiveSubscriptions(b)
    ensures |a| == 1 ==> ActiveSubscriptions(a) == (if a[0].isActive then a else [])
    decreases |a|
  {
    if |a| == 0 {
      assert a + b == b;
    } else {
      ActiveAppend(a[1..], b);
      ActiveAppendStep(a[0], a[1..], b);
      assert a == [a[0]] + a[1..];
      if |a| == 1 {
        ActiveCons(a[0], []);
        assert a == [a[0]] + [];
      }
    }
  }

  lemma ActiveAppendStep(x: Subscription, rest: seq<Subscription>, b: seq<Subscription>)
    requires ActiveSubscriptions(rest + b) == ActiveSubscriptions(rest) + ActiveSubscriptions(b)
    ensures ActiveSubscriptions([x] + rest + b) == ActiveSubscriptions([x] + rest) + ActiveSubscriptions(b)
  {
    var head: seq<Subscription> := if x.isActive then [x] else [];
    Sorting.Associative([x], rest, b);
    ActiveCons(x, rest + b);
    ActiveCons(x, rest);
    Sorting.Associative(head, ActiveSubscriptions(rest), ActiveSubscriptions(b));
  }

  /** One step of the active list. */
  lemma ActiveCons(x: Subscription, rest: seq<Subscription>)
    ensures ActiveSubscriptions([x] + rest) == (if x.isActive then [x] else []) + ActiveSubscriptions(rest)
  {
    assert ([x] + rest)[1..] == rest;
  }

  // ---------------------------------------------------------------------
  // Connection

  /** A state change that may also throw (`thrown` is the error's message),
      and the endpoint handed to the client's `connect`, if any. */
  datatype Outcome = Outcome(state: ServiceState, thrown: Option<string>, dialed: Option<string>)

  /** `disconnect`: stops the reconnect timer, empties the registry, closes
      the client (a failure there is swallowed and keeps the client), and
      records a clean disconnected state. */
  function Disconnect(s: ServiceState, teardown: ClientOutcome): (r: ServiceState)
    ensures r.conn == Idle
    ensures r.subs == [] && r.handlers == {}
    ensures r.currentServer.None? && r.currentFormat.None? && !r.timerPending
    ensures r.hasClient <==> s.hasClient && teardown.Fails?
    ensures r.reconnectAttempts == s.reconnectAttempts
  {
    var closed := if s.hasClient && teardown.Succeeds? then false else s.hasClient;
    s.(timerPending := false, subs := [], handlers := {}, hasClient := closed,
       conn := Idle, currentServer := None, currentFormat := None)
  }

  /** Already on `server` (by name) with `format`. */
  predicate AlreadyOn(s: ServiceState, server: Config.Server, format: string) {
    s.conn.isConnected && s.currentServer.Some? && s.currentServer.value.name == server.name
    && s.currentFormat == Some(format)
  }

  /** `connectWithMessageFormat`.  `teardown` is the outcome of closing the
      old client when a live connection is switched, `attempt` the outcome
      of connecting the new one. */
  function ConnectWithFormat(s: ServiceState, server: Config.Server, format: string,
                             teardown: ClientOutcome, attempt: ClientOutcome): (r: Outcome)
    ensures AlreadyOn(s, server, format) ==> r == Outcome(s, None, None)
    ensures !AlreadyOn(s, server, format) && !s.conn.isConnected && s.conn.isConnecting ==>
              r == Outcome(s, None, None)
    ensures !AlreadyOn(s, server, format) && (s.conn.isConnected || !s.conn.isConnecting) ==>
      && r.dialed == Some(server.WebSocketUrl(format))
      && r.state.hasClient
      && (s.conn.isConnected ==> r.state.subs == [] && r.state.handlers == {})
      && (attempt.Succeeds? ==>
            && r.thrown.None?
            && r.state.conn == ConnState(true, false, None, Some(server.name))
            && r.state.currentServer == Some(server) && r.state.currentFormat == Some(format)
            && r.state.reconnectAttempts == 0)
      && (attempt.Fails? ==>
            && r.thrown == Some(attempt.message)
            && r.state.conn == ConnState(false, false, Some(attempt.message), None)
            && r.state.currentServer.None? && r.state.currentFormat.None?)
    ensures !AlreadyOn(s, server, format) && !s.conn.isConnected && !s.conn.isConnecting ==>
      && r.state.subs == s.subs && r.state.handlers == s.handlers && r.state.timerPending == s.timerPending
      && (attempt.Fails? ==>
            r.state == s.(conn := ConnState(false, false, Some(attempt.message), None), hasClient := true,
                          currentServer := None, currentFormat := None))
    ensures Valid(s) ==> Valid(r.state)
  {
    if AlreadyOn(s, server, format) then Outcome(s, None, None)
    else
      var s1 := if s.conn.isConnected then Disconnect(s, teardown) else s;
      if s1.conn.isConnecting then Outcome(s1, None, None)
      else
        var connecting := s1.(conn := ConnState(false, true, None, Some(server.name)), hasClient := true);
        var url := Some(server.WebSocketUrl(format));
        match attempt
        case Succeeds =>
          Outcome(connecting.(conn := ConnState(true, false, None, Some(server.name)),
                              currentServer := Some(server), currentFormat := Some(format),
                              reconnectAttempts := 0), None, url)
        case Fails(e) =>
          Outcome(connecting.(conn := ConnState(false, false, Some(e), None),
                              currentServer := None, currentFormat := None), Some(e), url)
  }

  /** `connect`: the JSON endpoint. */
  function Connect(s: ServiceState, server: Config.Server, teardown: ClientOutcome, attempt: ClientOutcome): (r: Outcome)
    ensures r.dialed.Some? ==> r.dialed == Some(server.WebSocketUrl("json"))
    ensures !AlreadyOn(s, server, "json") && (s.conn.isConnected || !s.conn.isConnecting) ==>
              r.dialed == Some(server.WebSocketUrl("json"))
    ensures r.dialed.Some? && attempt.Succeeds? ==> r.state.currentFormat == Some("json")
  {
    ConnectWithFormat(s, server, "json", teardown, attempt)
  }

  // ---------------------------------------------------------------------
  // Commands

  const Wires: set<string> := {"sow", "subscribe", "sow_and_subscribe", "sow_stats"}

  /** `getAMPSCommandString`: the four command values go to themselves,
      anything else to `sow`. */
  function CommandString(command: string): (w: string)
    ensures w in Wires
    ensures command in Wires ==> w == command
    ensures command !in Wires ==> w == "sow"
  {
    if command == "sow" || command == "subscribe" || command == "sow_and_subscribe" || command == "sow_stats"
    then command else "sow"
  }

  /** Every command kind is sent as its own wire string. */
  lemma CommandStringOfCommand(c: Config.Command)
    ensures CommandString(c.Wire()) == c.Wire()
    ensures c.Wire() in Wires
  {
  }

  /** `getDefaultOptionsForCommand` */
  function DefaultOptions(command: string): (o: string)
    ensures command == "sow" ==> o == "top_n=500"
    ensures command in {"subscribe", "sow_and_subscribe"} ==> o == "top_n=250"
    ensures command !in {"sow", "subscribe", "sow_and_subscribe"} ==> o == "top_n=100"
  {
    if command == "sow" then "top_n=500"
    else if command == "subscribe" || command == "sow_and_subscribe" then "top_n=250"
    else "top_n=100"
  }

  /** A property that is set and truthy, i.e. a non-empty string. */
  function Given(o: Option<string>): (r: Option<string>)
    ensures r.Some? <==> o.Some? && |o.value| > 0
    ensures r.Some? ==> r == o
  {
    if o.Some? && |o.value| > 0 then o else None
  }

  /** The broker command built for one execution. */
  datatype Request = Request(
    command: string,
    topic: string,
    filter: Option<string>,
    orderBy: Option<string>,
    bookmark: Option<string>,
    options: string)

  /** The command `startRealAMPSSubscription` builds: wire command, topic,
      the filter, order and bookmark only when given, and the user's options
      string or else the command's default. */
  function BuildRequest(command: string, topic: string, o: Config.QueryOptions): (q: Request)
    ensures q.command == CommandString(command) && q.topic == topic
    ensures q.filter == Given(o.filter) && q.orderBy == Given(o.orderBy) && q.bookmark == Given(o.bookmark)
    ensures o.options.Some? && |o.options.value| > 0 ==> q.options == o.options.value
    ensures !(o.options.Some? && |o.options.value| > 0) ==> q.options == DefaultOptions(command)
  {
    var wire := if command == "sow" then "sow" else CommandString(command);
    var options := match Given(o.options) case Some(v) => v case None => DefaultOptions(command);
    Request(wire, topic, Given(o.filter), Given(o.orderBy), Given(o.bookmark), options)
  }

  /** `topicInfo.messageType || 'json'` */
  function RequiredFormat(t: Config.Topic): (f: string)
    ensures |f| > 0
    ensures |t.messageType| > 0 ==> f == t.messageType
  {
    if |t.messageType| > 0 then t.messageType else "json"
  }

  predicate IsLiveCommand(command: string) {
    command == "subscribe" || command == "sow_and_subscribe"
  }

  /** The result of `executeCommand`: the new state, the returned id or the
      thrown message, and the request sent to the broker when the guarded
      dispatch starts. */
  datatype Dispatch = Dispatch(state: ServiceState, result: Result<string>, request: Option<Request>)

  /** The topic is of another message format than the live connection, so
      `executeCommand` reconnects before registering. */
  predicate NeedsSwitch(s: ServiceState, topicInfo: Option<Config.Topic>) {
    topicInfo.Some? && s.currentServer.Some? && s.currentFormat != Some(RequiredFormat(topicInfo.value))
  }

  /** The entry `executeCommand` tracks for a subscribing command. */
  function Tracked(id: string, topic: string, command: string, o: Config.QueryOptions): Subscription {
    Subscription(id, topic, command, o.filter, Some(o), true, None)
  }

  /** The ids whose handler a call registers. */
  function Registered(id: string, hasHandler: bool): set<string> {
    if hasHandler then {id} else {}
  }

  /** `executeCommand` up to the unawaited dispatch.  `id` is the generated
      subscription id; `teardown` and `attempt` drive the reconnect done
      when the topic needs another message format.  Only `subscribe` and
      `sow_and_subscribe` are tracked in the map; a SOW query registers its
      handler and nothing else. */
  function ExecuteCommand(s: ServiceState, command: string, topic: string, o: Config.QueryOptions,
                          hasHandler: bool, topicInfo: Option<Config.Topic>, id: string,
                          teardown: ClientOutcome, attempt: ClientOutcome): (r: Dispatch)
    requires Valid(s)
    ensures Valid(r.state)
    ensures !s.conn.isConnected ==> r == Dispatch(s, Err("Not connected to AMPS server"), None)
    ensures r.result.Ok? ==> r.result.value == id && (hasHandler ==> id in r.state.handlers)
    ensures r.result.Ok? && IsLiveCommand(command) ==>
              exists k :: 0 <= k < |r.state.subs| && r.state.subs[k] == Tracked(id, topic, command, o)
    ensures s.conn.isConnected && !NeedsSwitch(s, topicInfo) ==>
      && r.result == Ok(id)
      && r.state == s.(handlers := s.handlers + Registered(id, hasHandler),
                       subs := if IsLiveCommand(command) then Put(s.subs, Tracked(id, topic, command, o)) else s.subs)
    ensures s.conn.isConnected && NeedsSwitch(s, topicInfo) && attempt.Fails? ==>
      && r.result == Err(attempt.message) && r.request.None?
      && r.state.subs == [] && r.state.handlers == {} && !r.state.conn.isConnected
    ensures s.conn.isConnected && NeedsSwitch(s, topicInfo) && attempt.Succeeds? ==>
      && r.result == Ok(id)
      && r.state.conn.isConnected && r.state.hasClient
      && r.state.currentServer == s.currentServer
      && r.state.currentFormat == Some(RequiredFormat(topicInfo.value))
      && r.state.handlers == Registered(id, hasHandler)
      && r.state.subs == (if IsLiveCommand(command) then [Tracked(id, topic, command, o)] else [])
    ensures r.request.Some? ==> r.request == Some(BuildRequest(command, topic, o))
    ensures r.request.Some? <==> r.result.Ok? && hasHandler && r.state.conn.isConnected && r.state.hasClient
  {
    if !s.conn.isConnected then Dispatch(s, Err("Not connected to AMPS server"), None)
    else
      var switched :=
        if NeedsSwitch(s, topicInfo)
        then ConnectWithFormat(s, s.currentServer.value, RequiredFormat(topicInfo.value), teardown, attempt)
        else Outcome(s, None, None);
      if switched.thrown.Some? then Dispatch(switched.state, Err(switched.thrown.value), None)
      else
        var s1 := switched.state;
        var s2 := s1.(handlers := s1.handlers + Registered(id, hasHandler));
        var sub := Tracked(id, topic, command, o);
        var s3 := if IsLiveCommand(command) then s2.(subs := Put(s2.subs, sub)) else s2;
        var started := hasHandler && s3.conn.isConnected && s3.hasClient;
        Dispatch(s3, Ok(id), if started then Some(BuildRequest(command, topic, o)) else None)
  }

  /** Switching to a topic of another message format closes the connection
      first, so every existing subscription and handler is dropped before the
      new command is registered. */
  lemma FormatSwitchDropsRegistry(s: ServiceState, command: string, topic: string, o: Config.QueryOptions,
                                  t: Config.Topic, id: string, teardown: ClientOutcome)
    requires Valid(s) && s.conn.isConnected && s.currentServer.Some?
    requires s.currentFormat != Some(RequiredFormat(t))
    ensures var r := ExecuteCommand(s, command, topic, o, true, Some(t), id, teardown, Succeeds);
      && r.result == Ok(id)
      && r.state.handlers == {id}
      && r.state.currentFormat == Some(RequiredFormat(t))
      && (forall x :: x in r.state.subs ==> x.id == id)
      && r.request == Some(BuildRequest(command, topic, o))
  {
  }

  /** The continuation after `client.execute` settles.  On success the entry
      is stored as active whatever the command was, so a finished SOW query
      is listed among the active subscriptions from then on; on failure the
      handler receives an `error` message naming the topic. */
  function Settle(s: ServiceState, id: string, topic: string, command: string, e: ExecuteOutcome): (r: (ServiceState, Option<Message>))
    requires Valid(s)
    ensures Valid(r.0)
    ensures e.Resolves? ==> r.1.None? && Subscription(id, topic, command, None, None, true, Some(e.subId)) in ActiveSubscriptions(r.0.subs)
    ensures e.Resolves? ==> r.0 == s.(subs := Put(s.subs, Subscription(id, topic, command, None, None, true, Some(e.subId))))
    ensures e.Rejects? ==> r.0 == s && r.1 == Some(Message("error", Some(map[ErrorField := Str("Failed to subscribe to " + topic + ": " + e.reason)])))
  {
    match e
    case Resolves(subId) =>
      (s.(subs := Put(s.subs, Subscription(id, topic, command, None, None, true, Some(subId)))), None)
    case Rejects(reason) =>
      (s, Some(Message("error", Some(map[ErrorField := Str("Failed to subscribe to " + topic + ": " + reason)]))))
  }

  /** The entry for `id` carries a broker subscription id that is truthy,
      i.e. present and non-empty. */
  predicate HasBrokerId(subs: seq<Subscription>, id: string) {
    exists k :: 0 <= k < |subs| && subs[k].id == id && subs[k].subId.Some? && subs[k].subId.value != ""
  }

  /** `unsubscribe`.  Disconnected or without a client nothing happens; the
      broker is asked only when the entry has a truthy broker id, and its
      failure is rethrown before any local cleanup; otherwise exactly that
      id's handler and entry go. */
  function Unsubscribe(s: ServiceState, id: string, outcome: ClientOutcome): (r: Outcome)
    requires Valid(s)
    ensures Valid(r.state)
    ensures r.dialed.None?
    ensures !(s.conn.isConnected && s.hasClient) ==> r == Outcome(s, None, None)
    ensures r.thrown.Some? <==> s.conn.isConnected && s.hasClient && HasBrokerId(s.subs, id) && outcome.Fails?
    ensures r.thrown.Some? ==> r.state == s && outcome.Fails?
    ensures s.conn.isConnected && s.hasClient && r.thrown.None? ==>
      && r.state.handlers == s.handlers - {id}
      && (forall x :: x in r.state.subs <==> x in s.subs && x.id != id)
      && r.state == s.(handlers := r.state.handlers, subs := r.state.subs)
    ensures outcome.Succeeds? ==> r.thrown.None?
  {
    if !(s.conn.isConnected && s.hasClient) then Outcome(s, None, None)
    else
      var sub := Lookup(s.subs, id);
      assert sub.Some? && sub.value.subId.Some? && sub.value.subId.value != "" <==> HasBrokerId(s.subs, id) by {
        if HasBrokerId(s.subs, id) {
          var k :| 0 <= k < |s.subs| && s.subs[k].id == id && s.subs[k].subId.Some? && s.subs[k].subId.value != "";
          var j :| 0 <= j < |s.subs| && s.subs[j] == sub.value;
          assert j == k;
        }
      }
      if sub.Some? && sub.value.subId.Some? && sub.value.subId.value != "" && outcome.Fails?
      then Outcome(s, Some(outcome.message), None)
      else Outcome(s.(handlers := s.handlers - {id}, subs := Remove(s.subs, id)), None, None)
  }

  // ---------------------------------------------------------------------
  // Reconnection

  function Deactivate(subs: seq<Subscription>): (r: seq<Subscription>)
    ensures |r| == |subs|
    ensures forall k :: 0 <= k < |subs| ==> r[k] == subs[k].(isActive := false)
  {
    if |subs| == 0 then [] else [subs[0].(isActive := false)] + Deactivate(subs[1..])
  }

  lemma {:induction false} NoneActive(subs: seq<Subscription>)
    requires forall k :: 0 <= k < |subs| ==> !subs[k].isActive
    ensures ActiveSubscriptions(subs) == []
  {
    if |subs| > 0 {
      NoneActive(subs[1..]);
    }
  }

  /** `attemptReconnect`: at most one timer is pending; starting one counts
      an attempt. */
  function AttemptReconnect(s: ServiceState): (r: ServiceState)
    ensures r.timerPending
    ensures s.timerPending ==> r == s
    ensures !s.timerPending ==> r == s.(reconnectAttempts := s.reconnectAttempts + 1, timerPending := true)
  {
    if s.timerPending then s
    else s.(reconnectAttempts := s.reconnectAttempts + 1, timerPending := true)
  }

  /** `handleDisconnect`: an error state without a server and every entry
      inactive.  The reconnect guard reads the state just written, whose
      server is absent, so it never schedules a reconnect. */
  function HandleDisconnect(s: ServiceState): (r: ServiceState)
    requires Valid(s)
    ensures Valid(r)
    ensures r.conn == ConnState(false, false, Some("Disconnected from server"), None)
    ensures ActiveSubscriptions(r.subs) == []
    ensures |r.subs| == |s.subs|
    ensures r.reconnectAttempts == s.reconnectAttempts && r.timerPending == s.timerPending
  {
    var s1 := s.(conn := ConnState(false, false, Some("Disconnected from server"), None),
                 subs := Deactivate(s.subs));
    assert forall k :: 0 <= k < |s1.subs| ==> !s1.subs[k].isActive;
    NoneActive(s1.subs);
    assert DistinctIds(s1.subs) by {
      forall i, j | 0 <= i < j < |s1.subs| ensures s1.subs[i].id != s1.subs[j].id {
        assert s1.subs[i].id == s.subs[i].id && s1.subs[j].id == s.subs[j].id;
      }
    }
    if s1.conn.server.Some? && s1.reconnectAttempts < Config.MaxReconnectAttempts
    then AttemptReconnect(s1) else s1
  }

  /** `Servers.find(x => x.name == name)` */
  function FindServer(servers: seq<Config.Server>, name: string): (r: Option<Config.Server>)
    ensures r.Some? ==> r.value in servers && r.value.name == name
    ensures r.None? ==> forall x :: x in servers ==> x.name != name
  {
    if |servers| == 0 then None
    else if servers[0].name == name then Some(servers[0])
    else FindServer(servers[1..], name)
  }

  /** The timer has something to re-dial: the state names a server from the
      table, and no connection is under way. */
  predicate Redials(s: ServiceState) {
    s.conn.server.Some? && FindServer(Config.Servers, s.conn.server.value).Some? && !s.conn.isConnecting
  }

  /** The reconnect timer firing.  If the state still names a server it
      reconnects with the current format (JSON when none), and on failure
      retries while fewer than `MAX_RECONNECT_ATTEMPTS` attempts have been
      counted. */
  function ReconnectTimerFires(s: ServiceState, teardown: ClientOutcome, attempt: ClientOutcome): (r: ServiceState)
    requires Valid(s)
    ensures Valid(r)
    ensures r.reconnectAttempts >= s.reconnectAttempts || r.reconnectAttempts == 0
    ensures r.timerPending ==> r.reconnectAttempts == s.reconnectAttempts + 1 && attempt.Fails?
    ensures s.conn.server.None? ==> r == s.(timerPending := false)
    ensures Redials(s) && attempt.Succeeds? ==>
      && r.conn.isConnected && r.conn.server == s.conn.server && !r.timerPending
      && r.currentServer.Some? && r.currentServer.value.name == s.conn.server.value
      && r.currentFormat == Some(s.currentFormat.GetOr("json"))
    ensures Redials(s) && attempt.Fails?
            && !AlreadyOn(s, FindServer(Config.Servers, s.conn.server.value).value, s.currentFormat.GetOr("json")) ==>
      && r.conn == ConnState(false, false, Some(attempt.message), None)
      && (r.timerPending <==> s.reconnectAttempts < Config.MaxReconnectAttempts)
      && (s.reconnectAttempts < Config.MaxReconnectAttempts ==> r.reconnectAttempts == s.reconnectAttempts + 1)
  {
    var s1 := s.(timerPending := false);
    if s1.conn.server.None? then s1
    else match FindServer(Config.Servers, s1.conn.server.value)
      case None => s1
      case Some(server) =>
        var o := if s1.currentFormat.Some?
                 then ConnectWithFormat(s1, server, s1.currentFormat.value, teardown, attempt)
                 else Connect(s1, server, teardown, attempt);
        if o.thrown.Some? && o.state.reconnectAttempts < Config.MaxReconnectAttempts
        then AttemptReconnect(o.state) else o.state
  }

  /** Counting never exceeds the bound: every state an operation produces
      from a valid state has at most `MAX_RECONNECT_ATTEMPTS` attempts. */
  lemma AttemptsBounded(s: ServiceState, teardown: ClientOutcome, attempt: ClientOutcome)
    requires Valid(s)
    ensures ReconnectTimerFires(s, teardown, attempt).reconnectAttempts <= Config.MaxReconnectAttempts
    ensures HandleDisconnect(s).reconnectAttempts <= Config.MaxReconnectAttempts
  {
  }
}

=== FILE: sorting.dfy ===
/** Stable sorting by a comparison, as `Array.prototype.sort` performs it
    (ECMAScript requires the sort to be stable).  The comparison is given as
    a "sorts no later than" relation `le`; the comparators of the console
    are total preorders. */
module Sorting {

  ghost predicate TotalPreorder<T(!new)>(le: (T, T) -> bool) {
    && (forall a, b :: le(a, b) || le(b, a))
    && (forall a, b, c :: le(a, b) && le(b, c) ==> le(a, c))
  }

  ghost predicate Sorted<T>(le: (T, T) -> bool, s: seq<T>) {
    forall i, j :: 0 <= i < j < |s| ==> le(s[i], s[j])
  }

  /** `a` and `b` compare equal (the comparator returns 0). */
  predicate Equivalent<T>(le: (T, T) -> bool, a: T, b: T) {
    le(a, b) && le(b, a)
  }

  /** The elements of `s` that compare equal to `e`, in order. */
  function Keep<T>(s: seq<T>, le: (T, T) -> bool, e: T): seq<T> {
    if |s| == 0 then []
    else (if Equivalent(le, s[0], e) then [s[0]] else []) + Keep(s[1..], le, e)
  }

  /** Inserts `x` after every element that does not sort strictly after it. */
  function Insert<T>(x: T, r: seq<T>, le: (T, T) -> bool): (out: seq<T>)
    ensures multiset(out) == multiset(r) + multiset{x}
    ensures |out| == |r| + 1
  {
    if |r| == 0 then [x]
    else if !le(r[0], x) then [x] + r
    else
      assert r == [r[0]] + r[1..];
      [r[0]] + Insert(x, r[1..], le)
  }

  /** Insertion sort, inserting the elements of `s` from first to last. */
  function Sort<T>(s: seq<T>, le: (T, T) -> bool): (out: seq<T>)
    ensures multiset(out) == multiset(s)
    ensures |out| == |s|
  {
    if |s| == 0 then []
    else
      var n := |s| - 1;
      assert s == s[..n] + [s[n]];
      Insert(s[n], Sort(s[..n], le), le)
  }

  lemma {:induction false} InsertSorted<T(!new)>(x: T, r: seq<T>, le: (T, T) -> bool)
    requires TotalPreorder(le)
    requires Sorted(le, r)
    ensures Sorted(le, Insert(x, r, le))
  {
    if |r| > 0 && le(r[0], x) {
      var tail := Insert(x, r[1..], le);
      InsertSorted(x, r[1..], le);
      var out := [r[0]] + tail;
      assert Insert(x, r, le) == out;
      forall j | 0 < j < |out|
        ensures le(r[0], out[j])
      {
        assert out[j] in multiset(tail);
        assert out[j] in multiset(r[1..]) + multiset{x};
        if out[j] != x || out[j] in multiset(r[1..]) {
          if out[j] in multiset(r[1..]) {
            var k :| 0 <= k < |r[1..]| && r[1..][k] == out[j];
            assert r[k + 1] == out[j];
          }
        }
      }
    }
  }

  /** The sort's output is ordered by `le`. */
  lemma {:induction false} SortSorted<T(!new)>(s: seq<T>, le: (T, T) -> bool)
    requires TotalPreorder(le)
    ensures Sorted(le, Sort(s, le))
  {
    if |s| > 0 {
      var n := |s| - 1;
      SortSorted(s[..n], le);
      InsertSorted(s[n], Sort(s[..n], le), le);
    }
  }

  lemma {:induction false} KeepAppend<T>(a: seq<T>, b: seq<T>, le: (T, T) -> bool, e: T)
    ensures Keep(a + b, le, e) == Keep(a, le, e) + Keep(b, le, e)
  {
    if |a| > 0 {
      KeepAppend(a[1..], b, le, e);
      assert (a + b)[1..] == a[1..] + b;
    } else {
      assert a + b == b;
    }
  }

  /** No element of a sorted `r` that starts above `x` compares equal to
      anything equal to `x`. */
  lemma {:induction false} KeepAbove<T(!new)>(x: T, r: seq<T>, le: (T, T) -> bool, e: T)
    requires TotalPreorder(le)
    requires Sorted(le, r)
    requires |r| > 0 && !le(r[0], x)
    requires Equivalent(le, x, e)
    ensures Keep(r, le, e) == []
  {
    if |r| > 1 {
      assert le(r[0], r[1..][0]);
      assert Sorted(le, r[1..]) by {
        forall i, j | 0 <= i < j < |r[1..]| ensures le(r[1..][i], r[1..][j]) {
          assert r[1..][i] == r[i + 1] && r[1..][j] == r[j + 1];
        }
      }
      assert !le(r[1..][0], x);
      KeepAbove(x, r[1..], le, e);
    }
    assert !Equivalent(le, r[0], e);
  }

  lemma KeepCons<T>(y: T, r: seq<T>, le: (T, T) -> bool, e: T)
    ensures Keep([y] + r, le, e) == (if Equivalent(le, y, e) then [y] else []) + Keep(r, le, e)
  {
    assert ([y] + r)[0] == y;
    assert ([y] + r)[1..] == r;
  }

  lemma SortedTail<T>(le: (T, T) -> bool, r: seq<T>)
    requires |r| > 0 && Sorted(le, r)
    ensures Sorted(le, r[1..])
  {
    forall i, j | 0 <= i < j < |r[1..]| ensures le(r[1..][i], r[1..][j]) {
      assert r[1..][i] == r[i + 1] && r[1..][j] == r[j + 1];
    }
  }

  /** `x` goes in front of a sorted `r` whose head sorts after it. */
  lemma InsertStableFront<T(!new)>(x: T, r: seq<T>, le: (T, T) -> bool, e: T)
    requires TotalPreorder(le)
    requires Sorted(le, r)
    requires |r| > 0 && !le(r[0], x)
    ensures Keep(Insert(x, r, le), le, e)
         == Keep(r, le, e) + (if Equivalent(le, x, e) then [x] else [])
  {
    assert Insert(x, r, le) == [x] + r;
    KeepCons(x, r, le, e);
    if Equivalent(le, x, e) {
      KeepAbove(x, r, le, e);
    }
  }

  /** An element put in front of two lists whose kept parts differ by a
      suffix keeps that difference. */
  lemma KeepConsBoth<T>(y: T, rest: seq<T>, tail: seq<T>, mine: seq<T>, le: (T, T) -> bool, e: T)
    requires Keep(rest, le, e) == Keep(tail, le, e) + mine
    ensures Keep([y] + rest, le, e) == Keep([y] + tail, le, e) + mine
  {
    var head := if Equivalent(le, y, e) then [y] else [];
    KeepCons(y, rest, le, e);
    KeepCons(y, tail, le, e);
    Associative(head, Keep(tail, le, e), mine);
  }

  lemma Associative<T>(a: seq<T>, b: seq<T>, c: seq<T>)
    ensures a + (b + c) == (a + b) + c
  {
  }

  lemma {:induction false} InsertStable<T(!new)>(x: T, r: seq<T>, le: (T, T) -> bool, e: T)
    requires TotalPreorder(le)
    requires Sorted(le, r)
    ensures Keep(Insert(x, r, le), le, e)
         == Keep(r, le, e) + (if Equivalent(le, x, e) then [x] else [])
  {
    if |r| == 0 {
      KeepCons(x, [], le, e);
    } else if !le(r[0], x) {
      InsertStableFront(x, r, le, e);
    } else {
      SortedTail(le, r);
      InsertStable(x, r[1..], le, e);
      assert Insert(x, r, le) == [r[0]] + Insert(x, r[1..], le);
      assert r == [r[0]] + r[1..];
      KeepConsBoth(r[0], Insert(x, r[1..], le), r[1..], if Equivalent(le, x, e) then [x] else [], le, e);
    }
  }

  lemma KeepSnoc<T>(a: seq<T>, x: T, le: (T, T) -> bool, e: T)
    ensures Keep(a + [x], le, e) == Keep(a, le, e) + (if Equivalent(le, x, e) then [x] else [])
  {
    KeepAppend(a, [x], le, e);
    assert [x][1..] == [];
  }

  /** Sorting a list with a known last element inserts it into the sorted
      front. */
  lemma SortSnoc<T>(front: seq<T>, x: T, le: (T, T) -> bool)
    ensures Sort(front + [x], le) == Insert(x, Sort(front, le), le)
  {
    assert (front + [x])[..|front|] == front;
  }

  /** Stability: elements that compare equal keep their original order. */
  lemma {:induction false} SortStable<T(!new)>(s: seq<T>, le: (T, T) -> bool, e: T)
    requires TotalPreorder(le)
    ensures Keep(Sort(s, le), le, e) == Keep(s, le, e)
  {
    if |s| > 0 {
      var n := |s| - 1;
      var front, x := s[..n], s[n];
      assert s == front + [x];
      SortSnoc(front, x, le);
      SortSorted(front, le);
      InsertStable(x, Sort(front, le), le, e);
      SortStable(front, le, e);
      KeepSnoc(front, x, le, e);
    }
  }
}

=== FILE: status.dfy ===
/** The status chips: the look of each status kind, the message and colour
    a status shows in each variant, and how the connection and execution
    states are summarised as a status. */
module Status {
  import opened Wrappers
  import opened Types
  import AmpsHook
  import Reconciler

  datatype StatusKind = Succeeded | Failed | Warned | Informed | Loading | Idle

  /** `getStatusConfig`: the colour and default message of a kind. */
  function ColorOf(k: StatusKind): string {
    match k
    case Succeeded => "success"
    case Failed => "error"
    case Warned => "warning"
    case Informed => "info"
    case Loading => "primary"
    case Idle => "default"
  }

  function DefaultMessage(k: StatusKind): string {
    match k
    case Succeeded => "Success"
    case Failed => "Error"
    case Warned => "Warning"
    case Informed => "Information"
    case Loading => "Loading..."
    case Idle => "Ready"
  }

  /** Each kind has its own colour and its own default message. */
  lemma KindsDistinguishable(a: StatusKind, b: StatusKind)
    ensures ColorOf(a) == ColorOf(b) <==> a == b
    ensures DefaultMessage(a) == DefaultMessage(b) <==> a == b
  {
  }

  datatype Variant = Chip | AlertBox | Inline
  datatype Size = Small | Medium | Large

  /** What a status display shows. */
  datatype View =
    | ChipView(caption: string, color: Option<string>, chipSize: Size)
    | AlertView(severity: string, text: string)
    | InlineView(textColor: string, text: string, typography: string)

  /** The alert severity of a colour: the four severities as themselves,
      anything else as `info`. */
  function AlertSeverity(color: string): (s: string)
    ensures s in {"success", "error", "warning", "info"}
    ensures color in {"success", "error", "warning", "info"} ==> s == color
  {
    if color in {"success", "error", "warning", "info"} then color else "info"
  }

  /** The colour a status shows: the given one unless it is empty, else
      the kind's. */
  function StatusColor(k: StatusKind, color: Option<string>): (c: string)
    ensures color.Some? && color.value != "" ==> c == color.value
    ensures !(color.Some? && color.value != "") ==> c == ColorOf(k)
  {
    if color.Some? && color.value != "" then color.value else ColorOf(k)
  }

  /** How each variant renders the colour `c`: a chip without colour for
      `default`, an alert of the matching severity, inline text in the
      primary text colour for `default` and in the colour's main shade
      otherwise. */
  predicate ShowsColor(v: View, c: string) {
    match v
    case ChipView(_, color, _) => color == (if c == "default" then None else Some(c))
    case AlertView(severity, _) => severity == AlertSeverity(c)
    case InlineView(textColor, _, _) => textColor == (if c == "default" then "text.primary" else c + ".main")
  }

  /** `StatusDisplay`: the message (default when empty), the colour (the
      kind's unless one is given) and the variant's rendering. */
  function Display(k: StatusKind, message: Option<string>, variant: Variant, size: Size, color: Option<string>): (v: View)
    ensures v.ChipView? <==> variant == Chip
    ensures v.AlertView? <==> variant == AlertBox
    ensures var shown := if message.Some? && message.value != "" then message.value else DefaultMessage(k);
      (v.ChipView? ==> v.caption == shown) && (!v.ChipView? ==> v.text == shown)
    ensures ShowsColor(v, StatusColor(k, color))
    ensures v.ChipView? ==> (v.chipSize == Medium <==> size == Large) && (v.chipSize != Medium ==> v.chipSize == Small)
  {
    var shown := if message.Some? && message.value != "" then message.value else DefaultMessage(k);
    var statusColor := StatusColor(k, color);
    match variant
    case Chip => ChipView(shown, if statusColor == "default" then None else Some(statusColor), if size == Large then Medium else Small)
    case AlertBox => AlertView(AlertSeverity(statusColor), shown)
    case Inline =>
      InlineView(if statusColor == "default" then "text.primary" else statusColor + ".main", shown,
                 if size == Small then "caption" else if size == Large then "body1" else "body2")
  }

  /** `ConnectionStatus`: an error first, then connecting, then connected,
      else disconnected. */
  function ConnectionStatus(c: ConnState): (r: (StatusKind, string))
    ensures r.0 == Failed <==> c.error.Some? && c.error.value != ""
    ensures r.0 == Failed ==> r.1 == "Connection failed: " + c.error.value
    ensures r.0 == Loading <==> r.0 != Failed && c.isConnecting
    ensures r.0 == Succeeded <==> r.0 != Failed && !c.isConnecting && c.isConnected
    ensures r.0 == Idle ==> r.1 == "Disconnected"
    ensures var suffix := if c.server.Some? && c.server.value != "" then " to " + c.server.value else "";
      && (r.0 == Loading ==> r.1 == "Connecting" + suffix + "...")
      && (r.0 == Succeeded ==> r.1 == "Connected" + suffix)
  {
    var suffix := if c.server.Some? && c.server.value != "" then " to " + c.server.value else "";
    if c.error.Some? && c.error.value != "" then (Failed, "Connection failed: " + c.error.value)
    else if c.isConnecting then (Loading, "Connecting" + suffix + "...")
    else if c.isConnected then (Succeeded, "Connected" + suffix)
    else (Idle, "Disconnected")
  }

  /** `ExecutionStatus`; `clock` renders a time as the locale's time of day. */
  function ExecutionStatus(e: ExecState, clock: Time -> string): (r: (StatusKind, string))
    ensures r.0 == Failed <==> e.error.Some? && e.error.value != ""
    ensures r.0 == Failed ==> r.1 == "Execution failed: " + e.error.value
    ensures r.0 == Loading <==> r.0 != Failed && e.isExecuting
    ensures r.0 == Succeeded <==> r.0 != Failed && !e.isExecuting && e.lastExecuted.Some?
    ensures r.0 == Succeeded ==> r.1 == "Last executed: " + clock(e.lastExecuted.value)
    ensures r.0 == Idle ==> r.1 == "Ready to execute"
  {
    if e.error.Some? && e.error.value != "" then (Failed, "Execution failed: " + e.error.value)
    else if e.isExecuting then (Loading, "Executing...")
    else if e.lastExecuted.Some? then (Succeeded, "Last executed: " + clock(e.lastExecuted.value))
    else (Idle, "Ready to execute")
  }

  /** Without a colour of its own, a chip tells every kind apart by colour,
      and only the idle kind is shown uncoloured. */
  lemma ChipColorsDistinguishKinds(a: StatusKind, b: StatusKind, m: Option<string>, size: Size)
    ensures var va, vb := Display(a, m, Chip, size, None), Display(b, m, Chip, size, None);
      && (va.color == vb.color <==> a == b)
      && (va.color.None? <==> a == Idle)
  {
  }

  /** What the connection chip says after each step of the hook's
      `connect` and `disconnect`. */
  lemma ConnectionChipFollowsHook(h: Reconciler.HookState, name: string, e: string)
    requires name != "" && e != ""
    ensures ConnectionStatus(AmpsHook.ConnectStart(h).conn) == (Loading, "Connecting...")
    ensures ConnectionStatus(AmpsHook.ConnectDone(h, name, None).conn) == (Succeeded, "Connected to " + name)
    ensures ConnectionStatus(AmpsHook.ConnectDone(h, name, Some(e)).conn) == (Failed, "Connection failed: " + e)
    ensures ConnectionStatus(AmpsHook.Disconnect(h).conn) == (Idle, "Disconnected")
  {
    assert "Connecting" + "" + "..." == "Connecting...";
    assert "Connected" + (" to " + name) == "Connected to " + name;
  }

  /** What the execution chip says once an execution has started, and after
      the service call threw. */
  lemma ExecutionChipFollowsHook(h: Reconciler.HookState, command: string, e: string, now: Time, clock: Time -> string)
    requires e != ""
    ensures ExecutionStatus(AmpsHook.BeginExecute(h, command).exec, clock) == (Loading, "Executing...")
    ensures ExecutionStatus(AmpsHook.FinishExecute(h, command, Err(e), now).exec, clock) == (Failed, "Execution failed: " + e)
    ensures ExecutionStatus(AmpsHook.Stop(h, None).exec, clock).0 != Loading
  {
  }
}

=== FILE: text.dfy ===
/** String operations of the JavaScript runtime that the console relies on,
    restricted to what the model needs: ASCII case mapping, substring search,
    `split`/`join` on one separator character, `trim`, `indexOf` and decimal
    rendering of port numbers. */
module Text {

  predicate IsUpperAscii(c: char) { 'A' <= c <= 'Z' }
  predicate IsLowerAscii(c: char) { 'a' <= c <= 'z' }
  predicate IsLetter(c: char) { IsUpperAscii(c) || IsLowerAscii(c) }
  predicate IsDigit(c: char) { '0' <= c <= '9' }

  /** `toLowerCase` of one character (ASCII letters only). */
  function LowerChar(c: char): (r: char)
    ensures IsUpperAscii(c) ==> IsLowerAscii(r) && r as int == c as int + 32
    ensures !IsUpperAscii(c) ==> r == c
  {
    if IsUpperAscii(c) then (c as int + 32) as char else c
  }

  /** `toUpperCase` of one character (ASCII letters only). */
  function UpperChar(c: char): (r: char)
    ensures IsLowerAscii(c) ==> IsUpperAscii(r) && r as int == c as int - 32
    ensures !IsLowerAscii(c) ==> r == c
  {
    if IsLowerAscii(c) then (c as int - 32) as char else c
  }

  /** `s.toLowerCase()`: same length, every character lower-cased. */
  function Lower(s: string): (r: string)
    ensures |r| == |s|
    ensures forall i :: 0 <= i < |s| ==> r[i] == LowerChar(s[i])
  {
    if |s| == 0 then "" else [LowerChar(s[0])] + Lower(s[1..])
  }

  predicate StartsWith(s: string, prefix: string) {
    |prefix| <= |s| && s[..|prefix|] == prefix
  }

  /** `t` occurs in `s` starting at position `i`. */
  predicate OccursAt(s: string, t: string, i: int) {
    0 <= i && i + |t| <= |s| && s[i..i + |t|] == t
  }

  /** `s.includes(t)`, computed by scanning every start position. */
  function Contains(s: string, t: string): bool
    decreases |s|
  {
    StartsWith(s, t) || (|s| > 0 && Contains(s[1..], t))
  }

  /** `Contains` holds exactly when `t` occurs at some position of `s`. */
  lemma {:induction false} ContainsIff(s: string, t: string)
    ensures Contains(s, t) <==> exists i :: OccursAt(s, t, i)
    decreases |s|
  {
    if StartsWith(s, t) {
      assert OccursAt(s, t, 0);
    } else if |s| > 0 {
      ContainsIff(s[1..], t);
      assert !OccursAt(s, t, 0);
      forall i | 0 < i
        ensures OccursAt(s, t, i) <==> OccursAt(s[1..], t, i - 1)
      {
        OccursShift(s, t, i);
      }
      if Contains(s[1..], t) {
        var i :| OccursAt(s[1..], t, i);
        assert OccursAt(s, t, i + 1);
      }
    } else {
      assert !OccursAt(s, t, 0);
    }
  }

  lemma OccursShift(s: string, t: string, i: int)
    requires 0 < i && |s| > 0
    ensures OccursAt(s, t, i) <==> OccursAt(s[1..], t, i - 1)
  {
    if i + |t| <= |s| {
      assert s[1..][i - 1..i - 1 + |t|] == s[i..i + |t|];
    }
  }

  /** Every string contains the empty string (`"x".includes("") === true`). */
  lemma ContainsEmpty(s: string)
    ensures Contains(s, "")
  {
    assert StartsWith(s, "");
  }

  /** `s.indexOf(c)`: the first position holding `c`, or -1. */
  function IndexOf(s: string, c: char): (r: int)
    ensures -1 <= r < |s|
    ensures r == -1 <==> c !in s
    ensures r >= 0 ==> s[r] == c && c !in s[..r]
  {
    if |s| == 0 then -1
    else if s[0] == c then 0
    else
      var k := IndexOf(s[1..], c);
      assert s[1..] == s[1..][..];
      if k == -1 then (assert s == [s[0]] + s[1..]; -1)
      else (assert s[..k + 1] == [s[0]] + s[1..][..k]; k + 1)
  }

  /** `s.split(sep)` for a one-character separator. */
  function Split(s: string, sep: char): (r: seq<string>)
    ensures |r| >= 1
  {
    if |s| == 0 then [""]
    else
      var rest := Split(s[1..], sep);
      if s[0] == sep then [""] + rest
      else [[s[0]] + rest[0]] + rest[1..]
  }

  /** `parts.join(sep)`. */
  function Join(parts: seq<string>, sep: char): string
    requires |parts| >= 1
  {
    if |parts| == 1 then parts[0] else parts[0] + [sep] + Join(parts[1..], sep)
  }

  /** No piece produced by `Split` contains the separator. */
  lemma {:induction false} SplitPiecesFree(s: string, sep: char)
    ensures forall k :: 0 <= k < |Split(s, sep)| ==> sep !in Split(s, sep)[k]
  {
    if |s| > 0 {
      SplitPiecesFree(s[1..], sep);
    }
  }

  /** Joining the pieces of a split gives back the original string. */
  lemma {:induction false} JoinSplit(s: string, sep: char)
    ensures Join(Split(s, sep), sep) == s
  {
    if |s| > 0 {
      var rest := Split(s[1..], sep);
      JoinSplit(s[1..], sep);
      if s[0] == sep {
        assert Join([""] + rest, sep) == "" + [sep] + Join(rest, sep);
        assert s == [s[0]] + s[1..];
      } else {
        var r := [[s[0]] + rest[0]] + rest[1..];
        if |rest| == 1 {
          assert Join(r, sep) == [s[0]] + rest[0];
        } else {
          assert Join(r, sep) == [s[0]] + rest[0] + [sep] + Join(rest[1..], sep);
          assert Join(rest, sep) == rest[0] + [sep] + Join(rest[1..], sep);
        }
        assert s == [s[0]] + s[1..];
      }
    }
  }

  /** Splitting a joined list of separator-free pieces gives back the pieces. */
  lemma {:induction false} SplitJoin(parts: seq<string>, sep: char)
    requires |parts| >= 1
    requires forall k :: 0 <= k < |parts| ==> sep !in parts[k]
    ensures Split(Join(parts, sep), sep) == parts
    decreases |parts|, |parts[0]|
  {
    if |parts| == 1 {
      SplitFree(parts[0], sep);
    } else {
      var tail := Join(parts[1..], sep);
      SplitJoin(parts[1..], sep);
      SplitAppend(parts[0], tail, sep);
      SplitFree(parts[0], sep);
      assert parts == [parts[0]] + parts[1..];
    }
  }

  /** A string without the separator splits into itself. */
  lemma {:induction false} SplitFree(s: string, sep: char)
    requires sep !in s
    ensures Split(s, sep) == [s]
  {
    if |s| > 0 {
      SplitFree(s[1..], sep);
      assert s == [s[0]] + s[1..];
    }
  }

  /** The pieces of `[c] + s` built from the pieces `r` of `s`: a separator
      opens a new empty piece, any other character joins the first one. */
  function PushChar(c: char, sep: char, r: seq<string>): seq<string>
    requires |r| >= 1
  {
    if c == sep then [""] + r else [[c] + r[0]] + r[1..]
  }

  /** Splitting a string with a known first character. */
  lemma SplitCons(c: char, s: string, sep: char)
    ensures Split([c] + s, sep) == PushChar(c, sep, Split(s, sep))
  {
    assert ([c] + s)[0] == c;
    assert ([c] + s)[1..] == s;
  }

  /** Pushing a character onto pieces only touches the first of them. */
  lemma PushCharAppend(c: char, sep: char, p: seq<string>, q: seq<string>)
    requires |p| >= 1
    ensures PushChar(c, sep, p + q) == PushChar(c, sep, p) + q
  {
    if c != sep {
      assert (p + q)[0] == p[0];
      assert (p + q)[1..] == p[1..] + q;
    }
  }

  /** One step of `SplitAppend`: a character put in front of both sides. */
  lemma SplitAppendStep(c: char, a: string, b: string, sep: char)
    requires Split(a + [sep] + b, sep) == Split(a, sep) + Split(b, sep)
    ensures Split([c] + a + [sep] + b, sep) == Split([c] + a, sep) + Split(b, sep)
  {
    assert [c] + a + [sep] + b == [c] + (a + [sep] + b);
    SplitCons(c, a + [sep] + b, sep);
    SplitCons(c, a, sep);
    PushCharAppend(c, sep, Split(a, sep), Split(b, sep));
  }

  /** Splitting at one occurrence of the separator splits both halves. */
  lemma {:induction false} SplitAppend(a: string, b: string, sep: char)
    ensures Split(a + [sep] + b, sep) == Split(a, sep) + Split(b, sep)
  {
    if |a| == 0 {
      assert a + [sep] + b == [sep] + b;
      SplitCons(sep, b, sep);
    } else {
      SplitAppend(a[1..], b, sep);
      SplitAppendStep(a[0], a[1..], b, sep);
      assert a == [a[0]] + a[1..];
    }
  }

  /** Whitespace removed by `String.prototype.trim`. */
  predicate IsSpace(c: char) {
    c == ' ' || c == '\t' || c == '\n' || c == '\r' || c == '\U{000B}' || c == '\U{000C}'
    || c == '\U{00A0}' || c == '\U{1680}' || ('\U{2000}' <= c <= '\U{200A}')
    || c == '\U{2028}' || c == '\U{2029}' || c == '\U{202F}' || c == '\U{205F}'
    || c == '\U{3000}' || c == '\U{FEFF}'
  }

  function TrimStart(s: string): (r: string)
    ensures |r| <= |s| && r == s[|s| - |r|..]
    ensures forall k :: 0 <= k < |s| - |r| ==> IsSpace(s[k])
    ensures |r| > 0 ==> !IsSpace(r[0])
  {
    if |s| > 0 && IsSpace(s[0]) then TrimStart(s[1..]) else s
  }

  function TrimEnd(s: string): (r: string)
    ensures |r| <= |s| && r == s[..|r|]
    ensures forall k :: |r| <= k < |s| ==> IsSpace(s[k])
    ensures |r| > 0 ==> !IsSpace(r[|r| - 1])
  {
    if |s| > 0 && IsSpace(s[|s| - 1]) then TrimEnd(s[..|s| - 1]) else s
  }

  /** `s.trim()`: the infix of `s` left after dropping leading and trailing
      whitespace; it neither starts nor ends with whitespace. */
  function Trim(s: string): (r: string)
    ensures exists i :: TrimmedAt(s, r, i)
    ensures |r| > 0 ==> !IsSpace(r[0]) && !IsSpace(r[|r| - 1])
  {
    var t := TrimStart(s);
    var r := TrimEnd(t);
    var i := |s| - |t|;
    assert s[i..i + |r|] == r;
    assert TrimmedAt(s, r, i);
    r
  }

  /** A string without whitespace is its own trim. */
  lemma TrimNoSpace(s: string)
    requires forall k :: 0 <= k < |s| ==> !IsSpace(s[k])
    ensures Trim(s) == s
  {
  }

  /** `r` is the infix of `s` at `i` and only whitespace surrounds it. */
  predicate TrimmedAt(s: string, r: string, i: int) {
    && OccursAt(s, r, i)
    && (forall k :: 0 <= k < i ==> IsSpace(s[k]))
    && (forall k :: i + |r| <= k < |s| ==> IsSpace(s[k]))
  }

  /** Decimal rendering of a natural number (template-literal `${n}`). */
  function Decimal(n: nat): (r: string)
    ensures |r| >= 1
    ensures forall k :: 0 <= k < |r| ==> IsDigit(r[k])
    decreases n
  {
    if n < 10 then [Digit(n)] else Decimal(n / 10) + [Digit(n % 10)]
  }

  function Digit(d: nat): (c: char)
    requires d < 10
    ensures IsDigit(c) && c as int - '0' as int == d
  {
    ('0' as int + d) as char
  }

  /** Value of a string of decimal digits. */
  function DecimalValue(s: string): nat
    requires forall k :: 0 <= k < |s| ==> IsDigit(s[k])
  {
    if |s| == 0 then 0
    else
      assert IsDigit(s[|s| - 1]);
      10 * DecimalValue(s[..|s| - 1]) + (s[|s| - 1] as int - '0' as int)
  }

  /** Reading back a rendered number gives the number. */
  lemma {:induction false} DecimalRoundTrip(n: nat)
    ensures DecimalValue(Decimal(n)) == n
    decreases n
  {
    if n >= 10 {
      DecimalRoundTrip(n / 10);
      var r := Decimal(n);
      assert r[..|r| - 1] == Decimal(n / 10);
    }
  }
}

=== FILE: topics.dfy ===
/** The topic picker: the order in which topics are offered (by message
    type, then by name), the option descriptions and the search filter, the
    message-type colours, and the lock that refuses a topic change while an
    execution runs. */
module TopicPicker {
  import opened Wrappers
  import opened Types
  import Text
  import Sorting
  import Config

  /** `messageTypeOrder` */
  const TypeOrder: seq<string> := ["json", "nvfix", "xml", "bson", "fix"]

  /** `messageTypeOrder.indexOf(messageType.toLowerCase())`: -1 for a type
      the list does not name. */
  function TypeIndex(messageType: string): (i: int)
    ensures -1 <= i < |TypeOrder|
    ensures i == -1 <==> Text.Lower(messageType) !in TypeOrder
    ensures i >= 0 ==> TypeOrder[i] == Text.Lower(messageType)
  {
    var t := Text.Lower(messageType);
    if t == "json" then 0
    else if t == "nvfix" then 1
    else if t == "xml" then 2
    else if t == "bson" then 3
    else if t == "fix" then 4
    else -1
  }

  /** The comparator as a "sorts no later than" relation: different known
      types by list position, an unknown type after every known one, and
      equal positions (two unknown types included) by name. */
  function TopicLe(nameLe: (string, string) -> bool): (Config.Topic, Config.Topic) -> bool {
    (a: Config.Topic, b: Config.Topic) =>
      var ia := TypeIndex(a.messageType);
      var ib := TypeIndex(b.messageType);
      if ia != ib then
        if ia == -1 then false
        else if ib == -1 then true
        else ia < ib
      else nameLe(a.name, b.name)
  }

  /** The position a type sorts at: its list position, unknown types last. */
  function Rank(messageType: string): (r: nat)
    ensures r <= |TypeOrder|
    ensures r == |TypeOrder| <==> TypeIndex(messageType) == -1
  {
    var i := TypeIndex(messageType);
    if i == -1 then |TypeOrder| else i
  }

  /** The comparator is the lexicographic order on (rank, name). */
  lemma TopicLeIsLexicographic(nameLe: (string, string) -> bool, a: Config.Topic, b: Config.Topic)
    ensures TopicLe(nameLe)(a, b) <==>
      Rank(a.messageType) < Rank(b.messageType) ||
      (Rank(a.messageType) == Rank(b.messageType) && nameLe(a.name, b.name))
  {
  }

  lemma TopicLeTotal(nameLe: (string, string) -> bool)
    requires Sorting.TotalPreorder(nameLe)
    ensures Sorting.TotalPreorder(TopicLe(nameLe))
  {
    var le := TopicLe(nameLe);
    forall a, b ensures le(a, b) || le(b, a) {
      TopicLeIsLexicographic(nameLe, a, b);
      TopicLeIsLexicographic(nameLe, b, a);
    }
    forall a, b, c | le(a, b) && le(b, c) ensures le(a, c) {
      TopicLeIsLexicographic(nameLe, a, b);
      TopicLeIsLexicographic(nameLe, b, c);
      TopicLeIsLexicographic(nameLe, a, c);
    }
  }

  /** `sortedTopics` */
  function SortTopics(topics: seq<Config.Topic>, nameLe: (string, string) -> bool): (r: seq<Config.Topic>)
    ensures multiset(r) == multiset(topics)
  {
    Sorting.Sort(topics, TopicLe(nameLe))
  }

  /** The offered order is sorted by (rank, name); in particular every topic
      of a listed type comes before every topic of an unlisted one, and
      topics that compare equal keep their given order. */
  lemma SortTopicsSpec(topics: seq<Config.Topic>, nameLe: (string, string) -> bool, e: Config.Topic)
    requires Sorting.TotalPreorder(nameLe)
    ensures var r := SortTopics(topics, nameLe);
      && Sorting.Sorted(TopicLe(nameLe), r)
      && (forall i, j :: 0 <= i < j < |r| ==> Rank(r[i].messageType) <= Rank(r[j].messageType))
      && (forall i, j :: 0 <= i < |r| && 0 <= j < |r| ==>
            TypeIndex(r[i].messageType) >= 0 && TypeIndex(r[j].messageType) == -1 ==> i < j)
      && Sorting.Keep(r, TopicLe(nameLe), e) == Sorting.Keep(topics, TopicLe(nameLe), e)
  {
    var r := SortTopics(topics, nameLe);
    TopicLeTotal(nameLe);
    Sorting.SortSorted(topics, TopicLe(nameLe));
    Sorting.SortStable(topics, TopicLe(nameLe), e);
    forall i, j | 0 <= i < j < |r|
      ensures Rank(r[i].messageType) <= Rank(r[j].messageType)
    {
      TopicLeIsLexicographic(nameLe, r[i], r[j]);
    }
  }

  /** An entry of the picker; `title` is its label. */
  datatype TopicOption = TopicOption(value: string, title: string, messageType: string, description: string)

  /** `${messageType} • Key: ${key || 'No key'} • File: ${fileName || 'N/A'}` */
  function Description(t: Config.Topic): string {
    var key := if t.key == "" then "No key" else t.key;
    var file := if t.fileName.Some? && t.fileName.value != "" then t.fileName.value else "N/A";
    t.messageType + " • Key: " + key + " • File: " + file
  }

  function OptionOf(t: Config.Topic): TopicOption {
    TopicOption(t.name, t.name, t.messageType, Description(t))
  }

  /** `topicOptions`: one option per topic, in the offered order. */
  function Options(topics: seq<Config.Topic>, nameLe: (string, string) -> bool): (os: seq<TopicOption>)
    ensures var sorted := SortTopics(topics, nameLe);
      |os| == |sorted| && forall i :: 0 <= i < |os| ==> os[i] == OptionOf(sorted[i])
  {
    var sorted := SortTopics(topics, nameLe);
    seq(|sorted|, i requires 0 <= i < |sorted| => OptionOf(sorted[i]))
  }

  /** An option is shown when its label or its description contains the
      typed text, ignoring ASCII case. */
  predicate Shows(o: TopicOption, input: string) {
    var needle := Text.Lower(input);
    Text.Contains(Text.Lower(o.title), needle) || Text.Contains(Text.Lower(o.description), needle)
  }

  /** `filterTopicOptions` */
  function Filter(options: seq<TopicOption>, input: string): (r: seq<TopicOption>)
    ensures forall o :: o in r <==> o in options && Shows(o, input)
    ensures |r| <= |options|
  {
    if |options| == 0 then []
    else
      var rest := Filter(options[1..], input);
      assert options == [options[0]] + options[1..];
      if Shows(options[0], input) then [options[0]] + rest else rest
  }

  /** Filtering keeps the shown options in their order and each as often as
      it occurs: it distributes over concatenation, and a single option stays
      exactly when it is shown. */
  lemma {:induction false} FilterAppend(a: seq<TopicOption>, b: seq<TopicOption>, input: string)
    ensures Filter(a + b, input) == Filter(a, input) + Filter(b, input)
    ensures |a| == 1 ==> Filter(a, input) == (if Shows(a[0], input) then a else [])
    decreases |a|
  {
    if |a| == 0 {
      assert a + b == b;
    } else {
      FilterAppend(a[1..], b, input);
      FilterAppendStep(a[0], a[1..], b, input);
      assert a == [a[0]] + a[1..];
      if |a| == 1 {
        FilterCons(a[0], [], input);
        assert a == [a[0]] + [];
      }
    }
  }

  lemma FilterAppendStep(x: TopicOption, rest: seq<TopicOption>, b: seq<TopicOption>, input: string)
    requires Filter(rest + b, input) == Filter(rest, input) + Filter(b, input)
    ensures Filter([x] + rest + b, input) == Filter([x] + rest, input) + Filter(b, input)
  {
    var head: seq<TopicOption> := if Shows(x, input) then [x] else [];
    Sorting.Associative([x], rest, b);
    FilterCons(x, rest + b, input);
    FilterCons(x, rest, input);
    Sorting.Associative(head, Filter(rest, input), Filter(b, input));
  }

  /** One step of the filter. */
  lemma FilterCons(x: TopicOption, rest: seq<TopicOption>, input: string)
    ensures Filter([x] + rest, input) == (if Shows(x, input) then [x] else []) + Filter(rest, input)
  {
    assert ([x] + rest)[1..] == rest;
  }

  /** An empty search shows every option, in order. */
  lemma {:induction false} FilterEmptyShowsAll(options: seq<TopicOption>)
    ensures Filter(options, "") == options
  {
    if |options| > 0 {
      FilterEmptyShowsAll(options[1..]);
      Text.ContainsEmpty(Text.Lower(options[0].title));
      assert Text.Lower("") == "";
    }
  }

  /** Narrowing twice with the same text is narrowing once. */
  lemma {:induction false} FilterIdempotent(options: seq<TopicOption>, input: string)
    ensures Filter(Filter(options, input), input) == Filter(options, input)
  {
    if |options| > 0 {
      FilterIdempotent(options[1..], input);
    }
  }

  /** `messageTypeColors[type.toLowerCase()] || 'default'` */
  function TypeColor(messageType: string): (c: string)
    ensures c != "default" <==> TypeIndex(messageType) >= 0
  {
    var t := Text.Lower(messageType);
    if t == "json" then "success"
    else if t == "nvfix" then "primary"
    else if t == "xml" then "warning"
    else if t == "bson" then "info"
    else if t == "fix" then "secondary"
    else "default"
  }

  /** What choosing a topic does. */
  datatype TopicChange = Refused(notice: Notice) | Selected(topic: string)

  const LockedNotice := Notice(Warning, "Topic Locked",
    "Topic selection is locked during active subscriptions. Click Stop to change the topic.")

  /** `handleTopicChange`: refused with a warning while executing; otherwise
      the chosen topic, the empty name when the choice was cleared. */
  function TopicChanged(exec: ExecState, value: Option<string>): (r: TopicChange)
    ensures r.Refused? <==> exec.isExecuting
    ensures r.Refused? ==> r.notice == LockedNotice
    ensures r.Selected? ==> r.topic == value.GetOr("")
  {
    if exec.isExecuting then Refused(LockedNotice) else Selected(value.GetOr(""))
  }

  /** `isDisabled` */
  predicate IsDisabled(conn: ConnState, exec: ExecState) {
    !conn.isConnected || exec.isExecuting
  }

  /** `isLocked` */
  predicate IsLocked(exec: ExecState) {
    exec.isExecuting
  }

  /** A locked picker is disabled too, and while the picker accepts input
      (connected, idle) a change always goes through. */
  lemma LockImpliesDisabled(conn: ConnState, exec: ExecState, value: Option<string>)
    ensures IsLocked(exec) ==> IsDisabled(conn, exec)
    ensures !IsDisabled(conn, exec) ==> TopicChanged(exec, value).Selected?
  {
  }
}

=== FILE: types.dfy ===
/** The records shared by the service and the hook: grid rows, broker
    messages, the connection-state and execution-state records and the
    subscription record. */
module Types {
  import opened Wrappers
  import Config

  /** A JSON-like field value.  Objects and arrays compare by reference
      under `===`, so they carry only an identity. */
  datatype Value = Str(s: string) | Num(n: real) | Bool(b: bool) | Null | Obj(ref: nat)

  /** JavaScript truthiness (`NaN` is not representable here). */
  predicate Truthy(v: Value) {
    match v
    case Str(s) => |s| > 0
    case Num(n) => n != 0.0
    case Bool(b) => b
    case Null => false
    case Obj(_) => true
  }

  /** A grid record: a field is in the map exactly when it is defined. */
  type Row = map<string, Value>

  /** Field names used by the reconciler. */
  const KeyField := "key"
  const ErrorField := "error"

  /** A clock reading (`new Date()`), supplied by the caller. */
  type Time = nat

  /** A message as the service hands it to a handler: its command tag and
      its payload, `None` for `null`/`undefined`. */
  datatype Message = Message(command: string, data: Option<Row>)

  /** `AMPSConnectionState`; an optional property is `None` when absent. */
  datatype ConnState = ConnState(
    isConnected: bool,
    isConnecting: bool,
    error: Option<string>,
    server: Option<string>)
  {
    /** Never both connected and connecting. */
    predicate Coherent() {
      !(isConnected && isConnecting)
    }
  }

  /** `{ isConnected: false, isConnecting: false }` */
  const Idle := ConnState(false, false, None, None)

  /** `AMPSSubscription`; `command` is the command's string value. */
  datatype Subscription = Subscription(
    id: string,
    topic: string,
    command: string,
    filter: Option<string>,
    options: Option<Config.QueryOptions>,
    isActive: bool,
    subId: Option<string>)

  /** `ExecutionState` */
  datatype ExecState = ExecState(
    isExecuting: bool,
    activeSubscriptions: seq<Subscription>,
    error: Option<string>,
    lastExecuted: Option<Time>)

  /** `{ isExecuting: false, activeSubscriptions: [] }` */
  const NotExecuting := ExecState(false, [], None, None)

  /** A notification's severity. */
  datatype Severity = Success | Error | Warning | Info

  /** The argument of `NotificationFunction`. */
  datatype Notice = Notice(severity: Severity, title: string, message: string)
}

=== FILE: wrappers.dfy ===
/** Failure-compatible wrapper types used throughout the model: `Option`
    stands for a JavaScript value that may be `undefined`/`null`, `Result`
    for an operation that either returns or throws. */
module Wrappers {

  datatype Option<+T> = None | Some(value: T) {

    /** The value, or `default` when absent (JavaScript's `x ?? default`). */
    function GetOr(default: T): T {
      match this
      case Some(v) => v
      case None => default
    }
  }

  /** `Ok` is a normal return, `Err` carries the message of the thrown error. */
  datatype Result<+R> = Ok(value: R) | Err(message: string) {

    predicate IsFailure() {
      Err?
    }
  }
}
